=== FILE: README.md ===
# PackOne modules in Dafny

A model of the core of the stoermelder PackOne plugin for VCV Rack. It covers the matrix mixer
Intermix, the preset sequencer EightFace, the parameter mapper CV-Map and the
mapping bookkeeping it shares with other mapping modules (`MapModule`). It also
covers the parameter recorder ReMove with its run-length storage format, the
2-D mixer Arena, the carrier splitter RotorA, the scroll-wheel controller Spin, and
the module-strip controller Strip. The panel button with long-press detection
(`LongPressButton`) used by EightFace and Strip is modelled as well.

Each module is one Dafny module. The module's state is an immutable
`datatype State`, and one audio sample (`process`) is a pure function from
a state and a `Frame` to a new state and the outputs. The `Frame` holds
what the host supplies for that sample: input voltages, whether jacks
are connected, button values, and the rising edges the Schmitt triggers report.
Host-side helpers have small stand-ins in `Dsp`: the boolean trigger, the
pulse generator, the linear fade and the exponential filter.
`Rack` holds the numeric helpers of the Rack SDK. These are `clamp`,
`rescale`, floor, ceiling, rounding and C's truncating remainder. Voltages are
`real`, and integer state uses unbounded `int` with the source's ranges
kept as invariants (`Valid`).

Files: `rack.dfy`, `dsp.dfy`, `long_press.dfy`, `param_map.dfy`,
`cv_map.dfy`, `intermix.dfy` (state and scene switching),
`intermix_audio.dfy` (audio path and whole sample), `intermix_store.dfy`
(reset and persistence), `intermix_label.dfy` (input-mode labels),
`eight_face.dfy`, `remove_rle.dfy`, `remove.dfy`, `arena.dfy`, `rotor_a.dfy`,
`spin.dfy`, `strip.dfy`.

Where the written description of the plugin and the code disagree, the model
follows the code:
- EightFace has four slot-CV modes: 10 V, C4, trigger and clock. There is no
  ping-pong, random or reverse mode, and no debounce.
- Intermix's output stage is the SIMD variant. It enables an output whose mode code
  is non-zero, so every mode except `OM_OFF` passes. The commented-out scalar code
  tested for `OM_OUT` instead.
- Arena's input-position CVs are indexed by the output index in the loop over
  outputs. So only inputs 0 and 1 follow their X/Y CVs, each only while
  its output's loop iteration runs, and the model does exactly that.

For each defect listed under Findings the model keeps both versions. The
whole-sample functions use the code as written wherever that keeps the state
valid: ReMove's move-mode trim, its `seqSet` and its stored encoding. They use
the corrected version only where the code as written would leave the valid
states. These are Intermix's VOLT scene index, ReMove's playback step and PHASE
index on an empty sequence, and RotorA's upper channel.

## Model

| member | source | states |
|---|---|---|
| LongPress.Step | src/components.hpp:15-35 | A long press is reported exactly when the button is held, the hold has not yet fired and the held time reaches 1 s. A short press is reported exactly on a release before a long press. A release re-arms the timer. |
| LongPress.Run | src/components.hpp:15-35 | Stepping the button over a sequence of values yields one event per sample. |
| LongPress.HoldPhase | src/components.hpp:17-24 | After k samples held from idle, either the held time is k·dt and nothing has fired, or the hold has fired exactly one long press and is disarmed. |
| LongPress.PressThenRelease | src/components.hpp:5-36 | Holding for n samples and then releasing fires exactly one event and leaves the button idle. That event is a long press iff n·dt ≥ 1 s and a short press on release iff n·dt < 1 s. |
| ParamMap.LastMapped | src/MapModule.hpp:115-122 | The backward scan finds the last mapped handle, or -1, and every handle after it is unmapped. |
| ParamMap.MapLenOf | src/MapModule.hpp:115-126 | The list length covers every mapped handle. It ends in one spare unmapped slot unless all slots are used. |
| ParamMap.MapLenUnique | src/MapModule.hpp:115-126 | Those properties determine the list length uniquely. |
| ParamMap.NextUnmapped | src/MapModule.hpp:136-139 | The forward search returns the first unmapped handle at or after the start, or -1 when every later handle is mapped. |
| ParamMap.ClearMaps | src/MapModule.hpp:106-113 | Every handle is unmapped and every filter reset. The list is empty and learning is off. |
| ParamMap.OnReset | src/MapModule.hpp:67-72 | Nothing is mapped and learning is off. The list holds exactly the one spare slot, which is the length the list-length rule gives. |
| ParamMap.ClearMap | src/MapModule.hpp:99-104 | Only the given handle is unmapped and only its filter reset. Learning stops and the list length is recomputed. |
| ParamMap.CommitLearn | src/MapModule.hpp:128-141 | Without a pending learned parameter nothing changes. Otherwise learning moves to the next unmapped handle after the current one, or stops. Handles and list are untouched. |
| ParamMap.EnableLearn | src/MapModule.hpp:143-148 | Learning targets the handle. The learned flag survives only when that handle was already the target. |
| ParamMap.DisableLearn | src/MapModule.hpp:150-154 | Learning stops only if it targeted this handle. |
| ParamMap.LearnParam | src/MapModule.hpp:156-161 | Only the given handle changes, to the new module and parameter. The learned handle and the slot after it are listed, and learning moves on to the next unmapped handle after the cursor, or ends when there is none. Without a cursor the learned flag stays set. |
| ParamMap.GetParamQuantity | src/MapModule.hpp:84-97 | A quantity is found iff the module exists, the parameter index is in range, and the parameter exists and is bounded. |
| ParamMap.ToJson | src/MapModule.hpp:164-178 | Exactly the listed handles are stored, in order. |
| ParamMap.LoadHandles | src/MapModule.hpp:180-196 | A stored entry with both ids becomes that handle. Missing or incomplete entries, and entries past the channel count, leave the handle unmapped. |
| ParamMap.FromJson | src/MapModule.hpp:180-201 | Loading replaces all handles, recomputes the list length and stops learning. Text scrolling is read back, false when absent. |
| ParamMap.JsonRoundTrip | src/MapModule.hpp:164-201 | Saving and loading restores every handle and the list length. |
| ParamMap.Indicate | src/MapModule.hpp:25-28 | A blink starts with the full count and remembers the colour shown. |
| ParamMap.IndicatorStep | src/MapModule.hpp:14-23 | Once the blink interval elapses the count drops by one, alternating between black and the saved colour. Before that, time accumulates. An idle indicator is unchanged. |
| ParamMap.ProcessIndicators | src/MapModule.hpp:74-82 | Only the indicators of mapped handles advance. |
| ParamMap.BlinkSequence | src/MapModule.hpp:7-29 | With steps longer than the interval, n steps after a blink the count is the full count minus n, floored at 0. The colour is black on odd counts and the original colour otherwise. |
| CvMap.Normalise | src/CVMap.cpp:77-80 | 0..10 V (or -5..5 V in bipolar mode) maps onto 0..1. |
| CvMap.NewFilters | src/CVMap.cpp:62-81 | Only listed handles with an existing bounded parameter smooth towards their channel's normalised CV. Channels 0-15 come from the first input and 16-31 from the second. Other filters keep their state. |
| CvMap.Writes | src/CVMap.cpp:66-84 | A parameter write is issued for exactly the driven handles. Each carries the filter value rescaled to the parameter's range. |
| CvMap.Step | src/CVMap.cpp:62-84 | A sample advances the filters and issues the writes for the driven handles. Nothing else in the state changes. |
| CvMap.StepStaysInRange | src/CVMap.cpp:62-84 | With CVs in the range the polarity expects, filters stay in 0..1 and every write lies inside the target parameter's range. |
| CvMap.OnReset | src/CVMap.cpp:55-60 | Nothing is mapped and one spare slot is listed. The polarity setting is kept. |
| CvMap.LearnParam | src/CVMap.cpp:157-162 | Handle id becomes (module, parameter) and no other handle changes. The learned handle is listed, the list never exceeds 32 handles, and learning moves on to the next unmapped handle. Polarity is kept. |
| CvMap.ClearMap | src/CVMap.cpp:100-105 | Only handle id becomes unmapped and only its filter is reset. Learning stops and the list length is recomputed. Polarity is kept. |
| CvMap.ToJson | src/CVMap.cpp:164-180 | The listed handles are stored in order, each with its module and parameter ids, together with the polarity. |
| CvMap.FromJson | src/CVMap.cpp:182-203 | Every map is cleared, then each complete stored entry with an index below 32 maps its handle. Entries past the stored list stay unmapped, learning stops and the list length is recomputed. Bipolar mode is read back, false when absent. |
| CvMap.JsonRoundTrip | src/CVMap.cpp:164-203 | Saving and loading restores the handles and the polarity. |
| Intermix.ArmFade | src/Intermix.cpp:209-211 | A changed pad value of exactly 1 or 0 retargets the fade to it. Any other pad value leaves the fade alone. |
| Intermix.SceneSet | src/Intermix.cpp:318-356 | The corrected `sceneSet`: selecting the current scene, a negative index or an index of 8 or more does nothing. Otherwise the scene buttons become one-hot, and the panel and current matrix show the new scene. The fades are armed wherever a pad changes to 0 or 1 relative to the previous scene. |
| Intermix.SceneSetKeepsFadeTargets | src/Intermix.cpp:343-349 | After a scene change the fade targets agree with the selected scene's 0/1 pads. |
| Intermix.C4SceneIndex | src/Intermix.cpp:166 | The C4 scene index always names an existing scene. |
| Intermix.VoltSceneIndex | src/Intermix.cpp:170-171 | The VOLT index spreads 0..10 V over the eight scenes without clamping: a negative voltage gives a negative index and 10.5 V or more an index past the last scene. |
| Intermix.VoltIndexInRange | src/Intermix.cpp:171 | For 0..10 V the VOLT index names an existing scene. |
| Intermix.VoltOverrunAsWritten | src/Intermix.cpp:171 | At 10.5 V the VOLT index is 8, past the last scene, and the as-written guard lets it through. |
| Intermix.SceneCv | src/Intermix.cpp:156-182 | Trigger-forward advances cyclically on an edge. C4 and VOLT switch to the scene the voltage names, and a negative VOLT voltage changes nothing. ARM switches to the armed scene on an edge, and does nothing when nothing is armed. The stored scenes never change. |
| Intermix.FirstOtherPressed | src/Intermix.cpp:185-197 | Returns the first pressed scene button other than the selected one, or -1 when there is none. |
| Intermix.WriteBack | src/Intermix.cpp:202-214 | The panel's matrix, output switches and attenuverters are stored into the selected scene, and every fader takes the panel's rise and fall times. Other scenes are untouched. |
| Intermix.PollChoose | src/Intermix.cpp:186-197 | Another pressed button switches scenes, or in ARM mode only arms it. |
| Intermix.PollSelect | src/Intermix.cpp:185-200 | The polled selection follows the first other pressed button. Afterwards the selected scene's button is always lit. |
| Intermix.Poll | src/Intermix.cpp:184-215 | After a poll the selected scene's button is lit. The live matrix, the pads and the selected scene's matrix agree, and the selected scene takes the attenuverters. Only the selected scene changes. |
| Intermix.PollSelects | src/Intermix.cpp:184-215 | A panel poll selects or arms the first other pressed scene, lights the selected button, and leaves current matrix, panel and stored scene in agreement. |
| Intermix.PollKeepsFadeTargets | src/Intermix.cpp:184-215 | A panel poll keeps the fade targets in agreement with the selected scene's 0/1 pads. |
| IntermixAudio.Resolve | src/Intermix.cpp:221-239 | An input contributes nothing iff it is off, or direct/fade without a cable. Direct and fade pass the jack voltage. Every other code is the constant (code − 24)/12 V. |
| IntermixAudio.ConstantIgnoresJack | src/Intermix.cpp:236-238 | A constant-voltage input does not depend on its jack. |
| IntermixAudio.FadeRows | src/Intermix.cpp:229-235 | Only the rows of connected fade-mode inputs advance their faders and current matrix. Fade targets and scenes are unchanged. |
| IntermixAudio.OutputStage | src/Intermix.cpp:260-276 | A disabled output is 0 V. An enabled output is the mix, clamped to [-10 V, 10 V] when clamping is on, times the attenuverter; with clamping on it is therefore bounded by 10 V times the attenuverter. |
| IntermixAudio.Audio | src/Intermix.cpp:218-276 | Every output is the output stage applied to the mix of the resolved inputs through the current matrix. |
| IntermixAudio.Contributions | src/Intermix.cpp:219-239 | The value each input feeds the mix is its resolved mode. |
| IntermixAudio.OutputBounded | src/Intermix.cpp:260-276 | With clamping on, no output exceeds 10 V times its attenuverter. |
| IntermixAudio.MixIdentity | src/Intermix.cpp:241-245 | Mixing through the identity matrix passes each input to its own output. |
| IntermixAudio.StraightThrough | src/Intermix.cpp:218-276 | With the identity matrix, direct inputs all connected and outputs enabled at unity, every output equals its input, clamped to [-10 V, 10 V] when clamping is on. |
| IntermixAudio.StraightThroughClamped | src/Intermix.cpp:260-276 | With clamping on, as after a reset, inputs within [-10 V, 10 V] pass the straight-through patch unchanged. |
| IntermixAudio.Process | src/Intermix.cpp:155-316 | A sample keeps the state valid and produces one voltage per port. |
| IntermixAudio.ProcessKeepsFadeTargets | src/Intermix.cpp:155-316 | A whole sample keeps the fade targets in agreement with the selected scene. |
| IntermixStore.OnReset | src/Intermix.cpp:114-153 | Every scene returns to the default and every input to direct mode. The scene mode is trigger-forward, clamping is on and the pad brightness is 0.75. Every panel control first returns to its configured default: pads and output switches 0, attenuverters 1, fade times 0. Then scene 0 is selected: if another scene was selected, scene button 0 lights and the others stay off; if scene 0 was already selected, all scene buttons stay off. |
| IntermixStore.PollAfterReset | src/Intermix.cpp:134-153 | The first poll after a reset keeps scene 0 and leaves it as the default scene, with an all-off live matrix, whatever the pads held before. |
| IntermixStore.Flatten | src/Intermix.cpp:384 | The matrix is stored row by row. |
| IntermixStore.FlattenRoundTrip | src/Intermix.cpp:384-438 | Unflattening a flattened matrix restores it. |
| IntermixStore.UnflattenRoundTrip | src/Intermix.cpp:384-438 | Flattening an unflattened list restores it. |
| IntermixStore.SaveScene | src/Intermix.cpp:374-393 | A stored scene is well-sized and loads back as the scene it came from. |
| IntermixStore.LoadScene | src/Intermix.cpp:419-438 | A loaded scene keeps the stored per-output fields, and stored matrix entry j*8 + k lands in cell [j][k]. |
| IntermixStore.ToPersisted | src/Intermix.cpp:358-402 | The stored form keeps the selection, the modes and every scene, each of which loads back as itself. |
| IntermixStore.FromPersisted | src/Intermix.cpp:404-453 | After loading, the current matrix is the selected scene's matrix, and every fader rests at its pad value with a matching target. |
| IntermixStore.PersistRoundTrip | src/Intermix.cpp:358-453 | Saving and loading restores the scenes, the selection and every setting, and saving again yields the same stored form. |
| IntermixLabel.Label | src/Intermix.cpp:469-485 | Every input-mode code from -75 to 123 (within 99 of 24) has a three-character label. |
| IntermixLabel.LabelRoundTrip | src/Intermix.cpp:469-485 | Each label reads back as the code it came from. |
| IntermixLabel.MenuCodesAreConstants | src/Intermix.cpp:525-530 | The 24 menu codes are constants whose voltages lie in -1..1 V and are never 0. |
| EightFace.OnReset | src/EightFace.cpp:105-121 | Every slot is empty and nothing is loaded or armed. All slots are in use, the target binding is forgotten and nothing is connected. |
| EightFace.Connected | src/EightFace.cpp:124-127 | The status is 0 iff there is no left neighbour. It is 2 iff nothing is bound yet or the neighbour matches the bound model and plugin. Otherwise it is 1. |
| EightFace.PresetLoad | src/EightFace.cpp:227-246 | An out-of-range slot does nothing. A load selects the slot and, if the slot is used, hands its snapshot to the worker. A clocked load only arms a used slot. |
| EightFace.PresetSave | src/EightFace.cpp:248-266 | The slot holds the neighbour's snapshot and the module binds to the neighbour's model. |
| EightFace.PresetClear | src/EightFace.cpp:268-283 | The slot is emptied, and deselected if it was loaded. The binding is forgotten iff no slot remains used. |
| EightFace.PresetSetCount | src/EightFace.cpp:285-289 | The slot count changes and the armed slot is dropped. A loaded slot past the new count falls back to slot 0. |
| EightFace.C4Slot | src/EightFace.cpp:138-139 | The C4 slot index always names an existing slot. |
| EightFace.SlotCv | src/EightFace.cpp:133-150 | 10 V mode loads the slot the voltage names and C4 mode the slot of its semitone, when that slot is active. TRIG mode loads the next slot on an edge, and CLOCK mode the armed slot. Without an edge, or out of range, nothing changes. Slot contents are never changed. |
| EightFace.ReadPress | src/EightFace.cpp:160-170 | A short press loads slot i (in CLOCK mode it only arms a used slot). A long press makes i + 1 slots active, drops the armed slot and falls back to slot 0 past the new count. No press changes nothing. |
| EightFace.ReadButtons | src/EightFace.cpp:160-170 | Every button is stepped, and slot contents are unchanged. With no button reporting an event, nothing else changes. |
| EightFace.ReadButtonsOne | src/EightFace.cpp:160-170 | When only button j reports an event, read mode does exactly that event. |
| EightFace.WritePress | src/EightFace.cpp:174-184 | A short press saves the neighbour's snapshot in slot i and binds to its model. A long press empties slot i and deselects it if loaded. No press changes nothing. |
| EightFace.WriteButtons | src/EightFace.cpp:174-184 | Every button is stepped, the slot count is kept, and the loaded slot is kept or deselected. With no event, nothing else changes. |
| EightFace.WriteButtonsOne | src/EightFace.cpp:174-184 | When only button j reports an event, write mode does exactly that event. |
| EightFace.ReadMode | src/EightFace.cpp:131-171 | Slot contents are unchanged. Without button events, a slot cable gives the slot CV's effect, a TRIG-mode reset edge loads slot 0, and with neither nothing changes. |
| EightFace.ReadModeOne | src/EightFace.cpp:131-171 | With no slot or reset cable, a single button event does exactly that event. |
| EightFace.Process | src/EightFace.cpp:123-190 | Without a matching neighbour only the status changes. In read mode slot contents are unchanged; in write mode the count is kept. Without events or cables nothing but the status changes, and a lone TRIG reset loads slot 0. |
| EightFace.ProcessOnePress | src/EightFace.cpp:123-184 | With a matching neighbour and no slot or reset cable, a single button event does its read-mode or write-mode effect. |
| EightFace.ClockArmsThenLoads | src/EightFace.cpp:145-166 | In CLOCK mode a short press on a used slot only arms it, and the next clock edge loads it and posts its snapshot. |
| EightFace.WorkerServe | src/EightFace.cpp:217-225 | With a request pending, the worker applies the requested slot and clears the request. Otherwise it does nothing. |
| EightFace.SaveThenLoad | src/EightFace.cpp:227-266 | Saving a neighbour into a slot and loading that slot gives the worker exactly that snapshot, and the neighbour then counts as matching. |
| EightFace.MailboxLatestWins | src/EightFace.cpp:217-246 | Of two loads before the worker runs, the later one wins. |
| EightFace.TrigAdvances | src/EightFace.cpp:141-143 | In trigger mode an edge advances the slot cyclically, and no edge changes nothing. |
| EightFace.TrigScenario | src/EightFace.cpp:141-143 | With three slots, four edges from nothing loaded visit slots 0, 1, 2, 0. |
| EightFace.TenVoltRange | src/EightFace.cpp:135-136 | In 10 V mode, 0..10 V picks an existing slot. Exactly 10 V gives the slot count, which the load ignores. |
| EightFace.ResetOnlyInTrig | src/EightFace.cpp:153-157 | A reset edge loads slot 0 in trigger mode only. |
| EightFace.IdleButtonsNoOp | src/EightFace.cpp:160-170 | Untouched idle buttons leave the loaded slot alone. |
| EightFace.ToPersisted | src/EightFace.cpp:291-311 | The stored form is loadable. It keeps the loaded slot, the count and the name, and stores a slot's snapshot only while the slot is in use. |
| EightFace.FromPersisted | src/EightFace.cpp:313-331 | Loading restores slot usage, contents and count. A stored slot past the count falls back to 0. |
| EightFace.PersistRoundTrip | src/EightFace.cpp:291-331 | Saving and loading restores the binding, name, mode, loaded slot, count and every used slot's snapshot. |
| ReMove.SegmentSize | src/ReMove.cpp:393-396 | Each sequence's share of the store is at least 12000 samples, and the shares fit the store together. |
| ReMove.SegmentSizeIsQuotient | src/ReMove.cpp:393-394 | The share is the store size divided by the sequence count. |
| ReMove.SegmentsDisjoint | src/ReMove.cpp:393-399 | Different sequences occupy disjoint ranges inside the store. |
| ReMove.PtrInBuffer | src/ReMove.cpp:393-399 | The data pointer always lies within the selected sequence's range. |
| ReMove.SeqUpdate | src/ReMove.cpp:393-399 | The selected sequence's range is recomputed, the pointer rewinds to its start and the filter resets. |
| ReMove.SeqNext | src/ReMove.cpp:368-371 | Selection moves to the next sequence, wrapping to 0, and rewinds. Data is unchanged. |
| ReMove.SeqPrev | src/ReMove.cpp:373-376 | Selection moves to the previous sequence, wrapping to the last, and rewinds. Data is unchanged. |
| ReMove.PrevUndoesNext | src/ReMove.cpp:368-376 | Previous after next returns to the same sequence, rewound. |
| ReMove.NextTimesCycles | src/ReMove.cpp:368-371 | n presses of next move n places around the cycle of sequences. |
| ReMove.SeqSetAsWritten | src/ReMove.cpp:378-382 | The clamped index is selected. An index equal to the current sequence changes nothing; any other index rewinds, even when it clamps to the current sequence. Data, lengths and playback are kept. |
| ReMove.SeqSet | src/ReMove.cpp:378-382 | The corrected `seqSet`, comparing after clamping: the clamped index is selected, selecting the current sequence changes nothing, and any other selection rewinds. |
| ReMove.SeqSetIdempotent | src/ReMove.cpp:378-382 | Selecting the same index twice is the same as once. |
| ReMove.SeqSetAsWrittenRewinds | src/ReMove.cpp:378-382 | As written, an out-of-range index equal after clamping to the current sequence still rewinds it. |
| ReMove.SeqIndexVolt | src/ReMove.cpp:239 | For 0..10 V the SEQ input names an existing sequence. |
| ReMove.SeqIndexC4 | src/ReMove.cpp:242 | The C4 index lies in 0..7, and 0 at or below 0 V. |
| ReMove.SeqResize | src/ReMove.cpp:384-391 | While not recording, resizing sets the count, empties the new sequences, stops playback and selects sequence 0. While recording, nothing changes. |
| ReMove.GetValue | src/ReMove.cpp:326-339 | A connected CV in uni or bi mode yields 0..1. Otherwise the parameter's own value is used. |
| ReMove.OutVoltage | src/ReMove.cpp:341-349 | The CV output is written iff it is connected and in uni or bi mode. It lies in 0..10 V or -5..5 V. |
| ReMove.ConversionRoundTrip | src/ReMove.cpp:326-349 | Reading a CV and writing it back in the same polarity gives the same voltage. |
| ReMove.StartRecording | src/ReMove.cpp:351-358 | Recording starts with an empty current sequence at its start. Other sequences and the data are untouched. |
| ReMove.StopRecording | src/ReMove.cpp:360-366 | Recording stops and the pointer rewinds. Data and lengths are kept. |
| ReMove.TrimAsWritten | src/ReMove.cpp:197-206 | As written, a recording of two or more samples is cut before the first sample of its trailing run of equal values, so the final value is dropped; shorter recordings are kept. The result is one less than the corrected trim. |
| ReMove.TrimInBuffer | src/ReMove.cpp:197-206 | Read off the buffer, every sample the trim as written cuts equals the recording's last sample, and the last sample kept differs from it. |
| ReMove.Trim | src/ReMove.cpp:201-206 | The corrected trim: the trimmed length keeps everything up to the first sample of the trailing constant run, and at least one sample. |
| ReMove.TrimIdempotent | src/ReMove.cpp:201-206 | Trimming a trimmed recording changes nothing. |
| ReMove.TrimAsWrittenDropsFinal | src/ReMove.cpp:201-206 | As written, the trim drops the final sample of a recording that ends in a change. |
| ReMove.StopAndTrim | src/ReMove.cpp:197-206 | Stopping a move-mode recording sets the length to the trim as written. From two samples up the length shrinks, everything cut equals the last value, and the sample kept last differs from it; shorter recordings keep their length. |
| ReMove.WriteSample | src/ReMove.cpp:211-219 | The value is stored at the pointer and the length grows by one. Recording continues iff the sequence's share is not full. |
| ReMove.MayRecord | src/ReMove.cpp:165-189 | Recording is gated by touch in touch mode and by a change of value in move mode, until the first sample is taken. Manual mode always records. |
| ReMove.ReleaseStop | src/ReMove.cpp:192-207 | Touch and move recordings stop when the mouse is released; manual recordings continue. |
| ReMove.Tick | src/ReMove.cpp:221 | The precision counter counts modulo 2^precision. |
| ReMove.RecordAtTick | src/ReMove.cpp:192-219 | A recording tick writes at most one sample, and only at the pointer. Manual mode always writes. A released touch or move recording stops without writing. |
| ReMove.RecordPhase | src/ReMove.cpp:162-223 | The recording branch changes only the selected sequence's data and length, by at most one sample. A sample the gate lets through marks a touch or move recording as touched; manual mode leaves the mark alone. |
| ReMove.RecordPhaseCases | src/ReMove.cpp:162-223 | Off-tick samples write nothing. Manual ticks write one sample. Released touch or move recordings stop without writing. |
| ReMove.ManualStep | src/ReMove.cpp:211-219 | One manual sample at full precision stores the value and advances the pointer by one. |
| ReMove.RecordRunKeepsPrefix | src/ReMove.cpp:211-219 | A run of manual samples leaves everything before the pointer unchanged. |
| ReMove.RecordRunStores | src/ReMove.cpp:211-219 | A run of manual samples stores the values consecutively from the pointer. |
| ReMove.StepAsWritten | src/ReMove.cpp:289-305 | As written, a step within a non-empty recording stays inside it. On an empty recording a forward step always moves on by one. |
| ReMove.AdvanceAsWritten | src/ReMove.cpp:289-305 | As written, playback moves only the pointer and direction, and on an empty sequence walks forward by one every sample. |
| ReMove.PointerStep | src/ReMove.cpp:289-305 | The playback pointer stays inside the sequence and agrees with the as-written step whenever the sequence is non-empty. Loop wraps to the start and one-shot holds at the end. |
| ReMove.Advance | src/ReMove.cpp:289-305 | Playback moves only the pointer and direction. Loop forward wraps at the end and one-shot holds the last sample. |
| ReMove.AdvanceAsWrittenRunsOff | src/ReMove.cpp:293 | As written, playing an empty sequence moves the pointer past its start on every sample. The corrected step stays put. |
| ReMove.PingPongTurns | src/ReMove.cpp:296-305 | Ping-pong turns back at either end and otherwise steps backwards. |
| ReMove.PlaySample | src/ReMove.cpp:286-291 | The output is the filter moved towards the sample at the pointer, and the pointer then advances. |
| ReMove.PhaseIndexAsWritten | src/ReMove.cpp:276 | As written, the PHASE index lies inside a non-empty recording. For an empty one it is the start at 0 V or below and one before the start for any positive voltage. |
| ReMove.PhaseIndex | src/ReMove.cpp:276 | The PHASE index always lies inside the sequence and agrees with the as-written one for non-empty sequences. |
| ReMove.PhaseAsWrittenLeavesSegment | src/ReMove.cpp:276 | As written, an empty sequence at 5 V gives an index before its start. |
| ReMove.PhaseEnds | src/ReMove.cpp:276 | 0 V addresses the first sample and 10 V the last. |
| ReMove.RecToggle | src/ReMove.cpp:150-160 | A REC edge stops playback and, with a mapped parameter, toggles recording. Starting a recording empties the sequence and records the start value. |
| ReMove.SeqInput | src/ReMove.cpp:236-249 | The SEQ input selects by voltage (10 V range or C4) through `seqSet` as written. In both voltage modes an index equal to the current one changes nothing and any other rewinds and resets the filter. In trigger mode an edge selects the next sequence. It does nothing when unplugged. |
| ReMove.ResetPhase | src/ReMove.cpp:252-257 | A reset edge rewinds to the start, forward, with the precision counter cleared. |
| ReMove.RunPhase | src/ReMove.cpp:260-268 | With a RUN cable, playback follows the gate. Otherwise a RUN edge toggles playback. |
| ReMove.PhasePhase | src/ReMove.cpp:271-280 | A PHASE cable stops playback and outputs the sample at the PHASE index. |
| ReMove.PlayPhase | src/ReMove.cpp:282-309 | A value is output iff playing, on a precision tick, with a mapped parameter. That value is the played sample, smoothed, and the pointer advances and the divider ticks. Off a tick only the divider moves; without a mapped parameter playback stops. |
| ReMove.Navigate | src/ReMove.cpp:225-249 | The previous and next buttons step the selection (both together rewind the current sequence), then the SEQ input selects by voltage. Data, lengths, count and playback are kept. |
| ReMove.Playback | src/ReMove.cpp:251-309 | A PHASE cable stops playback and its sample is the value output. Without one, the output is the playback step's, taken after RESET and RUN; after a reset edge it is the first sample of the sequence, smoothed from a reset filter. |
| ReMove.PlayBranch | src/ReMove.cpp:225-309 | Navigation happens before playback and decides the sequence played. With no navigation input the branch is playback alone. |
| ReMove.Process | src/ReMove.cpp:146-324 | A sample never writes outside the selected sequence, and the CV output carries the played value. A recording only grows, and without recording nothing in the store changes. |
| ReMove.RecordingKeepsOtherSequences | src/ReMove.cpp:162-223 | While recording, every other sequence's samples stay intact. |
| ReMove.OnReset | src/ReMove.cpp:132-144 | Every sequence is emptied, playback and recording stop, and the pointer rewinds. |
| ReMove.ToJson | src/ReMove.cpp:412-457 | Each sequence's length is stored, and its recorded samples encoded by the encoder as written. |
| ReMove.ToJsonIntended | src/ReMove.cpp:412-457 | The same record with the corrected encoder. |
| ReMove.FromJson | src/ReMove.cpp:459-519 | Stored lengths replace those of the existing sequences, and the pointer rewinds. |
| ReMove.LoadLengths | src/ReMove.cpp:481-489 | Stored lengths replace those of the sequences in use. Entries past the count are skipped, and sequences with no entry keep their length. |
| ReMove.LoadData | src/ReMove.cpp:491-517 | Loading from sequence k onward writes nothing below sequence k's range. Without stored data, or past the count, nothing is written. |
| ReMove.LoadDataRestores | src/ReMove.cpp:491-517 | Decoding the stored token lists rebuilds every sequence's samples in its own range. |
| ReMove.JsonRoundTrip | src/ReMove.cpp:412-519 | Saving with the corrected encoder and loading restores every sequence's samples. |
| ReMove.JsonRoundTripWithoutRepeats | src/ReMove.cpp:412-519 | Saving as written and loading also restores every sequence, when no recording has two equal neighbouring samples or starts at 100. |
| ReMoveRle.EncodeAsWritten | src/ReMove.cpp:415-436 | As written, the encoding is empty iff nothing is left to encode. When the history holds two different values, the first token is the next sample. |
| ReMoveRle.Encode | src/ReMove.cpp:415-436 | The corrected encoder: the encoding is empty iff nothing is left. When the history holds two different values, the first token is the next sample. |
| ReMoveRle.EncodeSeqAsWritten | src/ReMove.cpp:415-436 | A sequence is stored as written as an empty list iff it is empty. It starts with its first sample, and every value token is one of its samples. |
| ReMoveRle.EncodeSeq | src/ReMove.cpp:415-436 | The corrected stored form is empty iff the sequence is, starts with its first sample and holds only its samples as values. |
| ReMoveRle.ValuesFromInput | src/ReMove.cpp:415-436 | Every value token either encoder emits is a sample of the input. |
| ReMoveRle.DecodeSeq | src/ReMove.cpp:491-517 | A negative stored length loads nothing. A stored list that starts with a value loads a sequence starting with that value. |
| ReMoveRle.RunLength | src/ReMove.cpp:421 | Counts exactly the run of equal values at the position. |
| ReMoveRle.Decode | src/ReMove.cpp:491-517 | The decoder only appends to what was written before, and appends nothing once the stored length is exceeded. |
| ReMoveRle.RoundTripFrom | src/ReMove.cpp:415-436 | From any history, decoding the corrected encoder's tokens appends exactly the encoded values. |
| ReMoveRle.RoundTrip | src/ReMove.cpp:415-436 | Decoding the corrected encoding of a sequence gives the sequence back. |
| ReMoveRle.AsWrittenEncoding | src/ReMove.cpp:415-436 | As written, [a, a, b, b, c] encodes as a, a, 0, b, b, c. |
| ReMoveRle.AsWrittenLosesValue | src/ReMove.cpp:491-517 | Decoding that encoding yields [a, a, b, b], and the final value is lost. |
| ReMoveRle.AgreeFrom | src/ReMove.cpp:415-436 | While the history holds two different values and the next sample differs from the newest, the encoder as written emits what the corrected one does. |
| ReMoveRle.AsWrittenRoundTripWithoutRepeats | src/ReMove.cpp:415-436 | Without equal neighbouring samples (and a first sample other than 100), the encoding as written equals the corrected one and loads back unchanged. |
| Arena.Weight | src/Arena.cpp:121 | The closeness weight is positive, at most 1, and exactly 1 within r/11 of the centre, r being the radius. |
| Arena.Contribution | src/Arena.cpp:119-124 | An input adds to an output iff it is connected and within its radius. It then adds a clamped, weighted voltage in 0..10 V. |
| Arena.Total | src/Arena.cpp:119-124 | The summed contributions are bounded by 10 V per counted input. |
| Arena.TotalOfNothing | src/Arena.cpp:119-124 | No reaching input sums to nothing. |
| Arena.TotalOfOne | src/Arena.cpp:119-124 | A single reaching input sums to its own contribution. |
| Arena.Mean | src/Arena.cpp:127 | The mean times the count is the sum, is 0 with no inputs, and lies in 0..10 V. |
| Arena.Mix | src/Arena.cpp:118-127 | Every output lies in 0..10 V. |
| Arena.MixOfNone | src/Arena.cpp:118-127 | An output no input reaches is 0 V. |
| Arena.MixIgnoresUnreached | src/Arena.cpp:118-127 | Voltages of inputs that do not reach an output do not affect it. |
| Arena.SingleInputAtCentre | src/Arena.cpp:118-127 | An output sitting on the only input that reaches it outputs that input's clamped voltage. |
| Arena.CvPosition | src/Arena.cpp:89-112 | A position CV of 0..10 V maps linearly onto 0..1, clamped. |
| Arena.Override | src/Arena.cpp:105-112 | Only the given index follows its CV, and only when connected. |
| Arena.MovePorts | src/Arena.cpp:89-112 | In output i's iteration, output i and input i follow their connected CVs and nothing else moves. A selection edge selects output i. |
| Arena.Move | src/Arena.cpp:87-132 | Only inputs 0 and 1 and the outputs follow their CVs. Other inputs stay, and a later output's selection edge wins. |
| Arena.OutputVoltage | src/Arena.cpp:98-127 | Every output voltage lies in 0..10 V. |
| Arena.Process | src/Arena.cpp:87-140 | A sample moves the ports and produces two outputs in 0..10 V. Output 0 is mixed from the positions after the first pass and output 1 from those after both passes. |
| Arena.FirstOutputIgnoresSecondPass | src/Arena.cpp:88-127 | Output 0 does not depend on the position CVs the second pass applies. |
| Arena.SetSelection | src/Arena.cpp:142-145 | The given port becomes the selection. |
| Arena.SelectionIsExclusive | src/Arena.cpp:142-149 | After selecting a port, exactly that port is selected. |
| Arena.ResetSelection | src/Arena.cpp:151-154 | No port is selected. |
| Arena.SetRadius | src/Arena.cpp:339-341 | A radius is clamped to 0..1 and only the given input's radius changes. |
| Arena.OnReset | src/Arena.cpp:73-85 | Every radius is 0.5 and the ports sit at their default positions. Nothing is selected. |
| Arena.DefaultsInsideField | src/Arena.cpp:73-85 | The default positions lie inside the field. |
| Arena.ToJson | src/Arena.cpp:156-165 | Every radius is stored, and loading the stored list back into the same state changes nothing. |
| Arena.FromJson | src/Arena.cpp:167-176 | Stored radii replace those at their indices, and a missing list changes nothing. |
| Arena.JsonRoundTrip | src/Arena.cpp:156-176 | Saving and loading restores every radius. |
| RotorA.Channels | src/RotorA.cpp:34-45 | The channel count is the parameter rounded up, in 2..16. |
| RotorA.Carrier | src/RotorA.cpp:55 | The carrier is the clamped CV, or 10 V when unplugged. |
| RotorA.Position | src/RotorA.cpp:62-63 | The modulation position lies in 0 .. channels-1. |
| RotorA.PositionInRange | src/RotorA.cpp:62-63 | Dividing by the split spreads 0..10 V evenly over the channel positions. |
| RotorA.Lower | src/RotorA.cpp:64 | The lower channel is a valid channel, and is the last channel only at the top position. |
| RotorA.UpperAsWritten | src/RotorA.cpp:69 | As written, the upper channel index reaches the channel count. It stays inside the buffer below 16 channels. |
| RotorA.UpperOverruns | src/RotorA.cpp:62-69 | With 16 channels at 10 V, the upper write lands one past the buffer, and it writes 0. |
| RotorA.Fraction | src/RotorA.cpp:65 | The fractional part lies in 0..1, and is 0 at the last channel. |
| RotorA.Shares | src/RotorA.cpp:57-69 | The buffer holds the carrier split between the lower and upper channel, and 0 elsewhere. |
| RotorA.SharesSplitCarrier | src/RotorA.cpp:57-69 | The shares sum to the carrier, each lies in 0..carrier, and only the two adjacent channels are non-zero. |
| RotorA.BaseScale | src/RotorA.cpp:74-76 | Channels with a base CV scale by it, 0..10 V onto 0..1. Channels without one scale by 1. |
| RotorA.Refresh | src/RotorA.cpp:44-53 | On a divider tick the channel count and base mask are reloaded. Otherwise nothing changes. |
| RotorA.Process | src/RotorA.cpp:43-82 | The output is written iff connected, with one voltage per channel: the share times the base scale. |
| RotorA.SharesPrefixSum | src/RotorA.cpp:57-82 | The shares of the active channels sum to the carrier. |
| RotorA.OutputsSplitCarrier | src/RotorA.cpp:43-82 | Without base CVs, the outputs sum to the carrier and each lies in 0..carrier. |
| Spin.OnReset | src/Spin.cpp:49-53 | A reset selects toggle mode with the click gate low, so the click output is 0 V. Nothing else changes. |
| Spin.Scroll | src/Spin.cpp:118-130 | A scroll is stored unless only scrolls over a parameter count and the pointer is elsewhere. |
| Spin.ClickEnable | src/Spin.cpp:79-88 | A click fires a pulse in trigger mode, sets the gate in gate mode and flips it in toggle mode. |
| Spin.ClickDisable | src/Spin.cpp:90-97 | Releasing the click lowers the gate in gate mode only. |
| Spin.Process | src/Spin.cpp:55-77 | A scroll down fires the DEC output and a scroll up the INC output, and the scroll is consumed. Outputs are 0 or 10 V. The click output follows the gate or the pulse of its mode. |
| Spin.Trig | src/Spin.cpp:56-63 | A fired pulse lasts at least its width, and no fire leaves it unchanged. |
| Spin.TogglePressTwice | src/Spin.cpp:79-97 | In toggle mode two clicks restore the state, and a release does nothing. |
| Spin.GateFollowsButton | src/Spin.cpp:55-97 | In gate mode the click output is 10 V while pressed and 0 V after release. |
| Spin.TriggerFires | src/Spin.cpp:55-97 | In trigger mode a click makes the click output 10 V, and the release changes nothing. |
| Spin.ScrollShowsOnOutputs | src/Spin.cpp:55-77 | A scroll appears on the output its direction selects. |
| Spin.ToJson | src/Spin.cpp:99-105 | Theme, click mode and gate are all stored, and loading them back into the same state changes nothing. |
| Spin.FromJson | src/Spin.cpp:107-111 | Theme, click mode and gate are read back, defaulting when absent. |
| Spin.JsonRoundTrip | src/Spin.cpp:99-111 | Saving and loading restores theme, click mode and gate. |
| Strip.Walk | src/Strip.cpp:143-176 | Walking the neighbours collects the expander chain up to the first gap. |
| Strip.Chain | src/Strip.cpp:143-176 | The strip is the right chain, the left chain or both, as the mode selects. |
| Strip.GroupDisable | src/Strip.cpp:143-176 | Repeating the last request does nothing. Otherwise every module of the strip is bypassed or re-enabled, and modules outside the strip are untouched. |
| Strip.GroupDisableIdempotent | src/Strip.cpp:143-176 | Bypassing twice with the same value is the same as once. |
| Strip.ToggleTwiceRestores | src/Strip.cpp:143-176 | Toggling the strip twice restores every module's bypass state. |
| Strip.Randomize | src/Strip.cpp:182-213 | Exactly the strip's parameters that are not excluded are randomised. |
| Strip.Cleanup | src/Strip.cpp:275-309 | Exclusions survive iff their module is still in the strip. |
| Strip.CleanupIdempotent | src/Strip.cpp:275-309 | Cleaning twice is the same as once. |
| Strip.RequestExclude | src/Strip.cpp:219-222 | An exclusion request is queued for the engine. |
| Strip.ExcludeParam | src/Strip.cpp:228-268 | A queued parameter is excluded iff its module is in the strip and has that parameter, and learning ends. |
| Strip.ExcludedSurvivesCleanup | src/Strip.cpp:228-309 | An excluded strip parameter survives cleanup and is never randomised. |
| Strip.NextMode | src/Strip.cpp:85-88 | The mode button cycles right, left, both. |
| Strip.ModeCycles | src/Strip.cpp:85-88 | Three presses return to the starting mode. |
| Strip.OnSection | src/Strip.cpp:94-106 | High/low follows the ON level. Toggle flips on an edge and default enables on an edge. When the requested state differs from the last, every strip module takes it; otherwise the bypass states are unchanged. Modules outside the strip are untouched. |
| Strip.ExcludeSection | src/Strip.cpp:112-123 | A short press toggles learning and cleans up. A long press clears all exclusions. |
| Strip.Switches | src/Strip.cpp:80-106 | The first sample cleans up and the mode advances on an edge. With a quiet ON section, an OFF edge bypasses every strip module unless the strip was already marked bypassed or a MODE edge marked it so; without an OFF edge the bypass map is unchanged. A change made by the ON section reaches every strip module. |
| Strip.Exclusions | src/Strip.cpp:112-127 | A pending exclusion is always consumed and ends learning. Its parameter is added to the exclusions iff its module is in the strip and has it. |
| Strip.Process | src/Strip.cpp:79-137 | A RAND edge randomises exactly the non-excluded parameters of the strip as it stands after the switches, and no edge randomises nothing. OFF and ON effects on the bypass map are as in Strip.Switches. Modules outside the strip keep their bypass state. |
| Strip.OffEdgeBypassesChain | src/Strip.cpp:90-92 | An OFF edge with a quiet ON section bypasses exactly the strip's modules and keeps every other entry. |
| Strip.RandEdgeRandomizesStrip | src/Strip.cpp:108-110 | A RAND edge randomises exactly the strip's non-excluded parameters. |
| Strip.ToJson | src/Strip.cpp:312-328 | Saving cleans up first and stores mode, ON mode and every exclusion with both ids. |
| Strip.FromJson | src/Strip.cpp:330-352 | Loading reads mode and ON mode, defaulting to 0, and exactly the stored exclusions. |
| Strip.JsonRoundTrip | src/Strip.cpp:312-352 | Saving and loading restores the modes and the cleaned-up exclusions. |
| Strip.FixEntry | src/Strip.cpp:684-695 | A mapping's module id is renumbered through the loaded modules, or becomes -1 when the module is gone. |
| Strip.FixMapping | src/Strip.cpp:669-697 | Only mapping modules have their mapping list renumbered, entry by entry. |
| Strip.FixMappingInverse | src/Strip.cpp:669-697 | Renumbering through a table and then its inverse restores the mappings. |

## Left out

- Lights, panel widgets, context menus, themes and hover text are left out: they do not affect module state.
- EightFace's worker thread is reduced to its one-slot mailbox, with no condition variable or locking. The snapshot applied to the neighbour is an opaque string.
- Host services are parameters of the model. These are the left and right expanders, the module and parameter registry, parameter writes, the dragged widget, and `APP->history`.
- `src/Raw.cpp` and `src/helpers.hpp` are not part of this model.
- Strip's preset, file and clipboard handling and module instantiation are left out (`src/Strip.cpp` outside `fixMapping`), as are Strip's `onRandomize` and output clearing. They are I/O on the host.
- A parameter in a module that cannot be looked up counts as not driven or not found.
- Strip stores its exclusions as a JSON array. The model keeps them as a set, so order and duplicates are not modelled.
- Arena's distance is a norm supplied by the host (`Vec::norm`); only its non-negativity is used.
- Arena.FromJson: a stored radius past the input count is dropped. The source writes past the array in that case.
- Dsp.FilterStep: the smoothing filters are Rack's `dsp::ExponentialFilter`, and no module here sets their lambda, so at lambda 0 each output simply equals its input (gain 1). The model leaves the gain k free in 0..1, which over-approximates: every contract that mentions it holds for every k, and at k = 1 FilterStep returns its input. So ReMove.PlaySample, CvMap.NewFilters and CvMap.Step state the source's behaviour at k = 1.
- ParamMap.LearnParam: the host's `updateParamHandle` also unmaps any other handle bound to the same parameter. That is host behaviour and is not modelled.
- Voltages and times are exact reals. 32-bit float rounding is not modelled, so equality tests on floats (trim, RLE runs) are exact.
- A touched drag widget is a boolean of the frame.
- LongPress.Step: the 1 s long-press time is exact, because sample time is a real.
- IntermixStore.FromPersisted: loads only complete data, with every key present and every array at its full length. The source also loads shorter arrays, keeping the entries they do not list, and reads a missing key as 0 or false (src/Intermix.cpp:404-453). Those loads are not modelled.
- IntermixAudio.Process: its ensures states only validity and output count. The contents of the outputs are stated by IntermixAudio.Audio, and fade consistency by IntermixAudio.ProcessKeepsFadeTargets.
- ReMove.Process: its own contract keeps to storage safety and the CV output. The played value is stated one level down, by ReMove.Playback, ReMove.PlayPhase and ReMove.PhasePhase. Playback advances with the corrected ReMove.PointerStep, which holds the pointer at the start of an empty sequence; the source's `==` end test (line 293) instead walks the pointer out of an empty sequence, so the two differ only when the selected sequence is empty.
- ReMove.PhasePhase: the PHASE index is the corrected ReMove.PhaseIndex, which gives the start of an empty sequence; the source (line 276) gives seqLow - 1 there, so the two differ only on an empty sequence.
- ReMove.FromJson: loads into a state that already holds the stored sequence count and selection. The source reads `seqCount` and `seq` first (src/ReMove.cpp:462-465), then the mode settings, `precision` and `isPlaying` (466-479). The model's stored form holds only the lengths and the sequence data, so those fields are neither stored nor loaded.
- ReMove.ToJson: stores what the encoder as written produces, which does not load back unchanged in general (see Findings); loading is stated for ReMove.ToJsonIntended and, for recordings without equal neighbours, for ReMove.ToJson.

## Findings

| source | as written | input that shows it | evidently intended | confidence | as-written member | corrected member |
|---|---|---|---|---|---|---|
| src/ReMove.cpp:415-436 | After a run, the encoder resets its history to (100, -100). The decoder records the value that ended the run. | [a, a, b, b, c] is stored as a, a, 0, b, b, c and loads back as [a, a, b, b]. | The stored sequence loads back unchanged. | not executed | ReMoveRle.AsWrittenLosesValue | ReMoveRle.RoundTrip |
| src/Intermix.cpp:171 | The VOLT scene index is not clamped, and `sceneSet` rejects only negative indices. | 10.5 V on the scene input gives index 8 of 8 scenes. | The index stays within the 8 scenes. | not executed | Intermix.VoltOverrunAsWritten | Intermix.SceneSet |
| src/RotorA.cpp:69 | The upper share is written at index mod_c + 1. | 16 channels with 10 V on MOD writes v[16], past the 16-channel buffer. | Only channels 0..15 are written. | not executed | RotorA.UpperOverruns | RotorA.SharesSplitCarrier |
| src/ReMove.cpp:293 | The end of playback is tested with `==` against seqLow + length. | An empty sequence played forward moves the pointer to seqLow + 1, + 2, … out of its range. | The pointer stays inside the sequence. | not executed | ReMove.AdvanceAsWrittenRunsOff | ReMove.Advance |
| src/ReMove.cpp:276 | The PHASE index is rescaled onto seqLow .. seqLow + length - 1. | An empty sequence 0 at 5 V gives dataPtr = -1. | The index stays inside the sequence. | not executed | ReMove.PhaseAsWrittenLeavesSegment | ReMove.PhaseIndex |
| src/ReMove.cpp:378-382 | `seqSet` compares the unclamped index with the current one before clamping. | 4 sequences, sequence 3 selected, C4 input at 0.5 V (index 6): the pointer rewinds on every sample. | An index that clamps to the current sequence changes nothing. | not executed | ReMove.SeqSetAsWrittenRewinds | ReMove.SeqSetIdempotent |
| src/ReMove.cpp:201-206 | The move-mode trim sets the length to the index of the first sample of the trailing run. | A recording [0.25, 0.75] is trimmed to [0.25]. | The trailing run is shortened to one sample, and the last value is kept. | not executed | ReMove.TrimAsWrittenDropsFinal | ReMove.TrimIdempotent |

=== FILE: arena.dfy ===
/**
 * Arena: eight inputs and two outputs placed on a square field. Each input
 * reaches the outputs within its radius; an output's voltage is the mean of
 * the reaching inputs' voltages (clamped to 0..10 V), each weighted by how
 * close the output is to the input. Positions are parameters in 0..1 that
 * CV inputs may override.
 */
module Arena {
  import opened Rack
  import opened Dsp

  const InPorts: nat := 8
  const OutPorts: nat := 2

  /** Which kind of port is selected on the field: none, an input, an output. */
  const NoSelection: int := -1
  const OutputType: int := 1

  datatype State = State(
    inX: seq<real>,
    inY: seq<real>,
    outX: seq<real>,
    outY: seq<real>,
    radius: seq<real>,
    selectedType: int,
    selectedId: int)

  predicate Valid(st: State) {
    && |st.inX| == InPorts && |st.inY| == InPorts && |st.radius| == InPorts
    && |st.outX| == OutPorts && |st.outY| == OutPorts
  }

  /**
   * The weight of an input at distance `d` from an output, for an input
   * whose radius `r` exceeds `d`: 1.1 times the relative closeness, capped at 1.
   */
  function Weight(d: real, r: real): (s: real)
    requires 0.0 <= d < r
    ensures 0.0 < s <= 1.0
    ensures d <= r / 11.0 ==> s == 1.0
  {
    assert (r - d) / r > 0.0;
    assert d <= r / 11.0 ==> (r - d) / r * 1.1 >= 1.0 by {
      if d <= r / 11.0 {
        ClosenessNearCentre(d, r);
      }
    }
    Min(1.0, (r - d) / r * 1.1)
  }

  /** At distance at most a eleventh of the radius the closeness is at least 10/11. */
  lemma ClosenessNearCentre(d: real, r: real)
    requires 0.0 <= d <= r / 11.0 && 0.0 < r
    ensures (r - d) / r >= 10.0 / 11.0
  {
    var q := (r - d) / r;
    assert q * r == r - d;
    if q < 10.0 / 11.0 {
      MulNonNeg(10.0 / 11.0 - q, r);
    }
  }

  /** Input `j` reaches the output: it is patched and the output lies strictly within its radius. */
  predicate Reaches(connected: bool, d: real, r: real) {
    connected && d < r
  }

  /** What input `j` adds to an output: its clamped, weighted voltage and one to the count, if it reaches. */
  function Contribution(connected: bool, volt: real, d: real, r: real): (c: (real, nat))
    requires d >= 0.0
    ensures Reaches(connected, d, r) ==> 0.0 <= c.0 <= 10.0 && c.1 == 1
    ensures Reaches(connected, d, r) && d <= r / 11.0 ==> c.0 == Clamp(volt, 0.0, 10.0)
    ensures !Reaches(connected, d, r) ==> c == (0.0, 0)
  {
    if Reaches(connected, d, r) then
      var v := Clamp(volt, 0.0, 10.0);
      var w := Weight(d, r);
      assert 0.0 <= v * w <= 10.0 by {
        MulNonNeg(v, w);
        MulNonNeg(v, 1.0 - w);
        MulNonNeg(10.0 - v, w);
      }
      (v * w, 1)
    else (0.0, 0)
  }

  /** What each input adds to an output. */
  function Contributions(connected: seq<bool>, volts: seq<real>, dist: seq<real>, radius: seq<real>): (cs: seq<(real, nat)>)
    requires |connected| == |volts| == |dist| == |radius|
    requires forall j :: 0 <= j < |dist| ==> dist[j] >= 0.0
    ensures |cs| == |dist| && Bounded(cs)
    ensures forall j :: 0 <= j < |dist| ==> cs[j] == Contribution(connected[j], volts[j], dist[j], radius[j])
    decreases |dist|
  {
    if |dist| == 0 then []
    else
      var n := |dist| - 1;
      Contributions(connected[..n], volts[..n], dist[..n], radius[..n]) +
        [Contribution(connected[n], volts[n], dist[n], radius[n])]
  }

  /** Every contribution is counted at most once, and only a counted one carries a voltage (0..10 V). */
  predicate Bounded(cs: seq<(real, nat)>) {
    forall j :: 0 <= j < |cs| ==> 0.0 <= cs[j].0 <= 10.0 * cs[j].1 as real && cs[j].1 <= 1
  }

  /** Sum of the voltages and of the counts. */
  function Total(cs: seq<(real, nat)>): (r: (real, nat))
    requires Bounded(cs)
    ensures 0.0 <= r.0 <= 10.0 * r.1 as real
    ensures r.1 <= |cs|
    decreases |cs|
  {
    if |cs| == 0 then (0.0, 0)
    else
      assert Bounded(cs[..|cs| - 1]);
      var prev := Total(cs[..|cs| - 1]);
      (prev.0 + cs[|cs| - 1].0, prev.1 + cs[|cs| - 1].1)
  }

  /** Nothing contributed sums to nothing. */
  lemma {:induction false} TotalOfNothing(cs: seq<(real, nat)>)
    requires forall j :: 0 <= j < |cs| ==> cs[j] == (0.0, 0)
    ensures Total(cs) == (0.0, 0)
    decreases |cs|
  {
    if |cs| > 0 {
      TotalOfNothing(cs[..|cs| - 1]);
    }
  }

  /** A single contribution `x`, counted once, is the whole total. */
  lemma {:induction false} TotalOfOne(cs: seq<(real, nat)>, k: nat, x: real)
    requires k < |cs| && 0.0 <= x <= 10.0
    requires forall j :: 0 <= j < |cs| ==> cs[j] == if j == k then (x, 1) else (0.0, 0)
    ensures Total(cs) == (x, 1)
    decreases |cs|
  {
    var n := |cs| - 1;
    if k < n {
      TotalOfOne(cs[..n], k, x);
    } else {
      TotalOfNothing(cs[..n]);
    }
  }

  /** The sum divided by the count, 0 for no count. */
  function Mean(sum: real, count: nat): (m: real)
    requires 0.0 <= sum <= 10.0 * count as real
    ensures 0.0 <= m <= 10.0
    ensures count > 0 ==> m * count as real == sum
    ensures count == 0 ==> m == 0.0
  {
    if count == 0 then 0.0
    else
      MeanBound(sum, count as real);
      sum / count as real
  }

  lemma MeanBound(sum: real, c: real)
    requires 1.0 <= c && 0.0 <= sum <= 10.0 * c
    ensures 0.0 <= sum / c <= 10.0 && sum / c * c == sum
  {
    var m := sum / c;
    assert m * c == sum;
    if m > 10.0 {
      MulNonNeg(m - 10.0, c - 1.0);
    } else if m < 0.0 {
      MulNonNeg(-m, c - 1.0);
    }
  }

  /** The output voltage: the mean over the reaching inputs, 0 V when none reaches. */
  function Mix(connected: seq<bool>, volts: seq<real>, dist: seq<real>, radius: seq<real>): (out: real)
    requires |connected| == |volts| == |dist| == |radius|
    requires forall j :: 0 <= j < |dist| ==> dist[j] >= 0.0
    ensures 0.0 <= out <= 10.0
  {
    var t := Total(Contributions(connected, volts, dist, radius));
    Mean(t.0, t.1)
  }

  /** With no input reaching, the output is 0 V. */
  lemma MixOfNone(connected: seq<bool>, volts: seq<real>, dist: seq<real>, radius: seq<real>)
    requires |connected| == |volts| == |dist| == |radius|
    requires forall j :: 0 <= j < |dist| ==> dist[j] >= 0.0 && !Reaches(connected[j], dist[j], radius[j])
    ensures Mix(connected, volts, dist, radius) == 0.0
  {
    TotalOfNothing(Contributions(connected, volts, dist, radius));
  }

  /** Voltages on inputs that do not reach an output do not change it. */
  lemma MixIgnoresUnreached(connected: seq<bool>, volts: seq<real>, volts2: seq<real>, dist: seq<real>, radius: seq<real>)
    requires |connected| == |volts| == |volts2| == |dist| == |radius|
    requires forall j :: 0 <= j < |dist| ==> dist[j] >= 0.0
    requires forall j :: 0 <= j < |volts| && volts[j] != volts2[j] ==> !Reaches(connected[j], dist[j], radius[j])
    ensures Mix(connected, volts, dist, radius) == Mix(connected, volts2, dist, radius)
  {
    assert Contributions(connected, volts, dist, radius) == Contributions(connected, volts2, dist, radius);
  }

  /** A single reaching input at the output's own position passes its clamped voltage through. */
  lemma SingleInputAtCentre(connected: seq<bool>, volts: seq<real>, dist: seq<real>, radius: seq<real>, k: nat)
    requires |connected| == |volts| == |dist| == |radius| && k < |dist|
    requires forall j :: 0 <= j < |dist| ==> dist[j] >= 0.0
    requires forall j :: 0 <= j < |dist| ==> (Reaches(connected[j], dist[j], radius[j]) <==> j == k)
    requires dist[k] == 0.0
    ensures Mix(connected, volts, dist, radius) == Clamp(volts[k], 0.0, 10.0)
  {
    TotalOfOne(Contributions(connected, volts, dist, radius), k, Clamp(volts[k], 0.0, 10.0));
  }

  /** A position CV: 0..10 V onto 0..1, clamped. */
  function CvPosition(v: real): (r: real)
    ensures 0.0 <= r <= 1.0
    ensures 0.0 <= v <= 10.0 ==> r == v / 10.0
  {
    Clamp(v / 10.0, 0.0, 1.0)
  }

  /** The inputs of one sample. `norm` is the host's Euclidean length of a vector. */
  datatype Frame = Frame(
    inConnected: seq<bool>,
    inVoltage: seq<real>,
    inXConnected: seq<bool>,
    inXVoltage: seq<real>,
    inYConnected: seq<bool>,
    inYVoltage: seq<real>,
    outXConnected: seq<bool>,
    outXVoltage: seq<real>,
    outYConnected: seq<bool>,
    outYVoltage: seq<real>,
    outSelEdge: seq<bool>)

  predicate FrameOk(f: Frame) {
    && |f.inConnected| == InPorts && |f.inVoltage| == InPorts
    && |f.inXConnected| == InPorts && |f.inXVoltage| == InPorts
    && |f.inYConnected| == InPorts && |f.inYVoltage| == InPorts
    && |f.outXConnected| == OutPorts && |f.outXVoltage| == OutPorts
    && |f.outYConnected| == OutPorts && |f.outYVoltage| == OutPorts
    && |f.outSelEdge| == OutPorts
  }

  /** The host's vector length is never negative. */
  ghost predicate NormOk(norm: (real, real) -> real) {
    forall dx, dy :: norm(dx, dy) >= 0.0
  }

  /** A patched position CV replaces the stored coordinate `i`. */
  function Override(coords: seq<real>, i: nat, connected: seq<bool>, volts: seq<real>): (r: seq<real>)
    requires i < |coords| && i < |connected| && i < |volts|
    ensures |r| == |coords|
    ensures forall j :: 0 <= j < |coords| && j != i ==> r[j] == coords[j]
    ensures r[i] == if connected[i] then CvPosition(volts[i]) else coords[i]
  {
    if connected[i] then coords[i := CvPosition(volts[i])] else coords
  }

  /** The distance from each input to the point (`x`, `y`). */
  function Distances(inX: seq<real>, inY: seq<real>, x: real, y: real, norm: (real, real) -> real): (d: seq<real>)
    requires |inX| == |inY| == InPorts && NormOk(norm)
    ensures |d| == InPorts
    ensures forall j :: 0 <= j < InPorts ==> d[j] == norm(inX[j] - x, inY[j] - y) && d[j] >= 0.0
  {
    seq(InPorts, j requires 0 <= j < InPorts => norm(inX[j] - x, inY[j] - y))
  }

  /**
   * The first half of the pass for output `i`: its position CVs override its
   * position, and the position CVs of input `i` override that input's (the
   * source indexes the input-position CVs by the output index, so only inputs
   * 0 and 1 follow their CVs); the selection button of output `i` selects it.
   */
  function MovePorts(st: State, f: Frame, i: nat): (r: State)
    requires Valid(st) && FrameOk(f) && i < OutPorts
    ensures Valid(r) && r.radius == st.radius
    ensures forall j :: 0 <= j < InPorts && j != i ==> r.inX[j] == st.inX[j] && r.inY[j] == st.inY[j]
    ensures forall j :: 0 <= j < OutPorts && j != i ==> r.outX[j] == st.outX[j] && r.outY[j] == st.outY[j]
    ensures r.inX[i] == (if f.inXConnected[i] then CvPosition(f.inXVoltage[i]) else st.inX[i])
    ensures r.inY[i] == (if f.inYConnected[i] then CvPosition(f.inYVoltage[i]) else st.inY[i])
    ensures r.outX[i] == (if f.outXConnected[i] then CvPosition(f.outXVoltage[i]) else st.outX[i])
    ensures r.outY[i] == (if f.outYConnected[i] then CvPosition(f.outYVoltage[i]) else st.outY[i])
    ensures f.outSelEdge[i] ==> IsSelected(r, OutputType, i)
    ensures !f.outSelEdge[i] ==> r.selectedType == st.selectedType && r.selectedId == st.selectedId
  {
    var moved := st.(inX := Override(st.inX, i, f.inXConnected, f.inXVoltage),
                     inY := Override(st.inY, i, f.inYConnected, f.inYVoltage),
                     outX := Override(st.outX, i, f.outXConnected, f.outXVoltage),
                     outY := Override(st.outY, i, f.outYConnected, f.outYVoltage));
    if f.outSelEdge[i] then SetSelection(moved, OutputType, i) else moved
  }

  /** The second half: output `i` mixes the inputs at their distances from it. */
  function OutputVoltage(st: State, f: Frame, norm: (real, real) -> real, i: nat): (v: real)
    requires Valid(st) && FrameOk(f) && i < OutPorts && NormOk(norm)
    ensures 0.0 <= v <= 10.0
  {
    Mix(f.inConnected, f.inVoltage, Distances(st.inX, st.inY, st.outX[i], st.outY[i], norm), st.radius)
  }

  /**
   * What one sample does to the state: both passes move their ports in
   * order. Inputs 2..7 never follow their position CVs.
   */
  function Move(st: State, f: Frame): (r: State)
    requires Valid(st) && FrameOk(f)
    ensures Valid(r) && r.radius == st.radius
    ensures r == MovePorts(MovePorts(st, f, 0), f, 1)
    ensures forall j :: OutPorts <= j < InPorts ==> r.inX[j] == st.inX[j] && r.inY[j] == st.inY[j]
    ensures forall i :: 0 <= i < OutPorts ==>
      && r.inX[i] == (if f.inXConnected[i] then CvPosition(f.inXVoltage[i]) else st.inX[i])
      && r.outX[i] == (if f.outXConnected[i] then CvPosition(f.outXVoltage[i]) else st.outX[i])
    ensures f.outSelEdge[1] ==> IsSelected(r, OutputType, 1)
    ensures !f.outSelEdge[1] && f.outSelEdge[0] ==> IsSelected(r, OutputType, 0)
  {
    MovePorts(MovePorts(st, f, 0), f, 1)
  }

  /**
   * One sample: the pass for output 0, then the pass for output 1; each
   * output is mixed from the positions as its own pass left them.
   */
  function Process(st: State, f: Frame, norm: (real, real) -> real): (r: (State, seq<real>))
    requires Valid(st) && FrameOk(f)
    requires NormOk(norm)
    ensures r.0 == Move(st, f) && |r.1| == OutPorts
    ensures forall i :: 0 <= i < OutPorts ==> 0.0 <= r.1[i] <= 10.0
    ensures r.1[0] == OutputVoltage(MovePorts(st, f, 0), f, norm, 0)
    ensures r.1[1] == OutputVoltage(Move(st, f), f, norm, 1)
  {
    var m0 := MovePorts(st, f, 0);
    (Move(st, f), Outputs(m0, Move(st, f), f, norm))
  }

  /** Output 0 mixed from the positions after the first pass `m0`, output 1 from those after both, `m1`. */
  function Outputs(m0: State, m1: State, f: Frame, norm: (real, real) -> real): (o: seq<real>)
    requires Valid(m0) && Valid(m1) && FrameOk(f) && NormOk(norm)
    ensures |o| == OutPorts && forall i :: 0 <= i < OutPorts ==> 0.0 <= o[i] <= 10.0
  {
    var o0 := OutputVoltage(m0, f, norm, 0);
    var o1 := OutputVoltage(m1, f, norm, 1);
    assert 0.0 <= o0 <= 10.0 && 0.0 <= o1 <= 10.0;
    [o0, o1]
  }

  /** The two frames agree on the audio inputs and on the position CVs of the first pass. */
  predicate SameFirstPass(f: Frame, g: Frame)
    requires FrameOk(f) && FrameOk(g)
  {
    && f.inConnected == g.inConnected && f.inVoltage == g.inVoltage
    && f.inXConnected[0] == g.inXConnected[0] && f.inXVoltage[0] == g.inXVoltage[0]
    && f.inYConnected[0] == g.inYConnected[0] && f.inYVoltage[0] == g.inYVoltage[0]
    && f.outXConnected[0] == g.outXConnected[0] && f.outXVoltage[0] == g.outXVoltage[0]
    && f.outYConnected[0] == g.outYConnected[0] && f.outYVoltage[0] == g.outYVoltage[0]
  }

  /**
   * Output 0 is mixed in the first pass, before the second pass moves
   * output 1 and input 1: the position CVs of the second pass do not reach it.
   */
  lemma FirstOutputIgnoresSecondPass(st: State, f: Frame, g: Frame, norm: (real, real) -> real)
    requires Valid(st) && FrameOk(f) && FrameOk(g) && NormOk(norm) && SameFirstPass(f, g)
    ensures Process(st, f, norm).1[0] == Process(st, g, norm).1[0]
  {
    var a := MovePorts(st, f, 0);
    var b := MovePorts(st, g, 0);
    assert a.inX == b.inX && a.inY == b.inY && a.outX[0] == b.outX[0] && a.outY[0] == b.outY[0];
  }

  function SetSelection(st: State, t: int, id: int): (r: State)
    ensures IsSelected(r, t, id)
    ensures r == st.(selectedType := t, selectedId := id)
  {
    st.(selectedType := t, selectedId := id)
  }

  predicate IsSelected(st: State, t: int, id: int) {
    st.selectedType == t && st.selectedId == id
  }

  function ResetSelection(st: State): (r: State)
    ensures forall t, id :: IsSelected(r, t, id) <==> t == NoSelection && id == NoSelection
    ensures r == st.(selectedType := NoSelection, selectedId := NoSelection)
  {
    st.(selectedType := NoSelection, selectedId := NoSelection)
  }

  /** After a selection, exactly that port is selected. */
  lemma SelectionIsExclusive(st: State, t: int, id: int, t2: int, id2: int)
    ensures IsSelected(SetSelection(st, t, id), t2, id2) <==> t2 == t && id2 == id
  {
  }

  /** The radius menu: the value is clamped to 0..1. */
  function SetRadius(st: State, id: nat, value: real): (r: State)
    requires Valid(st) && id < InPorts
    ensures Valid(r) && 0.0 <= r.radius[id] <= 1.0
    ensures 0.0 <= value <= 1.0 ==> r.radius[id] == value
    ensures forall j :: 0 <= j < InPorts && j != id ==> r.radius[j] == st.radius[j]
  {
    st.(radius := st.radius[id := Clamp(value, 0.0, 1.0)])
  }

  /** Default positions: inputs down the left edge, outputs down the right edge. */
  function DefaultInY(i: int): real {
    0.1 + i as real * (0.8 / (InPorts - 1) as real)
  }

  function DefaultOutY(i: int): real {
    0.1 + i as real * (0.8 / (OutPorts - 1) as real)
  }

  /** `onReset`: no selection, every radius 0.5, every position at its default. */
  function OnReset(st: State): (r: State)
    ensures Valid(r) && IsSelected(r, NoSelection, NoSelection)
    ensures forall j :: 0 <= j < InPorts ==> r.radius[j] == 0.5 && r.inX[j] == 0.1 && r.inY[j] == DefaultInY(j)
    ensures forall i :: 0 <= i < OutPorts ==> r.outX[i] == 0.9 && r.outY[i] == DefaultOutY(i)
  {
    State(seq(InPorts, _ => 0.1), seq(InPorts, j => DefaultInY(j)),
          seq(OutPorts, _ => 0.9), seq(OutPorts, i => DefaultOutY(i)),
          seq(InPorts, _ => 0.5), NoSelection, NoSelection)
  }

  /** The default port positions lie inside the field: every input at a height in 0.1 .. 0.9, the two outputs at 0.1 and 0.9. */
  lemma DefaultsInsideField()
    ensures forall j :: 0 <= j < InPorts ==> 0.1 <= DefaultInY(j) <= 0.9
    ensures DefaultOutY(0) == 0.1 && DefaultOutY(1) == 0.9
  {
  }

  /** The stored radii; entries past the eighth are not read back. */
  function ToJson(st: State): (p: seq<real>)
    requires Valid(st)
    ensures |p| == InPorts
    ensures FromJson(st, Some(p)) == st
  {
    st.radius
  }

  function FromJson(st: State, p: Option<seq<real>>): (r: State)
    requires Valid(st)
    ensures Valid(r)
    ensures p.None? ==> r == st
    ensures p.Some? ==> forall j :: 0 <= j < InPorts ==>
      r.radius[j] == if j < |p.value| then p.value[j] else st.radius[j]
  {
    if p.None? then st
    else st.(radius := seq(InPorts, j requires 0 <= j < InPorts => if j < |p.value| then p.value[j] else st.radius[j]))
  }

  lemma JsonRoundTrip(st: State, other: State)
    requires Valid(st) && Valid(other)
    ensures FromJson(other, Some(ToJson(st))).radius == st.radius
  {
  }
}

=== FILE: cv_map.dfy ===
/**
 * CV-Map: 32 parameter handles driven by two 16-channel polyphonic inputs.
 * Each listed, mapped handle whose parameter is bounded follows its CV
 * channel: 0..10 V (or -5..5 V in bipolar mode) is scaled to 0..1,
 * smoothed, and scaled to the parameter's range. The mapping bookkeeping is
 * the shared `ParamMap` model with 32 handles.
 */
module CvMap {
  import opened Rack
  import opened Dsp
  import ParamMap

  const MaxChannels: nat := 32
  const PolyChannels: nat := 16

  datatype State = State(maps: ParamMap.State, bipolarInput: bool)

  predicate Valid(st: State) {
    ParamMap.Valid(st.maps) && |st.maps.handles| == MaxChannels
  }

  /** The host's modules by id, each with its parameters (range and whether it is bounded). */
  type Params = map<int, seq<ParamMap.Quantity>>

  /** A parameter change sent to the host for handle `id`. */
  datatype Write = Write(id: nat, moduleId: int, paramId: int, value: real)

  /**
   * Handle `id` is driven this sample: it is listed, its module exists and the
   * parameter is bounded. A parameter index past the module's list counts as
   * not driven.
   */
  predicate Driven(st: State, env: Params, id: nat)
    requires Valid(st)
  {
    var h := if id < MaxChannels then st.maps.handles[id] else ParamMap.Unmapped;
    && id < st.maps.mapLen
    && h.moduleId in env
    && 0 <= h.paramId < |env[h.moduleId]|
    && env[h.moduleId][h.paramId].bounded
  }

  /** The CV channel of handle `id`: channels 0..15 of the first input, then 0..15 of the second. */
  function ChannelVoltage(in1: seq<real>, in2: seq<real>, id: nat): real
    requires |in1| == PolyChannels && |in2| == PolyChannels && id < MaxChannels
  {
    if id < PolyChannels then in1[id] else in2[id - PolyChannels]
  }

  /** The normalised target: 0..10 V (bipolar: -5..5 V) onto 0..1, unclamped. */
  function Normalise(v: real, bipolar: bool): (r: real)
    ensures !bipolar && 0.0 <= v <= 10.0 ==> 0.0 <= r <= 1.0
    ensures bipolar && -5.0 <= v <= 5.0 ==> 0.0 <= r <= 1.0
    ensures r == (if bipolar then v + 5.0 else v) / 10.0
  {
    Rescale(if bipolar then v + 5.0 else v, 0.0, 10.0, 0.0, 1.0)
  }

  /** The voltages the source range expects for the current polarity. */
  predicate InRange(v: real, bipolar: bool) {
    if bipolar then -5.0 <= v <= 5.0 else 0.0 <= v <= 10.0
  }

  /** The new filter state of every handle: driven handles smooth towards their target, others keep theirs. */
  function NewFilters(st: State, env: Params, in1: seq<real>, in2: seq<real>, k: real): (r: seq<real>)
    requires Valid(st) && |in1| == PolyChannels && |in2| == PolyChannels && 0.0 <= k <= 1.0
    ensures |r| == MaxChannels
    ensures forall id :: 0 <= id < MaxChannels && !Driven(st, env, id) ==> r[id] == st.maps.filters[id]
    ensures forall id :: 0 <= id < MaxChannels && Driven(st, env, id) ==>
      r[id] == FilterStep(st.maps.filters[id], Normalise(ChannelVoltage(in1, in2, id), st.bipolarInput), k)
  {
    seq(MaxChannels, id requires 0 <= id < MaxChannels =>
      if Driven(st, env, id)
      then FilterStep(st.maps.filters[id], Normalise(ChannelVoltage(in1, in2, id), st.bipolarInput), k)
      else st.maps.filters[id])
  }

  /** The parameter writes for driven handles `id` in `from .. mapLen-1`, in handle order. */
  function Writes(st: State, env: Params, filters: seq<real>, from: nat): (r: seq<Write>)
    requires Valid(st) && |filters| == MaxChannels && from <= st.maps.mapLen
    ensures forall w :: w in r ==>
      && from <= w.id < st.maps.mapLen && Driven(st, env, w.id)
      && w.moduleId == st.maps.handles[w.id].moduleId && w.paramId == st.maps.handles[w.id].paramId
      && w.value == Rescale(filters[w.id], 0.0, 1.0,
                            env[w.moduleId][w.paramId].minValue, env[w.moduleId][w.paramId].maxValue)
    ensures forall id :: from <= id < st.maps.mapLen && Driven(st, env, id) ==> exists w :: w in r && w.id == id
    decreases st.maps.mapLen - from
  {
    if from == st.maps.mapLen then []
    else
      var rest := Writes(st, env, filters, from + 1);
      if Driven(st, env, from) then
        var h := st.maps.handles[from];
        var q := env[h.moduleId][h.paramId];
        [Write(from, h.moduleId, h.paramId, Rescale(filters[from], 0.0, 1.0, q.minValue, q.maxValue))] + rest
      else rest
  }

  /** `CV_Map::step`: advance the filters of the driven handles and set their parameters. */
  function Step(st: State, env: Params, in1: seq<real>, in2: seq<real>, k: real): (r: (State, seq<Write>))
    requires Valid(st) && |in1| == PolyChannels && |in2| == PolyChannels && 0.0 <= k <= 1.0
    ensures Valid(r.0)
    ensures r.0 == st.(maps := st.maps.(filters := NewFilters(st, env, in1, in2, k)))
    ensures r.1 == Writes(st, env, r.0.maps.filters, 0)
  {
    var f := NewFilters(st, env, in1, in2, k);
    (st.(maps := st.maps.(filters := f)), Writes(st, env, f, 0))
  }

  /** Filters stay in 0..1 while the inputs stay in range. */
  predicate FiltersNormal(st: State)
    requires Valid(st)
  {
    forall id :: 0 <= id < MaxChannels ==> 0.0 <= st.maps.filters[id] <= 1.0
  }

  lemma RescaleUnit(x: real, lo: real, hi: real)
    requires 0.0 <= x <= 1.0 && lo <= hi
    ensures lo <= Rescale(x, 0.0, 1.0, lo, hi) <= hi
  {
    assert Rescale(x, 0.0, 1.0, lo, hi) == lo + x * (hi - lo);
    assert 0.0 <= x * (hi - lo) <= hi - lo by {
      MulNonNeg(x, hi - lo);
      MulNonNeg(1.0 - x, hi - lo);
    }
  }

  /**
   * With every CV in the range the polarity expects and the filters in 0..1,
   * the filters stay in 0..1 and every value written lies within the target
   * parameter's range (for parameters whose minimum does not exceed their maximum).
   */
  lemma StepStaysInRange(st: State, env: Params, in1: seq<real>, in2: seq<real>, k: real)
    requires Valid(st) && |in1| == PolyChannels && |in2| == PolyChannels && 0.0 <= k <= 1.0
    requires FiltersNormal(st)
    requires forall c :: 0 <= c < PolyChannels ==> InRange(in1[c], st.bipolarInput) && InRange(in2[c], st.bipolarInput)
    requires forall m, p :: m in env && 0 <= p < |env[m]| ==> env[m][p].minValue <= env[m][p].maxValue
    ensures FiltersNormal(Step(st, env, in1, in2, k).0)
    ensures forall w :: w in Step(st, env, in1, in2, k).1 ==>
      env[w.moduleId][w.paramId].minValue <= w.value <= env[w.moduleId][w.paramId].maxValue
  {
    var r := Step(st, env, in1, in2, k);
    forall id | 0 <= id < MaxChannels
      ensures 0.0 <= r.0.maps.filters[id] <= 1.0
    {
      if Driven(st, env, id) {
        var v := ChannelVoltage(in1, in2, id);
        assert InRange(v, st.bipolarInput);
      }
    }
    forall w | w in r.1
      ensures env[w.moduleId][w.paramId].minValue <= w.value <= env[w.moduleId][w.paramId].maxValue
    {
      var q := env[w.moduleId][w.paramId];
      RescaleUnit(r.0.maps.filters[w.id], q.minValue, q.maxValue);
    }
  }

  /** `onReset`: the shared reset (nothing mapped, one spare slot); the polarity is kept. */
  function OnReset(st: State): (r: State)
    requires Valid(st)
    ensures Valid(r) && r.maps == ParamMap.OnReset(st.maps) && r.bipolarInput == st.bipolarInput
    ensures r.maps.mapLen == 1
  {
    st.(maps := ParamMap.OnReset(st.maps))
  }

  /** `learnParam` through the shared bookkeeping: the learned handle is listed and `mapLen` never exceeds 32. */
  function LearnParam(st: State, id: nat, moduleId: int, paramId: int): (r: State)
    requires Valid(st) && id < MaxChannels
    ensures Valid(r)
    ensures r.maps.handles == st.maps.handles[id := ParamMap.Handle(moduleId, paramId)]
    ensures moduleId >= 0 ==> id < r.maps.mapLen <= MaxChannels
    ensures forall k :: 0 <= k < MaxChannels && ParamMap.Mapped(r.maps.handles[k]) ==> k < r.maps.mapLen
    ensures st.maps.learningId >= 0 ==> r.maps.learningId == ParamMap.NextUnmapped(r.maps.handles, st.maps.learningId + 1)
    ensures r.bipolarInput == st.bipolarInput
  {
    st.(maps := ParamMap.LearnParam(st.maps, id, moduleId, paramId))
  }

  /** `clearMap` through the shared bookkeeping. */
  function ClearMap(st: State, id: nat): (r: State)
    requires Valid(st) && id < MaxChannels
    ensures Valid(r)
    ensures r.maps.handles == st.maps.handles[id := ParamMap.Unmapped] && !ParamMap.Mapped(r.maps.handles[id])
    ensures r.maps.filters == st.maps.filters[id := FilterReset]
    ensures r.maps.learningId == -1 && r.maps.mapLen == ParamMap.MapLenOf(r.maps.handles)
    ensures r.bipolarInput == st.bipolarInput
  {
    st.(maps := ParamMap.ClearMap(st.maps, id))
  }

  /** The stored form: the listed handles and the polarity. */
  datatype Persisted = Persisted(maps: seq<ParamMap.Entry>, bipolarInput: Option<bool>)

  function ToJson(st: State): (p: Persisted)
    requires Valid(st)
    ensures |p.maps| == st.maps.mapLen
    ensures forall k :: 0 <= k < st.maps.mapLen ==>
      p.maps[k] == ParamMap.Entry(Some(st.maps.handles[k].moduleId), Some(st.maps.handles[k].paramId))
    ensures p.bipolarInput == Some(st.bipolarInput)
  {
    Persisted(ParamMap.ToJson(st.maps), Some(st.bipolarInput))
  }

  /** `dataFromJson`: the shared loader (entries past 32 skipped), then the polarity, false when absent. */
  function FromJson(st: State, p: Persisted): (r: State)
    requires Valid(st)
    ensures Valid(r)
    ensures r.bipolarInput == (p.bipolarInput.Some? && p.bipolarInput.value)
    ensures r.maps.mapLen == ParamMap.MapLenOf(r.maps.handles)
    ensures r.maps.handles == ParamMap.LoadHandles(MaxChannels, p.maps)
    ensures forall k :: 0 <= k < MaxChannels && k >= |p.maps| ==> r.maps.handles[k] == ParamMap.Unmapped
    ensures r.maps.learningId == -1 && r.maps.textScrolling == st.maps.textScrolling
  {
    st.(maps := ParamMap.FromJson(st.maps, p.maps, Some(st.maps.textScrolling)),
        bipolarInput := p.bipolarInput.Some? && p.bipolarInput.value)
  }

  /** Saving then loading restores the handles and the polarity. */
  lemma JsonRoundTrip(st: State, other: State)
    requires Valid(st) && Valid(other)
    requires forall k :: 0 <= k < MaxChannels ==> ParamMap.Canonical(st.maps.handles[k])
    ensures FromJson(other, ToJson(st)).maps.handles == st.maps.handles
    ensures FromJson(other, ToJson(st)).bipolarInput == st.bipolarInput
  {
    ParamMap.JsonRoundTrip(st.maps, other.maps);
  }
}

=== FILE: dsp.dfy ===
/**
 * Minimal stand-ins for the host's DSP helpers (boolean trigger, pulse
 * generator, linear fade, exponential filter). Their sources are not part of
 * this model; each keeps only the state its callers depend on, with the
 * behaviour the module design describes. Schmitt-trigger edges are not
 * modelled here: the modules take "an edge occurred this sample" as an input.
 */
module Dsp {
  import opened Rack

  /** Edge detector on a boolean input: fires when the input goes false -> true. */
  datatype BoolTrigger = BoolTrigger(state: bool)

  function BoolTriggerStep(t: BoolTrigger, x: bool): (r: (BoolTrigger, bool))
    ensures r.0.state == x
    ensures r.1 <==> x && !t.state
  {
    (BoolTrigger(x), x && !t.state)
  }

  /** Width of the pulses a pulse generator emits when triggered, in seconds. */
  const PulseWidth: real := 0.001

  /** Pulse generator: high while the remaining time is positive. */
  datatype Pulse = Pulse(remaining: real)

  function PulseTrigger(p: Pulse): (r: Pulse)
    ensures r.remaining >= PulseWidth
    ensures r.remaining >= p.remaining
  {
    Pulse(Max(p.remaining, PulseWidth))
  }

  /** Advances the pulse by `dt`; the flag says whether the output is high this sample. */
  function PulseStep(p: Pulse, dt: real): (r: (Pulse, bool))
    ensures r.1 <==> p.remaining > 0.0
    ensures !r.1 ==> r.0 == p
  {
    if p.remaining > 0.0 then (Pulse(p.remaining - dt), true) else (p, false)
  }

  /** Linear fade on [0, 1]: `current` ramps towards `target` with slopes 1/rise and -1/fall. */
  datatype Fade = Fade(current: real, target: real, rise: real, fall: real)

  function FadeIn(f: Fade): Fade {
    f.(target := 1.0)
  }

  function FadeOut(f: Fade): Fade {
    f.(target := 0.0)
  }

  function FadeSetRiseFall(f: Fade, rise: real, fall: real): Fade {
    f.(rise := rise, fall := fall)
  }

  /** Forces output and target to `v`. */
  function FadeReset(f: Fade, v: real): Fade {
    f.(current := v, target := v)
  }

  /** The level lies between `a` and `b`, in either order. */
  predicate Between(x: real, a: real, b: real) {
    (a <= x <= b) || (b <= x <= a)
  }

  /**
   * One sample of the fade. A zero (or negative) time constant jumps straight
   * to the target instead of dividing by it.
   */
  function FadeStep(f: Fade, dt: real): (r: Fade)
    requires dt >= 0.0
    ensures r.target == f.target && r.rise == f.rise && r.fall == f.fall
    ensures Between(r.current, f.current, f.target)
    ensures 0.0 <= f.current <= 1.0 && 0.0 <= f.target <= 1.0 ==> 0.0 <= r.current <= 1.0
    ensures f.current == f.target ==> r == f
  {
    if f.current < f.target then
      f.(current := if f.rise <= 0.0 then f.target else Min(f.target, f.current + dt / f.rise))
    else if f.current > f.target then
      f.(current := if f.fall <= 0.0 then f.target else Max(f.target, f.current - dt / f.fall))
    else
      f
  }

  /** Value the exponential filter holds after a reset. */
  const FilterReset: real := 0.0

  /**
   * One sample of the one-pole smoothing filter: the output moves the fraction
   * `k` of the way from its previous value `y` towards the input `x`. The
   * gain `k` is left free in [0, 1]; at `k = 1` the output equals the input.
   */
  function FilterStep(y: real, x: real, k: real): (r: real)
    requires 0.0 <= k <= 1.0
    ensures Between(r, y, x)
    ensures k == 1.0 ==> r == x
    ensures k == 0.0 ==> r == y
  {
    FilterBetween(y, x, k);
    y + (x - y) * k
  }

  lemma FilterBetween(y: real, x: real, k: real)
    requires 0.0 <= k <= 1.0
    ensures Between(y + (x - y) * k, y, x)
  {
    var d := x - y;
    if d >= 0.0 {
      MulNonNeg(d, k);
      MulNonNeg(d, 1.0 - k);
      assert d * (1.0 - k) == d - d * k;
    } else {
      MulNonNeg(-d, k);
      MulNonNeg(-d, 1.0 - k);
      assert (-d) * k == -(d * k);
      assert (-d) * (1.0 - k) == d * k - d;
    }
  }

  lemma MulNonNeg(a: real, b: real)
    requires a >= 0.0 && b >= 0.0
    ensures a * b >= 0.0
  {
  }
}

=== FILE: eight_face.dfy ===
/**
 * EightFace: eight preset slots for the module placed to its left. In write
 * mode a short press stores the neighbour's state in a slot and a long press
 * clears it; in read mode the slot CV input, the reset input and the buttons
 * select which slot is restored. Restoring is handed to a worker through a
 * one-entry mailbox (`workerPreset`, `workerDoProcess`); the worker thread
 * itself is not modelled.
 */
module EightFace {
  import opened Rack
  import Dsp
  import LongPress

  const NumPresets: nat := 8

  // Slot CV modes.
  const SlotCv10V: int := 0
  const SlotCvC4: int := 1
  const SlotCvTrig: int := 2
  const SlotCvClock: int := 3

  /** The neighbour as far as presets are concerned: identity and serialised state. */
  datatype Neighbour = Neighbour(pluginName: string, modelName: string, brand: string, snapshot: string)

  datatype State = State(
    pluginSlug: string,
    modelSlug: string,
    moduleName: string,
    slotUsed: seq<bool>,
    slot: seq<Option<string>>,
    preset: int,
    presetCount: int,
    slotCvMode: int,
    connected: int,
    presetNext: int,
    workerDoProcess: bool,
    workerPreset: int,
    buttons: seq<LongPress.Button>)

  predicate Valid(st: State) {
    && |st.slotUsed| == NumPresets && |st.slot| == NumPresets && |st.buttons| == NumPresets
    && 1 <= st.presetCount <= NumPresets
    && st.preset < st.presetCount
    && -1 <= st.presetNext < NumPresets
    && -1 <= st.workerPreset < NumPresets
  }

  /**
   * One sample's inputs: the neighbour (None when there is no module on the
   * left), the read/write switch, the slot and reset jacks (an edge means the
   * jack's trigger fired), the eight button values and the sample time.
   */
  datatype Frame = Frame(neighbour: Option<Neighbour>, modeParam: real,
                         slotConnected: bool, slotVoltage: real, slotEdge: bool,
                         resetConnected: bool, resetEdge: bool,
                         buttonValues: seq<real>, dt: real)

  predicate FrameOk(f: Frame) {
    |f.buttonValues| == NumPresets && f.dt > 0.0
  }

  /** `onReset`: all slots empty, no preset, eight slots, identity forgotten. */
  function OnReset(st: State): (r: State)
    requires Valid(st)
    ensures Valid(r)
    ensures forall k :: 0 <= k < NumPresets ==> !r.slotUsed[k]
    ensures r.preset == -1 && r.presetCount == NumPresets && r.presetNext == -1
    ensures r.modelSlug == "" && r.pluginSlug == "" && r.moduleName == "" && r.connected == 0
  {
    st.(slotUsed := seq(NumPresets, _ => false), slot := seq(NumPresets, _ => None),
        preset := -1, presetCount := NumPresets, presetNext := -1,
        modelSlug := "", pluginSlug := "", moduleName := "", connected := 0)
  }

  /**
   * The neighbour check: 0 with nothing on the left, 2 when no identity is
   * stored yet or both stored names match the neighbour, 1 otherwise.
   */
  function Connected(st: State, n: Option<Neighbour>): (c: int)
    ensures c == 0 <==> n.None?
    ensures c == 2 <==> (n.Some? && (st.modelSlug == "" ||
      (n.value.modelName == st.modelSlug && n.value.pluginName == st.pluginSlug)))
    ensures c in {0, 1, 2}
  {
    match n
    case None => 0
    case Some(m) =>
      if st.modelSlug == "" || (m.modelName == st.modelSlug && m.pluginName == st.pluginSlug) then 2 else 1
  }

  /**
   * `presetLoad(p, isNext)`. Out-of-range slots are ignored. A direct load
   * selects `p` and drops any armed slot, and posts a restore only when the
   * slot holds data; an armed load (`isNext`) only arms a used slot.
   */
  function PresetLoad(st: State, p: int, isNext: bool): (r: State)
    requires Valid(st)
    ensures Valid(r) && r.connected == st.connected && r.slotCvMode == st.slotCvMode
    ensures p < 0 || p >= st.presetCount ==> r == st
    ensures 0 <= p < st.presetCount && !isNext ==>
      && r.preset == p && r.presetNext == -1
      && (st.slotUsed[p] ==> r.workerPreset == p && r.workerDoProcess)
      && (!st.slotUsed[p] ==> r.workerPreset == st.workerPreset && r.workerDoProcess == st.workerDoProcess)
    ensures 0 <= p < st.presetCount && isNext ==>
      && r.preset == st.preset
      && r.presetNext == (if st.slotUsed[p] then p else st.presetNext)
      && r.workerPreset == st.workerPreset && r.workerDoProcess == st.workerDoProcess
    ensures r.slotUsed == st.slotUsed && r.slot == st.slot && r.presetCount == st.presetCount
    ensures r.modelSlug == st.modelSlug && r.pluginSlug == st.pluginSlug && r.buttons == st.buttons
  {
    if p < 0 || p >= st.presetCount then st
    else if !isNext then
      var s := st.(preset := p, presetNext := -1);
      if !st.slotUsed[p] then s else s.(workerPreset := p, workerDoProcess := true)
    else if !st.slotUsed[p] then st
    else st.(presetNext := p)
  }

  /** `presetSave`: stores the neighbour's state in slot `p` and records its identity. */
  function PresetSave(st: State, n: Neighbour, p: nat): (r: State)
    requires Valid(st) && p < NumPresets
    ensures Valid(r) && r.connected == st.connected && r.slotCvMode == st.slotCvMode
    ensures r.slotUsed == st.slotUsed[p := true] && r.slot == st.slot[p := Some(n.snapshot)]
    ensures r.pluginSlug == n.pluginName && r.modelSlug == n.modelName
    ensures r.moduleName == n.brand + " " + n.modelName
    ensures r.preset == st.preset && r.presetCount == st.presetCount && r.presetNext == st.presetNext
    ensures r.buttons == st.buttons
  {
    st.(pluginSlug := n.pluginName, modelSlug := n.modelName, moduleName := n.brand + " " + n.modelName,
        slotUsed := st.slotUsed[p := true], slot := st.slot[p := Some(n.snapshot)])
  }

  function AllEmpty(used: seq<bool>): (r: bool)
    ensures r <==> forall k :: 0 <= k < |used| ==> !used[k]
    decreases |used|
  {
    if |used| == 0 then true else !used[0] && AllEmpty(used[1..])
  }

  /**
   * `presetClear`: empties slot `p`, unselects it if it was the current
   * preset, and forgets the stored identity once every slot is empty.
   */
  function PresetClear(st: State, p: nat): (r: State)
    requires Valid(st) && p < NumPresets
    ensures Valid(r) && r.connected == st.connected && r.slotCvMode == st.slotCvMode
    ensures r.slotUsed == st.slotUsed[p := false] && r.slot == st.slot[p := None]
    ensures r.preset == (if st.preset == p then -1 else st.preset)
    ensures (forall k :: 0 <= k < NumPresets ==> !r.slotUsed[k]) ==>
      r.pluginSlug == "" && r.modelSlug == "" && r.moduleName == ""
    ensures (exists k :: 0 <= k < NumPresets && r.slotUsed[k]) ==>
      r.pluginSlug == st.pluginSlug && r.modelSlug == st.modelSlug && r.moduleName == st.moduleName
    ensures r.presetCount == st.presetCount && r.presetNext == st.presetNext && r.buttons == st.buttons
  {
    var s := st.(slotUsed := st.slotUsed[p := false], slot := st.slot[p := None],
                 preset := if st.preset == p then -1 else st.preset);
    if AllEmpty(s.slotUsed) then s.(pluginSlug := "", modelSlug := "", moduleName := "") else s
  }

  /** `presetSetCount`: uses only the first `p` slots; a preset past the new end falls back to 0. */
  function PresetSetCount(st: State, p: int): (r: State)
    requires Valid(st) && 1 <= p <= NumPresets
    ensures Valid(r) && r.connected == st.connected && r.slotCvMode == st.slotCvMode
    ensures r.presetCount == p && r.presetNext == -1
    ensures r.preset == (if st.preset >= p then 0 else st.preset)
    ensures r.slotUsed == st.slotUsed && r.slot == st.slot && r.buttons == st.buttons
  {
    st.(preset := if st.preset >= p then 0 else st.preset, presetCount := p, presetNext := -1)
  }

  /** The slot the 10 V mode selects: 0..10 V spread over the active slots, unclamped. */
  function TenVoltSlot(v: real, count: int): int
    requires count >= 1
  {
    Floor(Rescale(v, 0.0, 10.0, 0.0, count as real))
  }

  /** The slot the C4 mode selects: one slot per semitone above 0 V. */
  function C4Slot(v: real): (r: int)
    ensures 0 <= r < NumPresets
  {
    Round(Clamp(v * 12.0, 0.0, NumPresets as real - 1.0))
  }

  /** A load of slot `p` took effect: `p` is selected, nothing is armed, and a used slot is posted to the worker. */
  predicate Loads(st: State, r: State, p: int)
    requires Valid(st) && 0 <= p < NumPresets
  {
    && r.preset == p && r.presetNext == -1
    && (st.slotUsed[p] ==> r.workerPreset == p && r.workerDoProcess)
  }

  /**
   * The slot CV input in read mode, when patched. 10 V mode loads the slot
   * the voltage names among the active ones, C4 mode the slot of its
   * semitone; TRIG mode loads the next slot on an edge, CLOCK mode the
   * armed slot. A slot outside the active ones is ignored.
   */
  function SlotCv(st: State, v: real, edge: bool): (r: State)
    requires Valid(st)
    ensures Valid(r) && r.connected == st.connected && r.slotCvMode == st.slotCvMode
    ensures r.slotUsed == st.slotUsed && r.slot == st.slot && r.buttons == st.buttons
    ensures r.presetCount == st.presetCount
    ensures st.slotCvMode == SlotCv10V ==>
      (0 <= TenVoltSlot(v, st.presetCount) < st.presetCount ==> Loads(st, r, TenVoltSlot(v, st.presetCount)))
    ensures st.slotCvMode == SlotCv10V && !(0 <= TenVoltSlot(v, st.presetCount) < st.presetCount) ==> r == st
    ensures st.slotCvMode == SlotCvC4 ==>
      (if C4Slot(v) < st.presetCount then Loads(st, r, C4Slot(v)) else r == st)
    ensures st.slotCvMode == SlotCvTrig && edge && 0 <= CRem(st.preset + 1, st.presetCount) ==>
      CRem(st.preset + 1, st.presetCount) < NumPresets && Loads(st, r, CRem(st.preset + 1, st.presetCount))
    ensures st.slotCvMode == SlotCvClock && edge ==>
      (if 0 <= st.presetNext < st.presetCount then Loads(st, r, st.presetNext) else r == st)
    ensures (st.slotCvMode == SlotCvTrig || st.slotCvMode == SlotCvClock) && !edge ==> r == st
    ensures !(SlotCv10V <= st.slotCvMode <= SlotCvClock) ==> r == st
  {
    if st.slotCvMode == SlotCv10V then PresetLoad(st, TenVoltSlot(v, st.presetCount), false)
    else if st.slotCvMode == SlotCvC4 then PresetLoad(st, C4Slot(v), false)
    else if st.slotCvMode == SlotCvTrig then
      if edge then PresetLoad(st, CRem(st.preset + 1, st.presetCount), false) else st
    else if st.slotCvMode == SlotCvClock then
      if edge then PresetLoad(st, st.presetNext, false) else st
    else st
  }

  /** The event button `k` reports when stepped with its value from `values`. */
  function ButtonEvent(st: State, values: seq<real>, dt: real, k: int): LongPress.Event
    requires |st.buttons| == NumPresets && |values| == NumPresets && dt > 0.0 && 0 <= k < NumPresets
  {
    LongPress.Step(st.buttons[k], values[k], dt).1
  }

  /** No button from `i` on, except possibly `j`, reports an event. */
  predicate Quiet(st: State, values: seq<real>, dt: real, i: nat, j: int)
    requires |st.buttons| == NumPresets && |values| == NumPresets && dt > 0.0
  {
    forall k :: i <= k < NumPresets && k != j ==> ButtonEvent(st, values, dt, k) == LongPress.NoPress
  }

  /** Whether buttons `i..7` are quiet depends only on those buttons. */
  lemma QuietSameButtons(st: State, s: State, values: seq<real>, dt: real, i: nat, j: int)
    requires |st.buttons| == NumPresets && |s.buttons| == NumPresets && |values| == NumPresets && dt > 0.0
    requires forall k :: i <= k < NumPresets ==> s.buttons[k] == st.buttons[k]
    ensures Quiet(s, values, dt, i, j) == Quiet(st, values, dt, i, j)
    ensures forall k :: i <= k < NumPresets ==> ButtonEvent(s, values, dt, k) == ButtonEvent(st, values, dt, k)
  {
    forall k | i <= k < NumPresets
      ensures ButtonEvent(s, values, dt, k) == ButtonEvent(st, values, dt, k)
    {
      assert s.buttons[k] == st.buttons[k];
    }
  }

  /**
   * One read-mode button event on button `i`: a short press loads slot `i`
   * (only arms it in CLOCK mode), a long press keeps the first `i + 1`
   * slots active.
   */
  function ReadPress(st: State, e: LongPress.Event, i: nat): (r: State)
    requires Valid(st) && i < NumPresets
    ensures Valid(r) && r.connected == st.connected && r.slotCvMode == st.slotCvMode && r.buttons == st.buttons
    ensures r.slotUsed == st.slotUsed && r.slot == st.slot
    ensures e == LongPress.NoPress ==> r == st
    ensures e == LongPress.ShortPress && st.slotCvMode != SlotCvClock ==>
      (if i < st.presetCount then Loads(st, r, i) else r == st)
    ensures e == LongPress.ShortPress && st.slotCvMode == SlotCvClock ==>
      && r.preset == st.preset && r.presetCount == st.presetCount
      && r.presetNext == (if i < st.presetCount && st.slotUsed[i] then i else st.presetNext)
      && r.workerPreset == st.workerPreset && r.workerDoProcess == st.workerDoProcess
    ensures e == LongPress.LongPress ==>
      r.presetCount == i + 1 && r.presetNext == -1 && r.preset == (if st.preset > i then 0 else st.preset)
  {
    if e == LongPress.ShortPress then PresetLoad(st, i, st.slotCvMode == SlotCvClock)
    else if e == LongPress.LongPress then PresetSetCount(st, i + 1)
    else st
  }

  /** A button event does not depend on the other buttons' state. */
  lemma ReadPressIgnoresButtons(st: State, bs: seq<LongPress.Button>, e: LongPress.Event, i: nat)
    requires Valid(st) && i < NumPresets && |bs| == NumPresets
    ensures ReadPress(st.(buttons := bs), e, i) == ReadPress(st, e, i).(buttons := bs)
  {
  }

  /** Steps buttons `i..7` in read mode, each reporting its event to `ReadPress`. */
  function ReadButtons(st: State, values: seq<real>, dt: real, i: nat): (r: State)
    requires Valid(st) && |values| == NumPresets && dt > 0.0 && i <= NumPresets
    ensures Valid(r) && r.connected == st.connected && r.slotCvMode == st.slotCvMode
    ensures r.slotUsed == st.slotUsed && r.slot == st.slot
    ensures forall k :: 0 <= k < NumPresets ==>
      r.buttons[k] == if k < i then st.buttons[k] else LongPress.Step(st.buttons[k], values[k], dt).0
    ensures Quiet(st, values, dt, i, -1) ==> r == st.(buttons := r.buttons)
    decreases NumPresets - i
  {
    if i == NumPresets then st
    else
      var (b, e) := LongPress.Step(st.buttons[i], values[i], dt);
      var s := st.(buttons := st.buttons[i := b]);
      var s2 := ReadPress(s, e, i);
      assert ButtonEvent(st, values, dt, i) == e;
      QuietSameButtons(st, s2, values, dt, i + 1, -1);
      ReadButtons(s2, values, dt, i + 1)
  }

  /** When button `j` is the only one from `i` on to report an event, read mode does exactly that event. */
  lemma {:induction false} ReadButtonsOne(st: State, values: seq<real>, dt: real, i: nat, j: nat)
    requires Valid(st) && |values| == NumPresets && dt > 0.0 && i <= j < NumPresets
    requires Quiet(st, values, dt, i, j)
    ensures var r := ReadButtons(st, values, dt, i);
      r == ReadPress(st, ButtonEvent(st, values, dt, j), j).(buttons := r.buttons)
    decreases NumPresets - i
  {
    var (b, e) := LongPress.Step(st.buttons[i], values[i], dt);
    var s := st.(buttons := st.buttons[i := b]);
    var s2 := ReadPress(s, e, i);
    QuietSameButtons(st, s2, values, dt, i + 1, j);
    QuietSameButtons(st, s2, values, dt, i + 1, -1);
    assert ButtonEvent(st, values, dt, i) == e;
    if i < j {
      ReadButtonsOne(s2, values, dt, i + 1, j);
      ReadPressIgnoresButtons(st, s2.buttons, ButtonEvent(st, values, dt, j), j);
    } else {
      ReadPressIgnoresButtons(st, s.buttons, e, i);
    }
  }

  /** One write-mode button event on button `i`: a short press saves the neighbour into slot `i`, a long press clears it. */
  function WritePress(st: State, n: Neighbour, e: LongPress.Event, i: nat): (r: State)
    requires Valid(st) && i < NumPresets
    ensures Valid(r) && r.connected == st.connected && r.slotCvMode == st.slotCvMode && r.buttons == st.buttons
    ensures r.presetCount == st.presetCount && r.presetNext == st.presetNext
    ensures e == LongPress.NoPress ==> r == st
    ensures e == LongPress.ShortPress ==>
      && r.slotUsed == st.slotUsed[i := true] && r.slot == st.slot[i := Some(n.snapshot)]
      && r.pluginSlug == n.pluginName && r.modelSlug == n.modelName && r.preset == st.preset
    ensures e == LongPress.LongPress ==>
      && r.slotUsed == st.slotUsed[i := false] && r.slot == st.slot[i := None]
      && r.preset == (if st.preset == i then -1 else st.preset)
  {
    if e == LongPress.ShortPress then PresetSave(st, n, i)
    else if e == LongPress.LongPress then PresetClear(st, i)
    else st
  }

  lemma WritePressIgnoresButtons(st: State, bs: seq<LongPress.Button>, n: Neighbour, e: LongPress.Event, i: nat)
    requires Valid(st) && i < NumPresets && |bs| == NumPresets
    ensures WritePress(st.(buttons := bs), n, e, i) == WritePress(st, n, e, i).(buttons := bs)
  {
  }

  /** Steps buttons `i..7` in write mode, each reporting its event to `WritePress`. */
  function WriteButtons(st: State, n: Neighbour, values: seq<real>, dt: real, i: nat): (r: State)
    requires Valid(st) && |values| == NumPresets && dt > 0.0 && i <= NumPresets
    ensures Valid(r) && r.connected == st.connected && r.slotCvMode == st.slotCvMode
    ensures r.preset == st.preset || r.preset == -1
    ensures r.presetCount == st.presetCount
    ensures forall k :: 0 <= k < NumPresets ==>
      r.buttons[k] == if k < i then st.buttons[k] else LongPress.Step(st.buttons[k], values[k], dt).0
    ensures Quiet(st, values, dt, i, -1) ==> r == st.(buttons := r.buttons)
    decreases NumPresets - i
  {
    if i == NumPresets then st
    else
      var (b, e) := LongPress.Step(st.buttons[i], values[i], dt);
      var s := st.(buttons := st.buttons[i := b]);
      var s2 := WritePress(s, n, e, i);
      assert ButtonEvent(st, values, dt, i) == e;
      QuietSameButtons(st, s2, values, dt, i + 1, -1);
      WriteButtons(s2, n, values, dt, i + 1)
  }

  /** When button `j` is the only one from `i` on to report an event, write mode does exactly that event. */
  lemma {:induction false} WriteButtonsOne(st: State, n: Neighbour, values: seq<real>, dt: real, i: nat, j: nat)
    requires Valid(st) && |values| == NumPresets && dt > 0.0 && i <= j < NumPresets
    requires Quiet(st, values, dt, i, j)
    ensures var r := WriteButtons(st, n, values, dt, i);
      r == WritePress(st, n, ButtonEvent(st, values, dt, j), j).(buttons := r.buttons)
    decreases NumPresets - i
  {
    var (b, e) := LongPress.Step(st.buttons[i], values[i], dt);
    var s := st.(buttons := st.buttons[i := b]);
    var s2 := WritePress(s, n, e, i);
    QuietSameButtons(st, s2, values, dt, i + 1, j);
    QuietSameButtons(st, s2, values, dt, i + 1, -1);
    assert ButtonEvent(st, values, dt, i) == e;
    if i < j {
      WriteButtonsOne(s2, n, values, dt, i + 1, j);
      WritePressIgnoresButtons(st, s2.buttons, n, ButtonEvent(st, values, dt, j), j);
    } else {
      WritePressIgnoresButtons(st, s.buttons, n, e, i);
    }
  }

  /** The reset input fires: a patched reset jack with an edge, in TRIG mode only. */
  predicate ResetFires(st: State, f: Frame) {
    st.slotCvMode == SlotCvTrig && f.resetConnected && f.resetEdge
  }

  /** Read mode: slot CV, then the reset input (TRIG mode only), then the buttons. */
  function ReadMode(st: State, f: Frame): (r: State)
    requires Valid(st) && FrameOk(f)
    ensures Valid(r) && r.connected == st.connected
    ensures r.slotUsed == st.slotUsed && r.slot == st.slot
    ensures forall k :: 0 <= k < NumPresets ==> r.buttons[k] == LongPress.Step(st.buttons[k], f.buttonValues[k], f.dt).0
    ensures f.slotConnected && !ResetFires(st, f) && Quiet(st, f.buttonValues, f.dt, 0, -1) ==>
      r == SlotCv(st, f.slotVoltage, f.slotEdge).(buttons := r.buttons)
    ensures !f.slotConnected && ResetFires(st, f) && Quiet(st, f.buttonValues, f.dt, 0, -1) ==> Loads(st, r, 0)
    ensures !f.slotConnected && !ResetFires(st, f) && Quiet(st, f.buttonValues, f.dt, 0, -1) ==>
      r == st.(buttons := r.buttons)
  {
    var s1 := if f.slotConnected then SlotCv(st, f.slotVoltage, f.slotEdge) else st;
    var s2 := if ResetFires(s1, f) then PresetLoad(s1, 0, false) else s1;
    QuietSameButtons(st, s2, f.buttonValues, f.dt, 0, -1);
    ReadButtons(s2, f.buttonValues, f.dt, 0)
  }

  /** With no cable in the slot or reset jack, one button event in read mode does exactly that event. */
  lemma ReadModeOne(st: State, f: Frame, j: nat)
    requires Valid(st) && FrameOk(f) && j < NumPresets
    requires !f.slotConnected && !ResetFires(st, f) && Quiet(st, f.buttonValues, f.dt, 0, j)
    ensures var r := ReadMode(st, f);
      r == ReadPress(st, ButtonEvent(st, f.buttonValues, f.dt, j), j).(buttons := r.buttons)
  {
    ReadButtonsOne(st, f.buttonValues, f.dt, 0, j);
  }

  /**
   * One sample. Nothing but the neighbour check happens unless the neighbour
   * is the module the slots were stored from (or no identity is stored).
   */
  function Process(st: State, f: Frame): (r: State)
    requires Valid(st) && FrameOk(f)
    ensures Valid(r)
    ensures r.connected == Connected(st, f.neighbour)
    ensures r.connected != 2 ==> r == st.(connected := r.connected)
    ensures f.modeParam == 0.0 ==> r.slotUsed == st.slotUsed && r.slot == st.slot
    ensures r.connected == 2 && f.modeParam != 0.0 ==>
      r.presetCount == st.presetCount && (r.preset == st.preset || r.preset == -1)
    ensures (r.connected == 2 && Quiet(st, f.buttonValues, f.dt, 0, -1) &&
             (f.modeParam != 0.0 || (!f.slotConnected && !ResetFires(st, f))))
      ==> r == st.(connected := 2, buttons := r.buttons)
    ensures (r.connected == 2 && f.modeParam == 0.0 && !f.slotConnected && ResetFires(st, f) &&
             Quiet(st, f.buttonValues, f.dt, 0, -1))
      ==> Loads(st, r, 0)
  {
    var c := Connected(st, f.neighbour);
    var s := st.(connected := c);
    QuietSameButtons(st, s, f.buttonValues, f.dt, 0, -1);
    if c != 2 then s
    else if f.modeParam == 0.0 then ReadMode(s, f)
    else
      WriteButtons(s, f.neighbour.value, f.buttonValues, f.dt, 0)
  }

  /** A single button event, with no cable in the slot or reset jack, does exactly that event in either mode. */
  lemma ProcessOnePress(st: State, f: Frame, j: nat)
    requires Valid(st) && FrameOk(f) && j < NumPresets && Connected(st, f.neighbour) == 2
    requires !f.slotConnected && !ResetFires(st, f) && Quiet(st, f.buttonValues, f.dt, 0, j)
    ensures var r := Process(st, f);
      var e := ButtonEvent(st, f.buttonValues, f.dt, j);
      && (f.modeParam == 0.0 ==> r == ReadPress(st.(connected := 2), e, j).(buttons := r.buttons))
      && (f.modeParam != 0.0 ==> r == WritePress(st.(connected := 2), f.neighbour.value, e, j).(buttons := r.buttons))
  {
    var s := st.(connected := 2);
    QuietSameButtons(st, s, f.buttonValues, f.dt, 0, j);
    if f.modeParam == 0.0 {
      ReadModeOne(s, f, j);
    } else {
      WriteButtonsOne(s, f.neighbour.value, f.buttonValues, f.dt, 0, j);
    }
  }

  /**
   * In CLOCK mode a short press on a used slot only arms it; the next clock
   * edge on the slot input loads it and posts its data to the worker.
   */
  lemma ClockArmsThenLoads(st: State, i: nat, v: real)
    requires Valid(st) && st.slotCvMode == SlotCvClock && i < st.presetCount && st.slotUsed[i]
    ensures var s := ReadPress(st, LongPress.ShortPress, i);
      && s.preset == st.preset && s.presetNext == i
      && var r := SlotCv(s, v, true);
         r.preset == i && r.presetNext == -1 && WorkerServe(r).1 == Some(st.slot[i])
  {
  }

  /**
   * The worker's side of the mailbox: when a restore is posted for a slot,
   * it takes that slot's data and clears the flag. A negative slot ends the
   * worker without restoring anything.
   */
  function WorkerServe(st: State): (r: (State, Option<Option<string>>))
    requires Valid(st)
    ensures Valid(r.0)
    ensures !st.workerDoProcess || st.workerPreset < 0 ==> r == (st, None)
    ensures st.workerDoProcess && st.workerPreset >= 0 ==>
      r.1 == Some(st.slot[st.workerPreset]) && !r.0.workerDoProcess
  {
    if !st.workerDoProcess || st.workerPreset < 0 then (st, None)
    else (st.(workerDoProcess := false), Some(st.slot[st.workerPreset]))
  }

  /** Saving the neighbour into a slot and then loading that slot hands exactly that state to the worker. */
  lemma SaveThenLoad(st: State, n: Neighbour, p: nat)
    requires Valid(st) && p < st.presetCount
    ensures WorkerServe(PresetLoad(PresetSave(st, n, p), p, false)).1 == Some(Some(n.snapshot))
    ensures Connected(PresetSave(st, n, p), Some(n)) == 2
  {
  }

  /** Two loads before the worker runs: the worker restores the later one only. */
  lemma MailboxLatestWins(st: State, p: nat, q: nat)
    requires Valid(st) && p < st.presetCount && q < st.presetCount && st.slotUsed[p] && st.slotUsed[q]
    ensures var r := PresetLoad(PresetLoad(st, p, false), q, false);
      r.preset == q && WorkerServe(r).1 == Some(st.slot[q])
  {
  }

  /** In TRIG mode each slot edge advances cyclically through the active slots, entering at 0 from "none". */
  lemma TrigAdvances(st: State, v: real)
    requires Valid(st) && st.slotCvMode == SlotCvTrig && st.preset >= -1
    ensures SlotCv(st, v, true).preset == (st.preset + 1) % st.presetCount
    ensures SlotCv(st, v, false) == st
  {
  }

  /** With three active slots and nothing selected, three TRIG edges visit 0, 1, 2 and the fourth wraps to 0. */
  lemma TrigScenario(st: State, v: real)
    requires Valid(st) && st.slotCvMode == SlotCvTrig && st.presetCount == 3 && st.preset == -1
    ensures var s1 := SlotCv(st, v, true);
      var s2 := SlotCv(s1, v, true);
      var s3 := SlotCv(s2, v, true);
      var s4 := SlotCv(s3, v, true);
      s1.preset == 0 && s2.preset == 1 && s3.preset == 2 && s4.preset == 0
  {
    TrigAdvances(st, v);
    TrigAdvances(SlotCv(st, v, true), v);
    TrigAdvances(SlotCv(SlotCv(st, v, true), v, true), v);
    TrigAdvances(SlotCv(SlotCv(SlotCv(st, v, true), v, true), v, true), v);
  }

  /** In 10 V mode, 0 V up to just below 10 V covers the active slots; exactly 10 V names one past the end and is ignored. */
  lemma TenVoltRange(st: State, v: real)
    requires Valid(st) && st.slotCvMode == SlotCv10V
    ensures 0.0 <= v < 10.0 ==> 0 <= TenVoltSlot(v, st.presetCount) < st.presetCount
    ensures TenVoltSlot(10.0, st.presetCount) == st.presetCount
    ensures SlotCv(st, 10.0, false) == st
  {
    var c := st.presetCount as real;
    if 0.0 <= v < 10.0 {
      var x := v / 10.0;
      var y := Rescale(v, 0.0, 10.0, 0.0, c);
      assert y == x * c;
      Dsp.MulNonNeg(x, c);
      Dsp.MulNonNeg(1.0 - x, c);
      assert c - x * c == (1.0 - x) * c;
      assert (1.0 - x) * c > 0.0;
      assert 0.0 <= y < c;
      var r := TenVoltSlot(v, st.presetCount);
      assert r as real <= y < r as real + 1.0;
    }
    assert Rescale(10.0, 0.0, 10.0, 0.0, c) == c;
  }

  /** The reset input restarts at slot 0, but only in TRIG mode. */
  lemma ResetOnlyInTrig(st: State, f: Frame)
    requires Valid(st) && FrameOk(f)
    requires f.neighbour.Some? && Connected(st, f.neighbour) == 2 && f.modeParam == 0.0
    requires !f.slotConnected && f.resetConnected && f.resetEdge
    requires forall k :: 0 <= k < NumPresets ==> st.buttons[k] == LongPress.Idle && f.buttonValues[k] == 0.0
    ensures st.slotCvMode == SlotCvTrig ==> Process(st, f).preset == 0
    ensures st.slotCvMode != SlotCvTrig ==> Process(st, f).preset == st.preset
  {
    var s := st.(connected := 2);
    var s2 := if s.slotCvMode == SlotCvTrig then PresetLoad(s, 0, false) else s;
    IdleButtonsNoOp(s2, f.buttonValues, f.dt, 0);
  }

  /** Released idle buttons generate no events. */
  lemma {:induction false} IdleButtonsNoOp(st: State, values: seq<real>, dt: real, i: nat)
    requires Valid(st) && |values| == NumPresets && dt > 0.0 && i <= NumPresets
    requires forall k :: i <= k < NumPresets ==> st.buttons[k] == LongPress.Idle && values[k] == 0.0
    ensures ReadButtons(st, values, dt, i).preset == st.preset
    decreases NumPresets - i
  {
    if i < NumPresets {
      var (b, e) := LongPress.Step(st.buttons[i], values[i], dt);
      assert e == LongPress.NoPress;
      IdleButtonsNoOp(st.(buttons := st.buttons[i := b]), values, dt, i + 1);
    }
  }

  /** The stored fields of `dataToJson`. */
  datatype Persisted = Persisted(pluginSlug: string, modelSlug: string, moduleName: Option<string>,
                                 slotCvMode: int, preset: int, presetCount: int,
                                 slotUsed: seq<bool>, slot: seq<Option<string>>)

  /** `dataToJson`: a slot's snapshot is stored only while the slot is in use. */
  function ToPersisted(st: State): (p: Persisted)
    requires Valid(st)
    ensures 1 <= p.presetCount <= NumPresets && |p.slotUsed| == NumPresets && |p.slot| == NumPresets
    ensures p.preset == st.preset && p.presetCount == st.presetCount && p.moduleName == Some(st.moduleName)
    ensures forall k :: 0 <= k < NumPresets ==>
      (st.slotUsed[k] ==> p.slot[k] == st.slot[k]) && (!st.slotUsed[k] ==> p.slot[k].None?)
  {
    Persisted(st.pluginSlug, st.modelSlug, Some(st.moduleName), st.slotCvMode, st.preset, st.presetCount,
              st.slotUsed, seq(NumPresets, k requires 0 <= k < NumPresets => if st.slotUsed[k] then st.slot[k] else None))
  }

  /**
   * `dataFromJson`: restores the stored fields (the module name only when
   * present) and falls back to preset 0 when the stored preset is past the
   * slot count.
   */
  function FromPersisted(st: State, p: Persisted): (r: State)
    requires Valid(st)
    requires 1 <= p.presetCount <= NumPresets && |p.slotUsed| == NumPresets && |p.slot| == NumPresets
    ensures Valid(r)
    ensures r.preset == (if p.preset >= p.presetCount then 0 else p.preset)
    ensures r.presetCount == p.presetCount && r.slotUsed == p.slotUsed && r.slot == p.slot
    ensures r.moduleName == (if p.moduleName.Some? then p.moduleName.value else st.moduleName)
  {
    st.(pluginSlug := p.pluginSlug, modelSlug := p.modelSlug,
        moduleName := if p.moduleName.Some? then p.moduleName.value else st.moduleName,
        slotCvMode := p.slotCvMode,
        preset := if p.preset >= p.presetCount then 0 else p.preset,
        presetCount := p.presetCount, slotUsed := p.slotUsed, slot := p.slot)
  }

  /** Saving then loading keeps the identity, the selection and the content of every used slot. */
  lemma PersistRoundTrip(st: State, saved: State)
    requires Valid(st) && Valid(saved)
    ensures var r := FromPersisted(st, ToPersisted(saved));
      && r.pluginSlug == saved.pluginSlug && r.modelSlug == saved.modelSlug
      && r.moduleName == saved.moduleName && r.slotCvMode == saved.slotCvMode
      && r.preset == saved.preset && r.presetCount == saved.presetCount
      && r.slotUsed == saved.slotUsed
      && forall k :: 0 <= k < NumPresets && saved.slotUsed[k] ==> r.slot[k] == saved.slot[k]
  {
  }
}

=== FILE: intermix.dfy ===
/**
 * Intermix: an 8x8 matrix mixer with eight stored scenes. Each scene holds
 * per-input modes, per-output enables and attenuverters, and the 8x8 routing
 * matrix; the selected scene is switched by the scene CV input or by the
 * scene buttons. The live matrix `currentMatrix` is what the audio path
 * uses; in "fade" input mode its cells follow per-cell linear fades.
 *
 * Matrix cells are indexed `[input][output]`. The panel's matrix pads are
 * stored with the same indexing (the host's parameter for cell [i][j] is
 * PARAM_MATRIX + j*8 + i).
 */
module Intermix {
  import opened Rack
  import opened Dsp

  const Ports: nat := 8
  const SceneCount: nat := 8

  // Scene CV modes.
  const TrigFwd: int := 0
  const Arm: int := 7
  const Volt: int := 8
  const C4: int := 9

  // Input modes; every other code is a constant voltage (code - 24) / 12.
  const ImOff: int := 0
  const ImDirect: int := 1
  const ImFade: int := 2

  // Output modes.
  const OmOff: int := 0
  const OmOut: int := 1

  /** How often (in samples) the scene buttons and pads are polled. */
  const PollDivision: nat := 32

  type Matrix = seq<seq<real>>

  predicate IsMatrix(m: Matrix) {
    |m| == Ports && forall i :: 0 <= i < Ports ==> |m[i]| == Ports
  }

  predicate IsFades(f: seq<seq<Fade>>) {
    |f| == Ports && forall i :: 0 <= i < Ports ==> |f[i]| == Ports
  }

  datatype Scene = Scene(input: seq<int>, output: seq<int>, outputAt: seq<real>, matrix: Matrix)

  predicate SceneOk(s: Scene) {
    |s.input| == Ports && |s.output| == Ports && |s.outputAt| == Ports && IsMatrix(s.matrix)
  }

  /** Panel controls: scene buttons, output-disable buttons, attenuverters, matrix pads, fade times. */
  datatype Panel = Panel(scene: seq<real>, output: seq<real>, at: seq<real>, matrix: Matrix,
                         fadeIn: real, fadeOut: real)

  predicate PanelOk(p: Panel) {
    |p.scene| == SceneCount && |p.output| == Ports && |p.at| == Ports && IsMatrix(p.matrix)
  }

  datatype State = State(
    panelTheme: int,
    padBrightness: real,
    inputVisualize: bool,
    inputMode: seq<int>,
    outputClamp: bool,
    scenes: seq<Scene>,
    sceneSelected: int,
    sceneMode: int,
    sceneInputMode: bool,
    sceneNext: int,
    currentMatrix: Matrix,
    fader: seq<seq<Fade>>,
    panel: Panel)

  predicate Valid(st: State) {
    && |st.inputMode| == Ports
    && |st.scenes| == SceneCount
    && (forall k :: 0 <= k < SceneCount ==> SceneOk(st.scenes[k]))
    && 0 <= st.sceneSelected < SceneCount
    && IsMatrix(st.currentMatrix)
    && IsFades(st.fader)
    && PanelOk(st.panel)
  }

  /** What one sample sees from outside: the scene jack, the poll tick, the eight inputs. */
  datatype Frame = Frame(sceneConnected: bool, sceneVoltage: real, sceneEdge: bool, pollTick: bool,
                         connected: seq<bool>, voltage: seq<real>, dt: real)

  predicate FrameOk(f: Frame) {
    |f.connected| == Ports && |f.voltage| == Ports && f.dt >= 0.0
  }

  /** A matrix cell that is fully on or fully off. */
  predicate Binary(x: real) {
    x == 0.0 || x == 1.0
  }

  /**
   * Every fully-on or fully-off cell of the selected scene has its fade
   * heading towards that value: a fade cell never drifts away from the
   * routing the scene stores.
   */
  predicate FadeTargetsAgree(st: State)
    requires Valid(st)
  {
    forall i, j :: 0 <= i < Ports && 0 <= j < Ports && Binary(st.scenes[st.sceneSelected].matrix[i][j]) ==>
      st.fader[i][j].target == st.scenes[st.sceneSelected].matrix[i][j]
  }

  // ---------------------------------------------------------------- scene switching

  /** Arms a cell's fade for a pad change from `prev` to `p`. */
  function ArmFade(f: Fade, p: real, prev: real): (r: Fade)
    ensures r.current == f.current && r.rise == f.rise && r.fall == f.fall
    ensures Binary(p) ==> r.target == (if p != prev then p else f.target)
    ensures !Binary(p) ==> r == f
  {
    if p != prev && p == 1.0 then FadeIn(f)
    else if p != prev && p == 0.0 then FadeOut(f)
    else f
  }

  /** The scene index the code would select is one `sceneSet` acts on. */
  predicate SceneSetAccepts(st: State, scene: int) {
    scene != st.sceneSelected && 0 <= scene < SceneCount
  }

  /**
   * `sceneSet`: switch to `scene`. The buttons become one-hot, the panel shows
   * the new scene, fades are armed against the previous scene's matrix and
   * the live matrix becomes the new scene's. The current scene and a negative
   * index are ignored; an index past the last scene is ignored as well (the
   * code as written would read past the scene array, see `AsWrittenAccepts`).
   */
  function SceneSet(st: State, scene: int): (r: State)
    requires Valid(st)
    ensures Valid(r)
    ensures !SceneSetAccepts(st, scene) ==> r == st
    ensures SceneSetAccepts(st, scene) ==>
      && r.sceneSelected == scene
      && r.sceneNext == -1
      && (forall k :: 0 <= k < SceneCount ==> r.panel.scene[k] == (if k == scene then 1.0 else 0.0))
      && (forall k :: 0 <= k < Ports ==>
            r.panel.output[k] == (if st.scenes[scene].output[k] != OmOut then 1.0 else 0.0))
      && r.panel.at == st.scenes[scene].outputAt
      && r.panel.matrix == st.scenes[scene].matrix
      && r.currentMatrix == st.scenes[scene].matrix
      && r.scenes == st.scenes
      && r.sceneMode == st.sceneMode && r.inputMode == st.inputMode
      && r.sceneInputMode == st.sceneInputMode && r.outputClamp == st.outputClamp
    ensures SceneSetAccepts(st, scene) ==>
      forall i, j :: 0 <= i < Ports && 0 <= j < Ports ==>
        var p := st.scenes[scene].matrix[i][j];
        var q := st.scenes[st.sceneSelected].matrix[i][j];
        && (p != q && p == 1.0 ==> r.fader[i][j] == FadeIn(st.fader[i][j]))
        && (p != q && p == 0.0 ==> r.fader[i][j] == FadeOut(st.fader[i][j]))
        && (p == q || !Binary(p) ==> r.fader[i][j] == st.fader[i][j])
  {
    if !SceneSetAccepts(st, scene) then st
    else
      var prev := st.scenes[st.sceneSelected];
      var next := st.scenes[scene];
      var panel := st.panel.(
        scene := seq(SceneCount, k requires 0 <= k < SceneCount => if k == scene then 1.0 else 0.0),
        output := seq(Ports, k requires 0 <= k < Ports => if next.output[k] != OmOut then 1.0 else 0.0),
        at := next.outputAt,
        matrix := next.matrix);
      var fader := seq(Ports, i requires 0 <= i < Ports =>
        seq(Ports, j requires 0 <= j < Ports => ArmFade(st.fader[i][j], next.matrix[i][j], prev.matrix[i][j])));
      st.(sceneSelected := scene, sceneNext := -1, panel := panel, fader := fader,
          currentMatrix := next.matrix)
  }

  lemma SceneSetKeepsFadeTargets(st: State, scene: int)
    requires Valid(st) && FadeTargetsAgree(st)
    ensures FadeTargetsAgree(SceneSet(st, scene))
  {
    if SceneSetAccepts(st, scene) {
      var r := SceneSet(st, scene);
      forall i, j | 0 <= i < Ports && 0 <= j < Ports && Binary(r.scenes[scene].matrix[i][j])
        ensures r.fader[i][j].target == r.scenes[scene].matrix[i][j]
      {
        var p := st.scenes[scene].matrix[i][j];
        var q := st.scenes[st.sceneSelected].matrix[i][j];
        if p == q {
          assert Binary(q);
        }
      }
    }
  }

  // ---------------------------------------------------------------- scene CV

  /**
   * The index the VOLT scene mode computes: 0..10 V spread over the scenes,
   * unclamped, so a negative voltage gives a negative index and 10.5 V or
   * more an index past the last scene.
   */
  function VoltSceneIndex(v: real): (r: int)
    ensures 0.0 <= v <= 10.0 ==> 0 <= r < SceneCount
    ensures v < 0.0 ==> r < 0
    ensures v >= 10.5 ==> r >= SceneCount
  {
    var x := Rescale(v, 0.0, 10.0, 0.0, SceneCount as real - 0.001);
    assert x == v / 10.0 * 7.999;
    Floor(x)
  }

  /** The index the C4 scene mode computes: one scene per semitone above 0 V. */
  function C4SceneIndex(v: real): (r: int)
    ensures 0 <= r < SceneCount
  {
    Round(Clamp(v * 12.0, 0.0, SceneCount as real - 1.0))
  }

  /** Within 0..10 V the VOLT index names a scene. */
  lemma VoltIndexInRange(v: real)
    ensures 0.0 <= v <= 10.0 ==> 0 <= VoltSceneIndex(v) < SceneCount
  {
    var x := Rescale(v, 0.0, 10.0, 0.0, SceneCount as real - 0.001);
    assert x == v / 10.0 * 7.999;
  }

  /** The acceptance test `sceneSet` performs as written: only the current scene and negatives are refused. */
  predicate AsWrittenAccepts(st: State, scene: int) {
    scene != st.sceneSelected && scene >= 0
  }

  /** 10.5 V in VOLT mode yields scene index 8, which the as-written test lets through. */
  lemma VoltOverrunAsWritten(st: State)
    requires st.sceneSelected == 0
    ensures VoltSceneIndex(10.5) == 8
    ensures AsWrittenAccepts(st, VoltSceneIndex(10.5)) && VoltSceneIndex(10.5) >= SceneCount
  {
    var x := Rescale(10.5, 0.0, 10.0, 0.0, SceneCount as real - 0.001);
    assert x == 8.39895;
  }

  /**
   * The scene CV input, when connected: TRIG advances cyclically on an edge,
   * C4 and VOLT select by voltage, ARM loads the armed scene on an edge.
   * Any other mode code does nothing.
   */
  function SceneCv(st: State, v: real, edge: bool): (r: State)
    requires Valid(st)
    ensures Valid(r)
    ensures st.sceneMode == TrigFwd ==>
      r == if edge then SceneSet(st, (st.sceneSelected + 1) % SceneCount) else st
    ensures st.sceneMode == C4 ==> r == SceneSet(st, C4SceneIndex(v))
    ensures st.sceneMode == C4 ==> r.sceneSelected == C4SceneIndex(v)
    ensures st.sceneMode == Volt ==> r == SceneSet(st, VoltSceneIndex(v))
    ensures st.sceneMode == Volt && 0.0 <= v <= 10.0 ==> r.sceneSelected == VoltSceneIndex(v)
    ensures st.sceneMode == Volt && v < 0.0 ==> r == st
    ensures st.sceneMode == Arm ==> r == if edge then SceneSet(st, st.sceneNext) else st
    ensures st.sceneMode == Arm && st.sceneNext == -1 ==> r == st
    ensures st.sceneMode != TrigFwd && st.sceneMode != C4 && st.sceneMode != Volt && st.sceneMode != Arm ==> r == st
    ensures r.scenes == st.scenes
  {
    if st.sceneMode == TrigFwd then
      if edge then SceneSet(st, (st.sceneSelected + 1) % SceneCount) else st
    else if st.sceneMode == C4 then
      SceneSet(st, C4SceneIndex(v))
    else if st.sceneMode == Volt then
      VoltIndexInRange(v);
      SceneSet(st, VoltSceneIndex(v))
    else if st.sceneMode == Arm then
      if edge then SceneSet(st, st.sceneNext) else st
    else st
  }

  // ---------------------------------------------------------------- scene poll

  /** First button at index >= `from` that is pressed and is not the selected scene, or -1. */
  function FirstOtherPressed(buttons: seq<real>, sel: int, from: nat): (r: int)
    requires from <= |buttons|
    ensures r == -1 || (from <= r < |buttons| && buttons[r] > 0.0 && r != sel)
    ensures r == -1 ==> forall k :: from <= k < |buttons| && k != sel ==> buttons[k] <= 0.0
    ensures r != -1 ==> forall k :: from <= k < r && k != sel ==> buttons[k] <= 0.0
    decreases |buttons| - from
  {
    if from == |buttons| then -1
    else if buttons[from] > 0.0 && from != sel then from
    else FirstOtherPressed(buttons, sel, from + 1)
  }

  /**
   * Copies the panel into the selected scene: output enables (pressed button
   * means disabled), attenuverters and matrix pads; pad changes between 0 and
   * 1 arm the cell's fade. The live matrix becomes the pads.
   */
  function WriteBack(st: State): (r: State)
    requires Valid(st)
    ensures Valid(r)
    ensures r.sceneSelected == st.sceneSelected && r.sceneNext == st.sceneNext && r.panel == st.panel
    ensures r.currentMatrix == st.panel.matrix
    ensures r.scenes[r.sceneSelected].matrix == st.panel.matrix
    ensures r.scenes[r.sceneSelected].outputAt == st.panel.at
    ensures r.scenes[r.sceneSelected].input == st.scenes[st.sceneSelected].input
    ensures forall k :: 0 <= k < Ports ==>
      r.scenes[r.sceneSelected].output[k] == (if st.panel.output[k] == 0.0 then OmOut else OmOff)
    ensures forall k :: 0 <= k < SceneCount && k != st.sceneSelected ==> r.scenes[k] == st.scenes[k]
    ensures forall i, j :: 0 <= i < Ports && 0 <= j < Ports ==>
      && r.fader[i][j].rise == st.panel.fadeIn && r.fader[i][j].fall == st.panel.fadeOut
      && r.fader[i][j].current == st.fader[i][j].current
    ensures FadeTargetsAgree(st) ==> FadeTargetsAgree(r)
  {
    var sel := st.sceneSelected;
    var sc := st.scenes[sel];
    var p := st.panel;
    var newScene := sc.(
      output := seq(Ports, k requires 0 <= k < Ports => if p.output[k] == 0.0 then OmOut else OmOff),
      outputAt := p.at,
      matrix := p.matrix);
    var fader := seq(Ports, i requires 0 <= i < Ports =>
      seq(Ports, j requires 0 <= j < Ports =>
        ArmFade(FadeSetRiseFall(st.fader[i][j], p.fadeIn, p.fadeOut), p.matrix[i][j], sc.matrix[i][j])));
    var r := st.(scenes := st.scenes[sel := newScene], fader := fader, currentMatrix := p.matrix);
    assert FadeTargetsAgree(st) ==> FadeTargetsAgree(r) by {
      if FadeTargetsAgree(st) {
        forall i, j | 0 <= i < Ports && 0 <= j < Ports && Binary(p.matrix[i][j])
          ensures r.fader[i][j].target == p.matrix[i][j]
        {
          if p.matrix[i][j] == sc.matrix[i][j] {
            assert Binary(sc.matrix[i][j]);
          }
        }
      }
    }
    r
  }

  /**
   * The selection half of the scene-button poll for the first other pressed
   * button `other` (-1 for none): switch to it, or in ARM mode only arm it.
   */
  function PollChoose(st: State, other: int): (r: State)
    requires Valid(st) && (other == -1 || (0 <= other < SceneCount && other != st.sceneSelected))
    ensures Valid(r)
    ensures other != -1 && st.sceneMode != Arm ==> r.sceneSelected == other && r.sceneNext == -1
    ensures other != -1 && st.sceneMode == Arm ==> r.sceneSelected == st.sceneSelected && r.sceneNext == other
    ensures other == -1 ==> r.sceneSelected == st.sceneSelected && r.sceneNext == st.sceneNext
    ensures (r.sceneSelected == st.sceneSelected && r.panel == st.panel) || r.panel.scene[r.sceneSelected] > 0.0
  {
    if other == -1 then st
    else if st.sceneMode == Arm then st.(sceneNext := other)
    else
      assert SceneSetAccepts(st, other);
      SceneSet(st, other)
  }

  /**
   * The selection half of the scene-button poll: the first pressed button
   * other than the selected scene is chosen; if the selected scene's button
   * was not seen pressed it is lit again.
   */
  function PollSelect(st: State): (r: State)
    requires Valid(st)
    ensures Valid(r)
    ensures var other := FirstOtherPressed(st.panel.scene, st.sceneSelected, 0);
      && (other != -1 && st.sceneMode != Arm ==> r.sceneSelected == other && r.sceneNext == -1)
      && (other != -1 && st.sceneMode == Arm ==> r.sceneSelected == st.sceneSelected && r.sceneNext == other)
      && (other == -1 ==> r.sceneSelected == st.sceneSelected && r.sceneNext == st.sceneNext)
    ensures r.panel.scene[r.sceneSelected] > 0.0
  {
    var sel := st.sceneSelected;
    var other := FirstOtherPressed(st.panel.scene, sel, 0);
    var found := st.panel.scene[sel] > 0.0 && (other == -1 || sel < other);
    var s1 := PollChoose(st, other);
    if found then s1
    else s1.(panel := s1.panel.(scene := s1.panel.scene[s1.sceneSelected := 1.0]))
  }

  /** The scene-button poll (every `PollDivision` samples): select, then write the panel back into the selected scene. */
  function Poll(st: State): (r: State)
    requires Valid(st)
    ensures Valid(r)
    ensures r.panel.scene[r.sceneSelected] > 0.0
    ensures r.currentMatrix == r.panel.matrix && r.scenes[r.sceneSelected].matrix == r.panel.matrix
    ensures r.scenes[r.sceneSelected].outputAt == r.panel.at
    ensures r.scenes[r.sceneSelected].input == st.scenes[r.sceneSelected].input
    ensures forall k :: 0 <= k < SceneCount && k != r.sceneSelected ==> r.scenes[k] == st.scenes[k]
  {
    WriteBack(PollSelect(st))
  }

  /**
   * What a poll does to the selection: it moves to the first other pressed
   * button, except in ARM mode where that button is only armed. Afterwards the
   * selected scene's button is lit, and the live matrix, the pads and the
   * stored scene agree.
   */
  lemma PollSelects(st: State)
    requires Valid(st)
    ensures var other := FirstOtherPressed(st.panel.scene, st.sceneSelected, 0);
      var r := Poll(st);
      && (other != -1 && st.sceneMode != Arm ==> r.sceneSelected == other && r.sceneNext == -1)
      && (other != -1 && st.sceneMode == Arm ==> r.sceneSelected == st.sceneSelected && r.sceneNext == other)
      && (other == -1 ==> r.sceneSelected == st.sceneSelected && r.sceneNext == st.sceneNext)
      && r.panel.scene[r.sceneSelected] > 0.0
      && r.currentMatrix == r.panel.matrix == r.scenes[r.sceneSelected].matrix
  {
    var s := PollSelect(st);
    assert Poll(st) == WriteBack(s);
  }

  lemma PollKeepsFadeTargets(st: State)
    requires Valid(st) && FadeTargetsAgree(st)
    ensures FadeTargetsAgree(Poll(st))
  {
    var sel := st.sceneSelected;
    var other := FirstOtherPressed(st.panel.scene, sel, 0);
    if other != -1 && st.sceneMode != Arm {
      SceneSetKeepsFadeTargets(st, other);
    }
    var s := PollSelect(st);
    assert FadeTargetsAgree(PollChoose(st, other));
    assert FadeTargetsAgree(s);
    assert Poll(st) == WriteBack(s);
  }
}

=== FILE: intermix_audio.dfy ===
/**
 * The Intermix audio path: what each input contributes in its mode, the
 * per-row fades of the live matrix, the mix of each output column, the
 * output stage, and one whole sample (scene CV, poll, audio).
 */
module IntermixAudio {
  import opened Rack
  import opened Dsp
  import opened Intermix

  /** Every mode code other than off, direct and fade selects a constant voltage. */
  predicate IsConstantMode(mode: int) {
    mode != ImOff && mode != ImDirect && mode != ImFade
  }

  /**
   * What input `i` contributes: nothing (None) when off, or when direct/fade
   * and unpatched; the jack's voltage for direct/fade; a constant of
   * (mode - 24) / 12 V for every other code, whether patched or not.
   */
  function Resolve(mode: int, connected: bool, v: real): (r: Option<real>)
    ensures r == None <==> mode == ImOff || ((mode == ImDirect || mode == ImFade) && !connected)
    ensures (mode == ImDirect || mode == ImFade) && connected ==> r == Some(v)
    ensures IsConstantMode(mode) ==> r == Some((mode - 24) as real / 12.0)
  {
    if mode == ImOff then None
    else if mode == ImDirect || mode == ImFade then (if connected then Some(v) else None)
    else Some((mode - 24) as real / 12.0)
  }

  /** A constant-voltage code gives the same contribution whatever the jack carries. */
  lemma ConstantIgnoresJack(mode: int, c1: bool, v1: real, c2: bool, v2: real)
    requires IsConstantMode(mode)
    ensures Resolve(mode, c1, v1) == Resolve(mode, c2, v2)
  {
  }

  /** The mode in force for input `i`: per scene or global. */
  function ModeOf(st: State, i: nat): int
    requires Valid(st) && i < Ports
  {
    if st.sceneInputMode then st.scenes[st.sceneSelected].input[i] else st.inputMode[i]
  }

  /** The sum over inputs k < n of `m[k][j] * contribution_k`, skipping inputs that contribute nothing. */
  function Mix(m: Matrix, c: seq<Option<real>>, j: nat, n: nat): real
    requires IsMatrix(m) && |c| == Ports && j < Ports && n <= Ports
  {
    if n == 0 then 0.0
    else Mix(m, c, j, n - 1) + (if c[n - 1].Some? then m[n - 1][j] * c[n - 1].value else 0.0)
  }

  /** Advances row `i` of the fades and the live matrix when input `i` is a patched fade input. */
  function FadeRows(st: State, f: Frame): (r: State)
    requires Valid(st) && FrameOk(f)
    ensures Valid(r)
    ensures r.scenes == st.scenes && r.sceneSelected == st.sceneSelected && r.panel == st.panel
    ensures r.outputClamp == st.outputClamp && r.inputMode == st.inputMode
    ensures r.sceneInputMode == st.sceneInputMode && r.sceneNext == st.sceneNext
    ensures forall i, j :: 0 <= i < Ports && 0 <= j < Ports ==>
      r.fader[i][j].target == st.fader[i][j].target
    ensures forall i :: 0 <= i < Ports && !(ModeOf(st, i) == ImFade && f.connected[i]) ==>
      r.currentMatrix[i] == st.currentMatrix[i] && r.fader[i] == st.fader[i]
  {
    var fader := seq(Ports, i requires 0 <= i < Ports =>
      if ModeOf(st, i) == ImFade && f.connected[i] then
        seq(Ports, j requires 0 <= j < Ports => FadeStep(st.fader[i][j], f.dt))
      else st.fader[i]);
    var cm := seq(Ports, i requires 0 <= i < Ports =>
      if ModeOf(st, i) == ImFade && f.connected[i] then
        seq(Ports, j requires 0 <= j < Ports => fader[i][j].current)
      else st.currentMatrix[i]);
    assert forall i, j :: 0 <= i < Ports && 0 <= j < Ports ==> fader[i][j].target == st.fader[i][j].target by {
      forall i, j | 0 <= i < Ports && 0 <= j < Ports
        ensures fader[i][j].target == st.fader[i][j].target
      {
        if ModeOf(st, i) == ImFade && f.connected[i] {
          assert fader[i][j] == FadeStep(st.fader[i][j], f.dt);
        }
      }
    }
    st.(fader := fader, currentMatrix := cm)
  }

  /** The output stage: enable mask, optional clamp to [-10 V, 10 V], then the attenuverter. */
  function OutputStage(st: State, raw: real, j: nat): (r: real)
    requires Valid(st) && j < Ports
    ensures st.outputClamp ==> Abs(r) <= 10.0 * Abs(st.scenes[st.sceneSelected].outputAt[j])
    ensures st.scenes[st.sceneSelected].output[j] == OmOff ==> r == 0.0
    ensures !st.outputClamp && st.scenes[st.sceneSelected].output[j] != OmOff ==>
      r == raw * st.scenes[st.sceneSelected].outputAt[j]
    ensures st.outputClamp && st.scenes[st.sceneSelected].output[j] != OmOff ==>
      r == Clamp(raw, -10.0, 10.0) * st.scenes[st.sceneSelected].outputAt[j]
  {
    var sc := st.scenes[st.sceneSelected];
    var x := if sc.output[j] != OmOff then raw else 0.0;
    var y := if st.outputClamp then Clamp(x, -10.0, 10.0) else x;
    AbsMulBound(y, sc.outputAt[j], 10.0);
    y * sc.outputAt[j]
  }

  lemma AbsMulBound(y: real, a: real, b: real)
    ensures Abs(y) <= b ==> Abs(y * a) <= b * Abs(a)
  {
    if Abs(y) > b {
    } else if y >= 0.0 && a >= 0.0 {
      assert y * a <= b * a;
    } else if y >= 0.0 {
      assert y * (-a) <= b * (-a);
    } else if a >= 0.0 {
      assert (-y) * a <= b * a;
    } else {
      assert (-y) * (-a) <= b * (-a);
    }
  }

  /** One sample of the audio path: fades advance, then each output is mixed and shaped. */
  function Audio(st: State, f: Frame): (r: (State, seq<real>))
    requires Valid(st) && FrameOk(f)
    ensures Valid(r.0) && |r.1| == Ports
    ensures r.0 == FadeRows(st, f)
    ensures forall j :: 0 <= j < Ports ==>
      r.1[j] == OutputStage(st, Mix(r.0.currentMatrix, Contributions(st, f), j, Ports), j)
  {
    var s := FadeRows(st, f);
    var c := Contributions(st, f);
    (s, seq(Ports, j requires 0 <= j < Ports => OutputStage(st, Mix(s.currentMatrix, c, j, Ports), j)))
  }

  function Contributions(st: State, f: Frame): (r: seq<Option<real>>)
    requires Valid(st) && FrameOk(f)
    ensures |r| == Ports
    ensures forall i :: 0 <= i < Ports ==> r[i] == Resolve(ModeOf(st, i), f.connected[i], f.voltage[i])
  {
    seq(Ports, i requires 0 <= i < Ports => Resolve(ModeOf(st, i), f.connected[i], f.voltage[i]))
  }

  /** With clamping on, no output exceeds 10 V times its attenuverter. */
  lemma OutputBounded(st: State, f: Frame, j: nat)
    requires Valid(st) && FrameOk(f) && j < Ports && st.outputClamp
    ensures Abs(Audio(st, f).1[j]) <= 10.0 * Abs(st.scenes[st.sceneSelected].outputAt[j])
  {
  }

  /** The identity matrix. */
  function Identity(): (m: Matrix)
    ensures IsMatrix(m)
  {
    seq(Ports, i requires 0 <= i < Ports => seq(Ports, j requires 0 <= j < Ports => if i == j then 1.0 else 0.0))
  }

  lemma {:induction false} MixIdentity(c: seq<Option<real>>, j: nat, n: nat)
    requires |c| == Ports && j < Ports && n <= Ports
    requires forall k :: 0 <= k < Ports ==> c[k].Some?
    ensures Mix(Identity(), c, j, n) == if j < n then c[j].value else 0.0
  {
    if n > 0 {
      MixIdentity(c, j, n - 1);
    }
  }

  /**
   * Straight-through patch: with the identity matrix, every input direct and
   * patched, every output enabled and unity attenuverters, each output
   * carries its own input, clamped to [-10 V, 10 V] when clamping is on.
   */
  lemma StraightThrough(st: State, f: Frame)
    requires Valid(st) && FrameOk(f)
    requires st.currentMatrix == Identity()
    requires forall k :: 0 <= k < Ports ==> ModeOf(st, k) == ImDirect && f.connected[k]
    requires forall k :: 0 <= k < Ports ==>
      st.scenes[st.sceneSelected].output[k] == OmOut && st.scenes[st.sceneSelected].outputAt[k] == 1.0
    ensures forall j :: 0 <= j < Ports ==>
      Audio(st, f).1[j] == if st.outputClamp then Clamp(f.voltage[j], -10.0, 10.0) else f.voltage[j]
  {
    var c := Contributions(st, f);
    assert FadeRows(st, f).currentMatrix == Identity();
    forall j | 0 <= j < Ports
      ensures Audio(st, f).1[j] == if st.outputClamp then Clamp(f.voltage[j], -10.0, 10.0) else f.voltage[j]
    {
      MixIdentity(c, j, Ports);
    }
  }

  /** With clamping on (the default), signals within [-10 V, 10 V] pass the straight-through patch unchanged. */
  lemma StraightThroughClamped(st: State, f: Frame)
    requires Valid(st) && FrameOk(f)
    requires st.currentMatrix == Identity() && st.outputClamp
    requires forall k :: 0 <= k < Ports ==> ModeOf(st, k) == ImDirect && f.connected[k]
    requires forall k :: 0 <= k < Ports ==>
      st.scenes[st.sceneSelected].output[k] == OmOut && st.scenes[st.sceneSelected].outputAt[k] == 1.0
    requires forall k :: 0 <= k < Ports ==> -10.0 <= f.voltage[k] <= 10.0
    ensures forall j :: 0 <= j < Ports ==> Audio(st, f).1[j] == f.voltage[j]
  {
    StraightThrough(st, f);
  }

  // ---------------------------------------------------------------- whole sample

  /** One sample: scene CV (when patched), the poll (on its tick), then the audio path. */
  function Process(st: State, f: Frame): (r: (State, seq<real>))
    requires Valid(st) && FrameOk(f)
    ensures Valid(r.0) && |r.1| == Ports
  {
    var s1 := if f.sceneConnected then SceneCv(st, f.sceneVoltage, f.sceneEdge) else st;
    var s2 := if f.pollTick then Poll(s1) else s1;
    Audio(s2, f)
  }

  /** The fade targets keep following the selected scene through every sample. */
  lemma ProcessKeepsFadeTargets(st: State, f: Frame)
    requires Valid(st) && FrameOk(f) && FadeTargetsAgree(st)
    ensures FadeTargetsAgree(Process(st, f).0)
  {
    var s1 := if f.sceneConnected then SceneCv(st, f.sceneVoltage, f.sceneEdge) else st;
    if f.sceneConnected {
      var v := f.sceneVoltage;
      if st.sceneMode == TrigFwd {
        if f.sceneEdge { SceneSetKeepsFadeTargets(st, (st.sceneSelected + 1) % SceneCount); }
      } else if st.sceneMode == C4 {
        SceneSetKeepsFadeTargets(st, C4SceneIndex(v));
      } else if st.sceneMode == Volt {
        SceneSetKeepsFadeTargets(st, VoltSceneIndex(v));
      } else if st.sceneMode == Arm {
        if f.sceneEdge { SceneSetKeepsFadeTargets(st, st.sceneNext); }
      }
    }
    assert FadeTargetsAgree(s1);
    var s2 := if f.pollTick then Poll(s1) else s1;
    if f.pollTick { PollKeepsFadeTargets(s1); }
  }
}

=== FILE: intermix_label.dfy ===
/**
 * The three-character labels Intermix shows for its input modes: OFF, the
 * direct and fade arrows, and a signed two-digit semitone offset for every
 * constant-voltage code; and the codes the input menu offers.
 */
module IntermixLabel {
  import opened Rack
  import opened Intermix
  import opened IntermixAudio

  function Digit(d: nat): char
    requires d < 10
  {
    ('0' as int + d) as char
  }

  /** `%02i` for 0..99. */
  function TwoDigits(n: nat): (s: string)
    requires n < 100
    ensures |s| == 2
  {
    [Digit(n / 10), Digit(n % 10)]
  }

  /** The three-character label of an input mode. */
  function Label(mode: int): (s: string)
    requires -75 <= mode <= 123
    ensures |s| == 3
  {
    if mode == ImOff then "OFF"
    else if mode == ImDirect then "<->"
    else if mode == ImFade then "FAD"
    else
      var d := mode - 24;
      [if d > 0 then '+' else '-'] + TwoDigits(if d < 0 then -d else d)
  }

  function DigitValue(c: char): Option<nat> {
    if '0' <= c <= '9' then Some(c as int - '0' as int) else None
  }

  /** Reads a label back into a mode code. */
  function ParseLabel(s: string): (r: Option<int>) {
    if s == "OFF" then Some(ImOff)
    else if s == "<->" then Some(ImDirect)
    else if s == "FAD" then Some(ImFade)
    else if |s| == 3 && (s[0] == '+' || s[0] == '-') && DigitValue(s[1]).Some? && DigitValue(s[2]).Some? then
      var n := DigitValue(s[1]).value * 10 + DigitValue(s[2]).value;
      Some(if s[0] == '+' then 24 + n else 24 - n)
    else None
  }

  /** Every mode code whose offset from 24 fits two digits has a label that reads back as that code. */
  lemma LabelRoundTrip(mode: int)
    requires -75 <= mode <= 123
    ensures ParseLabel(Label(mode)) == Some(mode)
  {
    if IsConstantMode(mode) {
      var d := mode - 24;
      var a := if d < 0 then -d else d;
      var s := Label(mode);
      assert s == [if d > 0 then '+' else '-', Digit(a / 10), Digit(a % 10)];
      assert s != "OFF" && s != "<->" && s != "FAD" by {
        assert s[0] != 'O' && s[0] != '<' && s[0] != 'F';
      }
      assert DigitValue(s[1]) == Some(a / 10);
      assert DigitValue(s[2]) == Some(a % 10);
      assert (a / 10) * 10 + a % 10 == a;
    }
  }

  /** The constant-voltage codes offered by the input menu: 24 - i and 24 + i for i = 1..12. */
  function MenuCodes(): (r: seq<int>)
    ensures |r| == 24
  {
    seq(12, k requires 0 <= k < 12 => 24 - (12 - k)) + seq(12, k requires 0 <= k < 12 => 24 + (k + 1))
  }

  /**
   * The menu codes are exactly 12..23 and 25..36, each a constant of a whole
   * number of semitones between -1 V and +1 V excluding 0 V.
   */
  lemma MenuCodesAreConstants()
    ensures forall k :: 0 <= k < 24 ==> MenuCodes()[k] == (if k < 12 then 12 + k else 13 + k)
    ensures forall k :: 0 <= k < 24 ==>
      var v := Resolve(MenuCodes()[k], false, 0.0);
      v.Some? && -1.0 <= v.value <= 1.0 && v.value != 0.0
  {
    forall k | 0 <= k < 24
      ensures MenuCodes()[k] == (if k < 12 then 12 + k else 13 + k)
    {
      if k < 12 {
        assert MenuCodes()[k] == seq(12, k requires 0 <= k < 12 => 24 - (12 - k))[k];
      } else {
        assert MenuCodes()[k] == seq(12, k requires 0 <= k < 12 => 24 + (k + 1))[k - 12];
      }
    }
  }
}

=== FILE: intermix_store.dfy ===
/**
 * Intermix reset and persistence: the default scene, the flattened matrix
 * layout of the saved patch, and loading a saved patch back.
 */
module IntermixStore {
  import opened Rack
  import opened Dsp
  import opened Intermix

  function DefaultScene(): (s: Scene)
    ensures SceneOk(s)
  {
    Scene(seq(Ports, _ => ImDirect), seq(Ports, _ => OmOut), seq(Ports, _ => 1.0),
          seq(Ports, _ => seq(Ports, _ => 0.0)))
  }

  /** The panel's configured defaults: buttons released, pads off, unity attenuverters, no fades. */
  function DefaultPanel(): (p: Panel)
    ensures PanelOk(p)
  {
    Panel(seq(SceneCount, _ => 0.0), seq(Ports, _ => 0.0), seq(Ports, _ => 1.0),
          seq(Ports, _ => seq(Ports, _ => 0.0)), 0.0, 0.0)
  }

  /**
   * `onReset`: the host first returns every panel control to its configured
   * default, then the module sets every scene direct, enabled, unity gain and
   * unrouted, puts the global modes back to defaults and switches to scene 0.
   * When scene 0 is already selected the switch does nothing, so the scene
   * buttons stay off and the live matrix and the fades keep their previous
   * contents until the next poll; otherwise the switch lights scene button 0.
   */
  function OnReset(st: State): (r: State)
    requires Valid(st)
    ensures Valid(r)
    ensures r.sceneSelected == 0 && r.sceneMode == TrigFwd && !r.sceneInputMode
    ensures r.padBrightness == 0.75 && !r.inputVisualize && r.outputClamp
    ensures forall k :: 0 <= k < SceneCount ==> r.scenes[k] == DefaultScene()
    ensures forall k :: 0 <= k < Ports ==> r.inputMode[k] == ImDirect
    ensures st.sceneSelected != 0 ==>
      forall k :: 0 <= k < SceneCount ==> r.panel.scene[k] == (if k == 0 then 1.0 else 0.0)
    ensures st.sceneSelected == 0 ==> forall k :: 0 <= k < SceneCount ==> r.panel.scene[k] == 0.0
    ensures forall k :: 0 <= k < Ports ==> r.panel.output[k] == 0.0 && r.panel.at[k] == 1.0
    ensures forall j, k :: 0 <= j < Ports && 0 <= k < Ports ==> r.panel.matrix[j][k] == 0.0
    ensures r.panel.fadeIn == 0.0 && r.panel.fadeOut == 0.0
    ensures st.sceneSelected != 0 ==> r.currentMatrix == DefaultScene().matrix && r.sceneNext == -1
    ensures st.sceneSelected == 0 ==> r.currentMatrix == st.currentMatrix && r.fader == st.fader
  {
    var s := st.(padBrightness := 0.75, inputVisualize := false, outputClamp := true,
                 inputMode := seq(Ports, _ => ImDirect),
                 scenes := seq(SceneCount, _ => DefaultScene()),
                 sceneMode := TrigFwd, sceneInputMode := false);
    SceneSet(s.(panel := DefaultPanel()), 0)
  }

  /**
   * The first poll after a reset finds no button pressed, keeps scene 0 and
   * writes the default panel into it: scene 0 is the default scene and the
   * live matrix is all off, whatever the pads held before.
   */
  lemma PollAfterReset(st: State)
    requires Valid(st)
    ensures var r := Poll(OnReset(st));
      && r.sceneSelected == 0
      && r.scenes[0] == DefaultScene()
      && r.currentMatrix == DefaultScene().matrix
  {
    var s := OnReset(st);
    assert FirstOtherPressed(s.panel.scene, 0, 0) == -1;
    var r := Poll(s);
    assert r.scenes[0].output == DefaultScene().output;
  }

  // ---------------------------------------------------------------- persistence

  /** The fields `dataToJson` stores. The matrix of each scene is stored flattened row by row. */
  datatype Persisted = Persisted(panelTheme: int, padBrightness: real, inputVisualize: bool,
                                 outputClamp: bool, inputMode: seq<int>, scenes: seq<PersistedScene>,
                                 sceneSelected: int, sceneMode: int, sceneInputMode: bool)

  datatype PersistedScene = PersistedScene(input: seq<int>, output: seq<int>, outputAt: seq<real>,
                                           matrix: seq<real>)

  /** Row-major flattening: cell [j][k] goes to position j*8 + k. */
  function Flatten(m: Matrix): (r: seq<real>)
    requires IsMatrix(m)
    ensures |r| == Ports * Ports
    ensures forall j, k :: 0 <= j < Ports && 0 <= k < Ports ==> r[j * Ports + k] == m[j][k]
  {
    seq(Ports * Ports, x requires 0 <= x < Ports * Ports => m[x / Ports][x % Ports])
  }

  /** The loader's placement of entry `index` at [index / 8][index % 8]. */
  function Unflatten(s: seq<real>): (m: Matrix)
    requires |s| == Ports * Ports
    ensures IsMatrix(m)
  {
    seq(Ports, j requires 0 <= j < Ports => seq(Ports, k requires 0 <= k < Ports => s[j * Ports + k]))
  }

  lemma FlattenRoundTrip(m: Matrix)
    requires IsMatrix(m)
    ensures Unflatten(Flatten(m)) == m
  {
    var u := Unflatten(Flatten(m));
    forall j | 0 <= j < Ports
      ensures u[j] == m[j]
    {
      forall k | 0 <= k < Ports
        ensures u[j][k] == m[j][k]
      {
        assert Flatten(m)[j * Ports + k] == m[j][k];
      }
    }
  }

  lemma UnflattenRoundTrip(s: seq<real>)
    requires |s| == Ports * Ports
    ensures Flatten(Unflatten(s)) == s
  {
    var f := Flatten(Unflatten(s));
    forall x | 0 <= x < Ports * Ports
      ensures f[x] == s[x]
    {
      var j := x / Ports;
      var k := x % Ports;
      assert x == j * Ports + k;
    }
  }

  /** A scene as stored: the per-output fields as they are and the matrix flattened; loading gives it back. */
  function SaveScene(s: Scene): (p: PersistedScene)
    requires SceneOk(s)
    ensures PersistedSceneOk(p)
    ensures LoadScene(p) == s
  {
    FlattenRoundTrip(s.matrix);
    PersistedScene(s.input, s.output, s.outputAt, Flatten(s.matrix))
  }

  predicate PersistedSceneOk(p: PersistedScene) {
    |p.input| == Ports && |p.output| == Ports && |p.outputAt| == Ports && |p.matrix| == Ports * Ports
  }

  /** A stored scene loaded back: entry j*8 + k of the stored matrix becomes cell [j][k]. */
  function LoadScene(p: PersistedScene): (s: Scene)
    requires PersistedSceneOk(p)
    ensures SceneOk(s)
    ensures s.input == p.input && s.output == p.output && s.outputAt == p.outputAt
    ensures forall j, k :: 0 <= j < Ports && 0 <= k < Ports ==> s.matrix[j][k] == p.matrix[j * Ports + k]
  {
    Scene(p.input, p.output, p.outputAt, Unflatten(p.matrix))
  }

  /** `dataToJson`: every setting and the selection as they are, and every scene in its stored form. */
  function ToPersisted(st: State): (p: Persisted)
    requires Valid(st)
    ensures PersistedOk(p)
    ensures forall k :: 0 <= k < SceneCount ==> LoadScene(p.scenes[k]) == st.scenes[k]
    ensures p.sceneSelected == st.sceneSelected && p.sceneMode == st.sceneMode
    ensures p.inputMode == st.inputMode && p.outputClamp == st.outputClamp
  {
    Persisted(st.panelTheme, st.padBrightness, st.inputVisualize, st.outputClamp, st.inputMode,
              seq(SceneCount, k requires 0 <= k < SceneCount => SaveScene(st.scenes[k])),
              st.sceneSelected, st.sceneMode, st.sceneInputMode)
  }

  /** Complete, well-sized persisted data whose selected scene exists. */
  predicate PersistedOk(p: Persisted) {
    && |p.inputMode| == Ports
    && |p.scenes| == SceneCount
    && (forall k :: 0 <= k < SceneCount ==> PersistedSceneOk(p.scenes[k]))
    && 0 <= p.sceneSelected < SceneCount
  }

  /**
   * `dataFromJson`: restores every stored field, then sets the live matrix to
   * the selected scene's and resets every fade to its cell's value.
   */
  function FromPersisted(st: State, p: Persisted): (r: State)
    requires Valid(st) && PersistedOk(p)
    ensures Valid(r)
    ensures r.currentMatrix == r.scenes[r.sceneSelected].matrix
    ensures forall i, j :: 0 <= i < Ports && 0 <= j < Ports ==>
      r.fader[i][j].current == r.fader[i][j].target == r.currentMatrix[i][j]
    ensures FadeTargetsAgree(r)
    ensures r.panel == st.panel && r.sceneNext == st.sceneNext
  {
    var scenes := seq(SceneCount, k requires 0 <= k < SceneCount => LoadScene(p.scenes[k]));
    var m := scenes[p.sceneSelected].matrix;
    var fader := seq(Ports, i requires 0 <= i < Ports =>
      seq(Ports, j requires 0 <= j < Ports => FadeReset(st.fader[i][j], m[i][j])));
    st.(panelTheme := p.panelTheme, padBrightness := p.padBrightness, inputVisualize := p.inputVisualize,
        outputClamp := p.outputClamp, inputMode := p.inputMode, scenes := scenes,
        sceneSelected := p.sceneSelected, sceneMode := p.sceneMode, sceneInputMode := p.sceneInputMode,
        currentMatrix := m, fader := fader)
  }

  /** Saving then loading restores every stored field of the saved state. */
  lemma PersistRoundTrip(st: State, saved: State)
    requires Valid(st) && Valid(saved)
    ensures var r := FromPersisted(st, ToPersisted(saved));
      && r.scenes == saved.scenes
      && r.sceneSelected == saved.sceneSelected && r.sceneMode == saved.sceneMode
      && r.sceneInputMode == saved.sceneInputMode && r.inputMode == saved.inputMode
      && r.outputClamp == saved.outputClamp && r.padBrightness == saved.padBrightness
      && r.inputVisualize == saved.inputVisualize && r.panelTheme == saved.panelTheme
      && ToPersisted(r) == ToPersisted(saved)
  {
    var r := FromPersisted(st, ToPersisted(saved));
    forall k | 0 <= k < SceneCount
      ensures r.scenes[k] == saved.scenes[k]
    {
      FlattenRoundTrip(saved.scenes[k].matrix);
    }
  }
}

=== FILE: long_press.dfy ===
/**
 * The long-press button helper shared by EightFace and Strip: it turns the
 * per-sample value of a momentary button into "short press" (released
 * within one second) and "long press" (held for one second, reported once
 * while still held) events.
 */
module LongPress {
  import opened Dsp

  datatype Event = NoPress | ShortPress | LongPress

  /**
   * `pressedTime` counts the seconds the button has been held; -1 marks a
   * press already reported as long. The release detector watches `!pressed`.
   */
  datatype Button = Button(pressedTime: real, trigger: BoolTrigger)

  /** Freshly constructed button: nothing held, release detector primed. */
  const Idle: Button := Button(0.0, BoolTrigger(true))

  /** Seconds a press must last to become a long press. */
  const LongTime: real := 1.0

  /** One sample: `value` is the button parameter, `dt` the sample time. */
  function Step(b: Button, value: real, dt: real): (r: (Button, Event))
    requires dt > 0.0
    ensures r.1 == LongPress <==>
      value > 0.0 && b.pressedTime >= 0.0 && b.pressedTime + dt >= LongTime
    ensures r.1 == ShortPress <==> value <= 0.0 && !b.trigger.state && b.pressedTime >= 0.0
    ensures r.0.trigger.state <==> value <= 0.0
    ensures value <= 0.0 && !b.trigger.state ==> r.0.pressedTime == 0.0
    ensures r.1 == LongPress ==> r.0.pressedTime == -1.0
  {
    var pressed := value > 0.0;
    var (pt, res) :=
      if pressed && b.pressedTime >= 0.0 then
        var t := b.pressedTime + dt;
        if t >= LongTime then (-1.0, LongPress) else (t, NoPress)
      else (b.pressedTime, NoPress);
    var (trig, released) := BoolTriggerStep(b.trigger, !pressed);
    if released then
      (Button(0.0, trig), if pt >= 0.0 then ShortPress else res)
    else
      (Button(pt, trig), res)
  }

  /** Feeds a sequence of button values, one per sample, collecting the events. */
  function Run(b: Button, values: seq<real>, dt: real): (r: (Button, seq<Event>))
    requires dt > 0.0
    ensures |r.1| == |values|
    decreases |values|
  {
    if |values| == 0 then (b, [])
    else
      var (b1, evs) := Run(b, values[..|values| - 1], dt);
      var (b2, e) := Step(b1, values[|values| - 1], dt);
      (b2, evs + [e])
  }

  /** Number of events other than `NoPress`. */
  function Fired(evs: seq<Event>): nat
    decreases |evs|
  {
    if |evs| == 0 then 0
    else Fired(evs[..|evs| - 1]) + (if evs[|evs| - 1] == NoPress then 0 else 1)
  }

  /** `n` samples of the button held down. */
  function Held(n: nat): (r: seq<real>)
    ensures |r| == n
    ensures forall i :: 0 <= i < n ==> r[i] == 1.0
  {
    seq(n, i => 1.0)
  }

  /** What holding the button for `k >= 1` samples from idle has produced. */
  predicate HoldInv(r: (Button, seq<Event>), k: nat, dt: real) {
    && !r.0.trigger.state
    && (k as real * dt < LongTime ==> r.0.pressedTime == k as real * dt && Fired(r.1) == 0)
    && (k as real * dt >= LongTime ==> r.0.pressedTime == -1.0 && Fired(r.1) == 1 && LongPress in r.1)
  }

  lemma RunSnoc(b: Button, values: seq<real>, x: real, dt: real)
    requires dt > 0.0
    ensures Run(b, values + [x], dt) ==
      (Step(Run(b, values, dt).0, x, dt).0, Run(b, values, dt).1 + [Step(Run(b, values, dt).0, x, dt).1])
  {
    assert (values + [x])[..|values|] == values;
  }

  lemma FiredSnoc(evs: seq<Event>, e: Event)
    ensures Fired(evs + [e]) == Fired(evs) + (if e == NoPress then 0 else 1)
  {
    assert (evs + [e])[..|evs|] == evs;
  }

  /** One more held sample keeps `HoldInv`, with the hold one sample longer. */
  lemma HoldStep(r: (Button, seq<Event>), k: nat, dt: real)
    requires k >= 1 && dt > 0.0 && HoldInv(r, k, dt)
    ensures HoldInv((Step(r.0, 1.0, dt).0, r.1 + [Step(r.0, 1.0, dt).1]), k + 1, dt)
  {
    var s := Step(r.0, 1.0, dt);
    FiredSnoc(r.1, s.1);
    var t := k as real * dt;
    assert t + dt == (k + 1) as real * dt;
    if t >= LongTime {
      var i :| 0 <= i < |r.1| && r.1[i] == LongPress;
      assert (r.1 + [s.1])[i] == LongPress;
    } else if t + dt >= LongTime {
      assert (r.1 + [s.1])[|r.1|] == LongPress;
    }
  }

  /**
   * Holding the button for `k >= 1` samples: before one second has passed the
   * elapsed time is counted and nothing fires; from then on exactly one long
   * press has been reported.
   */
  lemma {:induction false} HoldPhase(k: nat, dt: real)
    requires k >= 1 && dt > 0.0
    ensures HoldInv(Run(Idle, Held(k), dt), k, dt)
  {
    HeldSnoc(k - 1);
    RunSnoc(Idle, Held(k - 1), 1.0, dt);
    if k == 1 {
      HoldFirst(dt);
    } else {
      HoldPhase(k - 1, dt);
      HoldStep(Run(Idle, Held(k - 1), dt), k - 1, dt);
    }
  }

  lemma HeldSnoc(n: nat)
    ensures Held(n) + [1.0] == Held(n + 1)
  {
  }

  lemma HoldFirst(dt: real)
    requires dt > 0.0
    ensures HoldInv((Step(Idle, 1.0, dt).0, [] + [Step(Idle, 1.0, dt).1]), 1, dt)
  {
    var e := Step(Idle, 1.0, dt).1;
    FiredSnoc([], e);
    assert ([] + [e])[0] == e;
  }

  /**
   * A press held for `n >= 1` samples and then released yields exactly one
   * event: a long press if the hold reached one second, a short press (on
   * the release sample) otherwise. The button is idle again afterwards.
   */
  lemma PressThenRelease(n: nat, dt: real)
    requires n >= 1 && dt > 0.0
    ensures var (b, evs) := Run(Idle, Held(n) + [0.0], dt);
      && b == Idle
      && Fired(evs) == 1
      && (LongPress in evs <==> n as real * dt >= LongTime)
      && (evs[n] == ShortPress <==> n as real * dt < LongTime)
  {
    HoldPhase(n, dt);
    var input := Held(n) + [0.0];
    assert input[..n] == Held(n);
    var (b, evs) := Run(Idle, Held(n), dt);
    var (b2, e) := Step(b, 0.0, dt);
    assert Run(Idle, input, dt) == (b2, evs + [e]);
    assert (evs + [e])[..|evs|] == evs;
    assert (evs + [e])[n] == e;
    if LongPress in evs + [e] {
      var i :| 0 <= i < |evs + [e]| && (evs + [e])[i] == LongPress;
      if i < n {
        assert evs[i] == LongPress;
        if n as real * dt < LongTime {
          assert Fired(evs) == 0;
          FiredZero(evs, i);
        }
      }
    }
  }

  lemma {:induction false} FiredZero(evs: seq<Event>, i: nat)
    requires i < |evs| && evs[i] != NoPress
    ensures Fired(evs) > 0
    decreases |evs|
  {
    if i < |evs| - 1 {
      FiredZero(evs[..|evs| - 1], i);
    }
  }
}

=== FILE: param_map.dfy ===
/**
 * Bookkeeping shared by the parameter-mapping modules (`MapModule` and
 * CV-Map): a fixed array of parameter handles, the length of the list shown
 * to the user (`mapLen`, every mapped handle plus one spare "Mapping..."
 * slot), the learn cursor, and the blinking indicator of a handle.
 *
 * The channel count is the length of the handle array. The host's
 * `updateParamHandle` is modelled as plain assignment of the handle; its
 * side effect of unmapping other handles that pointed at the same parameter
 * is not modelled.
 */
module ParamMap {
  import opened Rack
  import opened Dsp

  /** A handle: the mapped module and parameter; module id -1 means unmapped. */
  datatype Handle = Handle(moduleId: int, paramId: int)

  const Unmapped: Handle := Handle(-1, 0)

  predicate Mapped(h: Handle) {
    h.moduleId >= 0
  }

  datatype State = State(handles: seq<Handle>, mapLen: int, learningId: int, learnedParam: bool,
                         filters: seq<real>, textScrolling: bool)

  /** Well-formed state: one filter per handle, the learn cursor on a handle or -1, every mapped handle listed. */
  predicate Valid(st: State) {
    && |st.handles| >= 1
    && |st.filters| == |st.handles|
    && -1 <= st.learningId < |st.handles|
    && 0 <= st.mapLen <= |st.handles|
    && (forall k :: 0 <= k < |st.handles| && Mapped(st.handles[k]) ==> k < st.mapLen)
  }

  /** Index of the last mapped handle among the first `n`, or -1. */
  function LastMapped(h: seq<Handle>, n: nat): (r: int)
    requires n <= |h|
    ensures -1 <= r < n
    ensures r >= 0 ==> Mapped(h[r])
    ensures forall k :: r < k < n ==> !Mapped(h[k])
  {
    if n == 0 then -1
    else if Mapped(h[n - 1]) then n - 1
    else LastMapped(h, n - 1)
  }

  /** `updateMapLen`: one past the last mapped handle, plus a spare slot while there is room. */
  function MapLenOf(h: seq<Handle>): (r: int)
    requires |h| >= 1
    ensures 1 <= r <= |h|
    ensures forall k :: 0 <= k < |h| && Mapped(h[k]) ==> k < r
    ensures Mapped(h[r - 1]) ==> r == |h|
    ensures r >= 2 && !Mapped(h[r - 1]) ==> Mapped(h[r - 2])
  {
    var last := LastMapped(h, |h|);
    if last + 1 < |h| then last + 2 else last + 1
  }

  /**
   * The list length is determined by the three properties `MapLenOf`
   * promises: any length that covers every mapped handle, ends on a mapped
   * handle only when the array is full, and has at most one trailing spare
   * slot is the one `updateMapLen` computes.
   */
  lemma MapLenUnique(h: seq<Handle>, r: int)
    requires |h| >= 1 && 1 <= r <= |h|
    requires forall k :: 0 <= k < |h| && Mapped(h[k]) ==> k < r
    requires Mapped(h[r - 1]) ==> r == |h|
    requires r >= 2 && !Mapped(h[r - 1]) ==> Mapped(h[r - 2])
    ensures r == MapLenOf(h)
  {
    var m := MapLenOf(h);
    if r < m {
      assert false;
    } else if r > m {
      assert false;
    }
  }

  /** First unmapped handle at index `from` or above, or -1. */
  function NextUnmapped(h: seq<Handle>, from: nat): (r: int)
    requires from <= |h|
    ensures r == -1 || (from <= r < |h| && !Mapped(h[r]))
    ensures r == -1 ==> forall k :: from <= k < |h| ==> Mapped(h[k])
    ensures r >= 0 ==> forall k :: from <= k < r ==> Mapped(h[k])
    decreases |h| - from
  {
    if from == |h| then -1
    else if !Mapped(h[from]) then from
    else NextUnmapped(h, from + 1)
  }

  /** `clearMaps`: every handle unmapped, filters reset, empty list, learning ended. */
  function ClearMaps(st: State): (r: State)
    requires Valid(st)
    ensures Valid(r)
    ensures |r.handles| == |st.handles| && forall k :: 0 <= k < |r.handles| ==> r.handles[k] == Unmapped
    ensures r.mapLen == 0 && r.learningId == -1
    ensures forall k :: 0 <= k < |r.filters| ==> r.filters[k] == FilterReset
  {
    st.(learningId := -1, handles := seq(|st.handles|, _ => Unmapped),
        filters := seq(|st.filters|, _ => FilterReset), mapLen := 0)
  }

  /** `onReset`: nothing mapped, not learning, one spare slot listed. */
  function OnReset(st: State): (r: State)
    requires Valid(st)
    ensures Valid(r)
    ensures forall k :: 0 <= k < |r.handles| ==> !Mapped(r.handles[k])
    ensures r.learningId == -1 && !r.learnedParam
    ensures r.mapLen == 1 == MapLenOf(r.handles)
  {
    ClearMaps(st.(learningId := -1, learnedParam := false)).(mapLen := 1)
  }

  /** `clearMap(id)`: unmaps one handle, resets its filter, ends learning and recomputes the list length. */
  function ClearMap(st: State, id: nat): (r: State)
    requires Valid(st) && id < |st.handles|
    ensures Valid(r)
    ensures r.handles == st.handles[id := Unmapped] && r.filters == st.filters[id := FilterReset]
    ensures r.learningId == -1 && r.mapLen == MapLenOf(r.handles)
  {
    var h := st.handles[id := Unmapped];
    st.(learningId := -1, handles := h, filters := st.filters[id := FilterReset], mapLen := MapLenOf(h))
  }

  /**
   * `commitLearn`: once a parameter has been learned for the handle under the
   * cursor, the cursor moves on to the next unmapped handle above it, or ends
   * (-1) when there is none. Without a cursor or a learned parameter nothing
   * changes.
   */
  function CommitLearn(st: State): (r: State)
    requires Valid(st)
    ensures Valid(r)
    ensures st.learningId < 0 || !st.learnedParam ==> r == st
    ensures st.learningId >= 0 && st.learnedParam ==>
      && !r.learnedParam
      && r.learningId == NextUnmapped(st.handles, st.learningId + 1)
      && (r.learningId == -1 || st.learningId < r.learningId)
    ensures r.handles == st.handles && r.mapLen == st.mapLen && r.filters == st.filters
  {
    if st.learningId < 0 || !st.learnedParam then st
    else st.(learnedParam := false, learningId := NextUnmapped(st.handles, st.learningId + 1))
  }

  /** `enableLearn(id)`: points the cursor at `id`; the learned flag is reset only when the cursor moves. */
  function EnableLearn(st: State, id: nat): (r: State)
    requires Valid(st) && id < |st.handles|
    ensures Valid(r)
    ensures r.learningId == id
    ensures r.learnedParam == (st.learnedParam && st.learningId == id)
    ensures r.handles == st.handles && r.mapLen == st.mapLen
  {
    if st.learningId != id then st.(learningId := id, learnedParam := false) else st
  }

  /** `disableLearn(id)`: ends learning only if the cursor is on `id`. */
  function DisableLearn(st: State, id: int): (r: State)
    requires Valid(st)
    ensures Valid(r)
    ensures r.learningId == (if st.learningId == id then -1 else st.learningId)
    ensures r.handles == st.handles && r.learnedParam == st.learnedParam && r.mapLen == st.mapLen
  {
    if st.learningId == id then st.(learningId := -1) else st
  }

  /**
   * `learnParam(id, moduleId, paramId)`: maps handle `id`, commits the
   * learning session and recomputes the list length, so the new mapping is
   * listed and a spare slot follows it while there is room.
   */
  function LearnParam(st: State, id: nat, moduleId: int, paramId: int): (r: State)
    requires Valid(st) && id < |st.handles|
    ensures Valid(r)
    ensures r.handles == st.handles[id := Handle(moduleId, paramId)]
    ensures r.mapLen == MapLenOf(r.handles)
    ensures moduleId >= 0 ==> id < r.mapLen
    ensures moduleId >= 0 && id + 1 < |st.handles| ==> id + 1 < r.mapLen
    ensures st.learningId >= 0 ==> !r.learnedParam && (r.learningId == -1 || st.learningId < r.learningId)
    ensures st.learningId >= 0 ==> r.learningId == NextUnmapped(r.handles, st.learningId + 1)
    ensures st.learningId < 0 ==> r.learnedParam && r.learningId == st.learningId
  {
    var s := st.(handles := st.handles[id := Handle(moduleId, paramId)], learnedParam := true);
    var s1 := CommitLearn(s.(mapLen := |s.handles|));
    assert s1.handles[id] == Handle(moduleId, paramId);
    s1.(mapLen := MapLenOf(s1.handles))
  }

  // ---------------------------------------------------------------- host lookups

  /** A parameter of a module, as the host describes it. */
  datatype Quantity = Quantity(minValue: real, maxValue: real, bounded: bool)

  /** The host's modules by id: each module's parameter quantities (None for a missing one). */
  type Modules = map<int, seq<Option<Quantity>>>

  /**
   * `getParamQuantity(id)`: the mapped parameter, provided its module exists,
   * it has a quantity and the quantity is bounded. A parameter index past the
   * module's parameter list also yields None.
   */
  function GetParamQuantity(env: Modules, h: Handle): (r: Option<Quantity>)
    ensures r.Some? <==>
      h.moduleId in env && 0 <= h.paramId < |env[h.moduleId]| &&
      env[h.moduleId][h.paramId].Some? && env[h.moduleId][h.paramId].value.bounded
    ensures r.Some? ==> r.value == env[h.moduleId][h.paramId].value
  {
    if h.moduleId !in env then None
    else if !(0 <= h.paramId < |env[h.moduleId]|) then None
    else
      var q := env[h.moduleId][h.paramId];
      if q.None? then None else if !q.value.bounded then None else q
  }

  // ---------------------------------------------------------------- persistence

  /** A stored map entry; a field may be missing. */
  datatype Entry = Entry(moduleId: Option<int>, paramId: Option<int>)

  /** `dataToJson`: the first `mapLen` handles. */
  function ToJson(st: State): (r: seq<Entry>)
    requires Valid(st)
    ensures |r| == st.mapLen
    ensures forall k :: 0 <= k < st.mapLen ==>
      r[k] == Entry(Some(st.handles[k].moduleId), Some(st.handles[k].paramId))
  {
    seq(st.mapLen, k requires 0 <= k < st.mapLen => Entry(Some(st.handles[k].moduleId), Some(st.handles[k].paramId)))
  }

  /** The handles `dataFromJson` builds: entry k maps handle k when both fields are there and k is in range. */
  function LoadHandles(n: nat, entries: seq<Entry>): (h: seq<Handle>)
    ensures |h| == n
    ensures forall k :: 0 <= k < n ==>
      h[k] == (if k < |entries| && entries[k].moduleId.Some? && entries[k].paramId.Some?
               then Handle(entries[k].moduleId.value, entries[k].paramId.value) else Unmapped)
  {
    seq(n, k requires 0 <= k < n =>
      if k < |entries| && entries[k].moduleId.Some? && entries[k].paramId.Some?
      then Handle(entries[k].moduleId.value, entries[k].paramId.value) else Unmapped)
  }

  /**
   * `dataFromJson`: clears every map, then takes each complete entry whose
   * index is a handle, skipping the rest, and recomputes the list length.
   * `textScrolling` is read as false when absent.
   */
  function FromJson(st: State, entries: seq<Entry>, textScrolling: Option<bool>): (r: State)
    requires Valid(st)
    ensures Valid(r)
    ensures r.handles == LoadHandles(|st.handles|, entries)
    ensures r.mapLen == MapLenOf(r.handles) && r.learningId == -1
    ensures r.textScrolling == (textScrolling.Some? && textScrolling.value)
  {
    var c := ClearMaps(st);
    var h := LoadHandles(|st.handles|, entries);
    c.(handles := h, mapLen := MapLenOf(h), textScrolling := textScrolling.Some? && textScrolling.value)
  }

  /** A handle that is either mapped or in the cleared form. */
  predicate Canonical(h: Handle) {
    Mapped(h) || h == Unmapped
  }

  /**
   * Saving and loading gives back every handle (unmapped ones in their
   * cleared form) and the list length `updateMapLen` would compute.
   */
  lemma JsonRoundTrip(st: State, other: State)
    requires Valid(st) && Valid(other) && |other.handles| == |st.handles|
    requires forall k :: 0 <= k < |st.handles| ==> Canonical(st.handles[k])
    ensures FromJson(other, ToJson(st), Some(st.textScrolling)).handles == st.handles
    ensures FromJson(other, ToJson(st), Some(st.textScrolling)).mapLen == MapLenOf(st.handles)
  {
    var h := FromJson(other, ToJson(st), Some(st.textScrolling)).handles;
    forall k | 0 <= k < |st.handles|
      ensures h[k] == st.handles[k]
    {
      if k >= st.mapLen {
        assert !Mapped(st.handles[k]);
      }
    }
  }

  // ---------------------------------------------------------------- indicator

  datatype Color = Color(r: int, g: int, b: int)

  const Black: Color := Color(0, 0, 0)

  /** Blink length in half-periods. */
  const IndicateCount: nat := 20

  /** Seconds per half-period. */
  const BlinkTime: real := 0.2

  /** The blink state of one handle: remaining half-periods, time accumulated, colour to restore, colour shown. */
  datatype Indicator = Indicator(count: int, elapsed: real, saved: Color, shown: Color)

  /** `indicate()`: start a blink of `IndicateCount` half-periods, remembering the handle's colour. */
  function Indicate(ind: Indicator): (r: Indicator)
    ensures r.count == IndicateCount && r.saved == ind.shown && r.shown == ind.shown
  {
    ind.(count := IndicateCount, saved := ind.shown)
  }

  /** One indicator update covering `t` seconds. */
  function IndicatorStep(ind: Indicator, t: real): (r: Indicator)
    ensures ind.count <= 0 ==> r == ind
    ensures ind.count > 0 && ind.elapsed + t > BlinkTime ==>
      r.count == ind.count - 1 && r.elapsed == 0.0 &&
      r.shown == (if (ind.count - 1) % 2 == 1 then Black else ind.saved)
    ensures ind.count > 0 && ind.elapsed + t <= BlinkTime ==>
      r.count == ind.count && r.elapsed == ind.elapsed + t && r.shown == ind.shown
    ensures r.saved == ind.saved
    ensures ind.count >= 0 ==> r.count >= 0
  {
    if ind.count > 0 then
      var e := ind.elapsed + t;
      if e > BlinkTime then
        ind.(elapsed := 0.0, count := ind.count - 1, shown := if (ind.count - 1) % 2 == 1 then Black else ind.saved)
      else ind.(elapsed := e)
    else ind
  }

  function IndicatorRun(ind: Indicator, t: real, n: nat): Indicator {
    if n == 0 then ind else IndicatorStep(IndicatorRun(ind, t, n - 1), t)
  }

  /** The indicator pass of `MapModule::process`: only mapped handles advance their blink. */
  function ProcessIndicators(h: seq<Handle>, inds: seq<Indicator>, t: real): (r: seq<Indicator>)
    requires |inds| == |h|
    ensures |r| == |h|
    ensures forall k :: 0 <= k < |h| ==> r[k] == (if Mapped(h[k]) then IndicatorStep(inds[k], t) else inds[k])
  {
    seq(|h|, k requires 0 <= k < |h| => if Mapped(h[k]) then IndicatorStep(inds[k], t) else inds[k])
  }

  /**
   * With updates longer than a half-period, a blink started by `Indicate`
   * alternates black and the saved colour, ending on the saved colour after
   * `IndicateCount` updates and staying there.
   */
  lemma {:induction false} BlinkSequence(ind: Indicator, t: real, n: nat)
    requires t > BlinkTime && ind.elapsed >= 0.0
    ensures var r := IndicatorRun(Indicate(ind), t, n);
      && r.count == (if n <= IndicateCount then IndicateCount - n else 0)
      && r.saved == ind.shown
      && (1 <= n ==> r.shown == (if r.count % 2 == 1 then Black else ind.shown))
      && r.elapsed >= 0.0
  {
    if n > 0 {
      BlinkSequence(ind, t, n - 1);
    }
  }
}

=== FILE: rack.dfy ===
/**
 * Numeric conventions of the host library, restated over unbounded integers
 * and reals. Voltages and parameter values are reals; the host's
 * single-precision rounding is not modelled. Where the modules use C++
 * integer operators whose meaning differs from Dafny's (`%` on negative
 * operands), the C++ meaning is written out here.
 */
module Rack {

  /** A value that may be absent: a null pointer, a missing JSON key. */
  datatype Option<T> = None | Some(value: T)

  /** `clamp(x, lo, hi)` of the host library. */
  function Clamp(x: real, lo: real, hi: real): (r: real)
    requires lo <= hi
    ensures lo <= r <= hi
    ensures lo <= x <= hi ==> r == x
    ensures x <= lo ==> r == lo
    ensures hi <= x ==> r == hi
  {
    if x < lo then lo else if x > hi then hi else x
  }

  /** `clamp` on integers. */
  function ClampInt(x: int, lo: int, hi: int): (r: int)
    requires lo <= hi
    ensures lo <= r <= hi
    ensures lo <= x <= hi ==> r == x
    ensures x <= lo ==> r == lo
    ensures hi <= x ==> r == hi
  {
    if x < lo then lo else if x > hi then hi else x
  }

  /** `rescale`: the affine map taking xMin to yMin and xMax to yMax, not clamped. */
  function Rescale(x: real, xMin: real, xMax: real, yMin: real, yMax: real): real
    requires xMin != xMax
  {
    yMin + (x - xMin) / (xMax - xMin) * (yMax - yMin)
  }

  /** `std::floor` followed by conversion to `int`. */
  function Floor(x: real): (r: int)
    ensures r as real <= x < r as real + 1.0
  {
    x.Floor
  }

  /** `std::ceil` followed by conversion to `int`. */
  function Ceil(x: real): (r: int)
    ensures r as real - 1.0 < x <= r as real
  {
    -((-x).Floor)
  }

  /** `std::round`: the nearest integer, halves away from zero. */
  function Round(x: real): (r: int)
    ensures x >= 0.0 ==> r as real - 0.5 <= x < r as real + 0.5
    ensures x < 0.0 ==> r as real - 0.5 < x <= r as real + 0.5
  {
    if x >= 0.0 then (x + 0.5).Floor else -((-x + 0.5).Floor)
  }

  /** C++ `a % b` on `int`: the remainder takes the sign of the dividend. */
  function CRem(a: int, b: int): (r: int)
    requires b != 0
    ensures a >= 0 ==> r == a % b
    ensures a < 0 ==> r <= 0
  {
    if a >= 0 then a % b else -((-a) % b)
  }

  /** `(int)pow(2, n)`. */
  function Pow2(n: nat): (r: nat)
    ensures r >= 1
  {
    if n == 0 then 1 else 2 * Pow2(n - 1)
  }

  function Abs(x: real): real {
    if x < 0.0 then -x else x
  }

  function Min(a: real, b: real): real {
    if a <= b then a else b
  }

  function Max(a: real, b: real): real {
    if a >= b then a else b
  }
}

=== FILE: remove.dfy ===
/**
 * ReMove Lite: records the movements of one mapped parameter into a fixed
 * buffer split into equal segments, one per sequence, and plays them back
 * (loop, oneshot or ping-pong). A sample is recorded or played every
 * 2^precision process calls. The parameter mapping itself is the shared
 * `ParamMap` bookkeeping with a single handle; here it is reduced to
 * "a parameter is mapped" (`hasQuantity`) and the scaled value it reports.
 */
module ReMove {
  import opened Rack
  import opened Dsp
  import ReMoveRle

  const MaxData: nat := 96000
  const MaxSeq: nat := 8

  const RecTouch: int := 0
  const RecMove: int := 1
  const RecManual: int := 2

  const InUni: int := 0
  const InBi: int := 1
  const InTrigger: int := 2

  const OutUni: int := 0
  const OutBi: int := 1

  const PlayLoop: int := 0
  const PlayOneshot: int := 1
  const PlayPingpong: int := 2

  const Fwd: int := 1
  const Rev: int := -1

  datatype State = State(
    data: seq<real>,
    dataPtr: int,
    seqCount: int,
    selected: int,
    seqLow: int,
    seqHigh: int,
    seqLength: seq<int>,
    seqCvMode: int,
    inCvMode: int,
    outCvMode: int,
    recMode: int,
    recTouched: bool,
    recTouch: real,
    precision: int,
    precisionCount: int,
    playMode: int,
    playDir: int,
    isPlaying: bool,
    isRecording: bool,
    filter: real)

  /** Size of each of the `count` segments of the buffer. */
  function SegmentSize(count: int): (s: int)
    requires 1 <= count <= MaxSeq
    ensures 12000 <= s <= MaxData && count * s <= MaxData
  {
    if count == 1 then 96000 else if count == 2 then 48000 else if count == 3 then 32000
    else if count == 4 then 24000 else if count == 5 then 19200 else if count == 6 then 16000
    else if count == 7 then 13714 else 12000
  }

  lemma SegmentSizeIsQuotient(count: int)
    requires 1 <= count <= MaxSeq
    ensures SegmentSize(count) == MaxData / count
  {
  }

  lemma MulLe(a: int, b: int, c: int)
    requires 0 <= a <= b && 0 <= c
    ensures a * c <= b * c
  {
    assert b * c - a * c == (b - a) * c;
  }

  /**
   * The segments of distinct sequences are disjoint and every segment lies
   * inside the buffer, for every sequence count the store can hold.
   */
  lemma SegmentsDisjoint(count: int, a: int, b: int)
    requires 1 <= count <= MaxSeq && 0 <= a < b < count
    ensures 0 <= a * SegmentSize(count)
    ensures (a + 1) * SegmentSize(count) <= b * SegmentSize(count)
    ensures (b + 1) * SegmentSize(count) <= MaxData
  {
    var s := SegmentSize(count);
    MulLe(0, a, s);
    MulLe(a + 1, b, s);
    MulLe(b + 1, count, s);
  }

  lemma SegmentInBuffer(count: int, k: int)
    requires 1 <= count <= MaxSeq && 0 <= k < count
    ensures 0 <= k * SegmentSize(count) && (k + 1) * SegmentSize(count) <= MaxData
  {
    MulLe(0, k, SegmentSize(count));
    MulLe(k + 1, count, SegmentSize(count));
  }

  /** The buffer layout: the selected segment is `[seqLow, seqHigh)`. */
  predicate Layout(st: State) {
    && |st.data| == MaxData && |st.seqLength| == MaxSeq
    && 1 <= st.seqCount <= MaxSeq && 0 <= st.selected < st.seqCount
    && st.seqLow == st.selected * SegmentSize(st.seqCount)
    && st.seqHigh == st.seqLow + SegmentSize(st.seqCount)
    && 0 <= st.seqLow && st.seqHigh <= MaxData
  }

  /** Stored lengths never exceed a segment. */
  predicate LengthsOk(st: State)
    requires Layout(st)
  {
    forall k :: 0 <= k < st.seqCount ==> 0 <= st.seqLength[k] <= SegmentSize(st.seqCount)
  }

  function Len(st: State): int
    requires Layout(st)
  {
    st.seqLength[st.selected]
  }

  /**
   * While recording, the pointer is the next free slot and lies below
   * `seqHigh`; otherwise it lies in the recorded part of the segment (or at
   * `seqLow` when nothing is recorded).
   */
  predicate PtrOk(st: State)
    requires Layout(st)
  {
    if st.isRecording then st.dataPtr == st.seqLow + Len(st) < st.seqHigh
    else st.seqLow <= st.dataPtr < st.seqLow + (if Len(st) >= 1 then Len(st) else 1)
  }

  predicate Valid(st: State) {
    && Layout(st) && LengthsOk(st) && PtrOk(st)
    && (st.playDir == Fwd || st.playDir == Rev)
    && 0 <= st.playMode <= 2
    && 0 <= st.precision && 0 <= st.precisionCount < Pow2(st.precision)
  }

  /** The layout and the menu settings, which no sample of `process` changes. */
  predicate SameConfig(a: State, b: State) {
    && a.seqCount == b.seqCount && a.selected == b.selected
    && a.seqLow == b.seqLow && a.seqHigh == b.seqHigh
    && a.seqCvMode == b.seqCvMode && a.inCvMode == b.inCvMode && a.outCvMode == b.outCvMode
    && a.recMode == b.recMode && a.precision == b.precision && a.playMode == b.playMode
  }

  /** Every index a valid state reads or writes at lies inside the buffer. */
  lemma PtrInBuffer(st: State)
    requires Valid(st)
    ensures 0 <= st.seqLow <= st.dataPtr < st.seqHigh <= MaxData
  {
    SegmentInBuffer(st.seqCount, st.selected);
  }

  /** `seqUpdate`: select the segment of `seq`, rewind to its start, reset the filter. */
  function SeqUpdate(st: State): (r: State)
    requires |st.data| == MaxData && |st.seqLength| == MaxSeq
    requires 1 <= st.seqCount <= MaxSeq && 0 <= st.selected < st.seqCount
    ensures Layout(r) && r.selected == st.selected && r.seqCount == st.seqCount
    ensures 0 <= r.seqLow == r.dataPtr < r.seqHigh <= MaxData
    ensures r.filter == FilterReset
    ensures r == st.(seqLow := r.seqLow, seqHigh := r.seqHigh, dataPtr := r.dataPtr, filter := FilterReset)
  {
    SegmentInBuffer(st.seqCount, st.selected);
    var s := SegmentSize(st.seqCount);
    st.(seqLow := st.selected * s, seqHigh := (st.selected + 1) * s, dataPtr := st.selected * s, filter := FilterReset)
  }

  /** A selection change rewinds to the new segment; everything recorded is kept. */
  function Select(st: State, s: int): (r: State)
    requires Valid(st) && !st.isRecording && 0 <= s < st.seqCount
    ensures Valid(r) && r.selected == s && r.dataPtr == r.seqLow && r.filter == FilterReset
    ensures r.data == st.data && r.seqLength == st.seqLength && r.seqCount == st.seqCount
    ensures r.isPlaying == st.isPlaying && r.isRecording == st.isRecording
  {
    SeqUpdate(st.(selected := s))
  }

  /** `seqNext`: the next sequence, wrapping to 0. */
  function SeqNext(st: State): (r: State)
    requires Valid(st) && !st.isRecording
    ensures Valid(r) && r.dataPtr == r.seqLow
    ensures r.selected == if st.selected == st.seqCount - 1 then 0 else st.selected + 1
    ensures r.data == st.data && r.seqLength == st.seqLength && r.seqCount == st.seqCount
    ensures r.isPlaying == st.isPlaying && r.isRecording == st.isRecording
  {
    ModStep(st.selected, st.seqCount);
    Select(st, (st.selected + 1) % st.seqCount)
  }

  /** `seqPrev`: the previous sequence, wrapping to the last. */
  function SeqPrev(st: State): (r: State)
    requires Valid(st) && !st.isRecording
    ensures Valid(r) && r.dataPtr == r.seqLow
    ensures r.selected == if st.selected == 0 then st.seqCount - 1 else st.selected - 1
    ensures r.data == st.data && r.seqLength == st.seqLength && r.seqCount == st.seqCount
    ensures r.isPlaying == st.isPlaying && r.isRecording == st.isRecording
  {
    ModWrapDown(st.selected, st.seqCount);
    Select(st, (st.selected - 1 + st.seqCount) % st.seqCount)
  }

  /** Next then previous returns to the same sequence, rewound. */
  lemma PrevUndoesNext(st: State)
    requires Valid(st) && !st.isRecording
    ensures SeqPrev(SeqNext(st)).selected == st.selected
    ensures SeqPrev(SeqNext(st)) == SeqUpdate(st)
  {
  }

  /** `n` presses of the next-sequence button. */
  function NextTimes(st: State, n: nat): (r: State)
    requires Valid(st) && !st.isRecording
    ensures Valid(r) && !r.isRecording && r.seqCount == st.seqCount
  {
    if n == 0 then st else SeqNext(NextTimes(st, n - 1))
  }

  /** The remainder of `x` by `m`, by repeated subtraction: the position after `x` steps around a cycle of `m`. */
  function Wrap(x: nat, m: nat): (r: nat)
    requires m >= 1
    ensures r < m
    decreases x
  {
    if x < m then x else Wrap(x - m, m)
  }

  /** One more step around the cycle moves to the next position, from the last back to 0. */
  lemma {:induction false} WrapNext(x: nat, m: nat)
    requires m >= 1
    ensures Wrap(x + 1, m) == if Wrap(x, m) == m - 1 then 0 else Wrap(x, m) + 1
    decreases x
  {
    if x + 1 < m {
    } else if x + 1 == m {
      assert Wrap(x + 1, m) == Wrap(0, m);
    } else {
      WrapNext(x - m, m);
    }
  }

  /** The divider's wrap: counting up from below `m` wraps to 0 exactly at `m`. */
  lemma ModStep(x: int, m: int)
    requires 0 <= x < m
    ensures (x + 1) % m == if x + 1 == m then 0 else x + 1
  {
    if x + 1 < m {
      assert (x + 1) % m == x + 1;
    } else {
      assert m % m == 0;
    }
  }

  /** Stepping back from below `m`, modulo `m`, wraps from 0 to `m - 1`. */
  lemma ModWrapDown(x: int, m: int)
    requires 0 <= x < m
    ensures (x - 1 + m) % m == if x == 0 then m - 1 else x - 1
  {
    if x == 0 {
      assert (m - 1) % m == m - 1;
    } else {
      assert (x - 1 + m) % m == x - 1 by {
        assert x - 1 + m == (x - 1) + 1 * m;
      }
    }
  }

  /** `n` presses of the next-sequence button move `n` places around the cycle of sequences. */
  lemma {:induction false} NextTimesCycles(st: State, n: nat)
    requires Valid(st) && !st.isRecording
    ensures NextTimes(st, n).selected == Wrap(st.selected + n, st.seqCount)
  {
    if n == 0 {
      assert Wrap(st.selected, st.seqCount) == st.selected;
    } else {
      var prev := NextTimes(st, n - 1);
      NextTimesCycles(st, n - 1);
      WrapNext(st.selected + n - 1, st.seqCount);
      assert prev.selected == Wrap(st.selected + n - 1, st.seqCount);
      assert NextTimes(st, n).selected == if prev.selected == st.seqCount - 1 then 0 else prev.selected + 1;
    }
  }

  /**
   * `seqSet` as written: it compares the requested index with the current
   * one before clamping, so an index past the last sequence that clamps to the
   * current one rewinds the pointer again on every call.
   */
  function SeqSetAsWritten(st: State, c: int): (r: State)
    requires Valid(st) && !st.isRecording
    ensures Valid(r) && r.selected == ClampInt(c, 0, st.seqCount - 1)
    ensures c == st.selected ==> r == st
    ensures c != st.selected ==> r.dataPtr == r.seqLow && r.filter == FilterReset
    ensures r.data == st.data && r.seqLength == st.seqLength && r.isPlaying == st.isPlaying && !r.isRecording
  {
    if c == st.selected then st else Select(st, ClampInt(c, 0, st.seqCount - 1))
  }

  /** `seqSet` comparing after clamping: re-selecting the current sequence leaves the state alone. */
  function SeqSet(st: State, c: int): (r: State)
    requires Valid(st) && !st.isRecording
    ensures Valid(r) && r.selected == ClampInt(c, 0, st.seqCount - 1)
    ensures ClampInt(c, 0, st.seqCount - 1) == st.selected ==> r == st
    ensures ClampInt(c, 0, st.seqCount - 1) != st.selected ==> r.dataPtr == r.seqLow
    ensures r.data == st.data && r.seqLength == st.seqLength && r.isPlaying == st.isPlaying
  {
    var t := ClampInt(c, 0, st.seqCount - 1);
    if t == st.selected then st else Select(st, t)
  }

  /** Setting the same index twice is the same as setting it once. */
  lemma SeqSetIdempotent(st: State, c: int)
    requires Valid(st) && !st.isRecording
    ensures SeqSet(SeqSet(st, c), c) == SeqSet(st, c)
  {
  }

  /**
   * With four sequences, sequence 3 selected and the pointer past its start,
   * asking for sequence 6 (a C4..G4 voltage of 0.5 V) clamps to 3 yet rewinds
   * the pointer; the SEQ input asks again on every sample, so playback is
   * held at the first value. The corrected `SeqSet` leaves the state as is.
   */
  lemma SeqSetAsWrittenRewinds(st: State)
    requires Valid(st) && !st.isRecording
    requires st.seqCount == 4 && st.selected == 3 && st.dataPtr > st.seqLow
    ensures SeqIndexC4(0.5) == 6
    ensures SeqSetAsWritten(st, 6).dataPtr == st.seqLow != st.dataPtr
    ensures SeqSet(st, 6) == st
  {
  }

  /** SEQ input, 0..10 V mode: the voltage spread over the sequences, rounded. */
  function SeqIndexVolt(v: real, count: int): (r: int)
    requires 1 <= count
    ensures 0.0 <= v <= 10.0 ==> 0 <= r < count
  {
    var x := Rescale(v, 0.0, 10.0, 0.0, (count - 1) as real);
    assert 0.0 <= v <= 10.0 ==> 0.0 <= x <= (count - 1) as real by {
      if 0.0 <= v <= 10.0 {
        MulNonNeg(v / 10.0, (count - 1) as real);
        MulNonNeg(1.0 - v / 10.0, (count - 1) as real);
      }
    }
    Round(x)
  }

  /** SEQ input, C4..G4 mode: one semitone per sequence, clamped to 0..7. */
  function SeqIndexC4(v: real): (r: int)
    ensures 0 <= r < MaxSeq
    ensures v <= 0.0 ==> r == 0
  {
    Round(Clamp(v * 12.0, 0.0, (MaxSeq - 1) as real))
  }

  /** `seqResize`: refused while recording; otherwise stop, select sequence 0 and empty the first `c` sequences. */
  function SeqResize(st: State, c: int): (r: State)
    requires Valid(st) && 1 <= c <= MaxSeq
    ensures Valid(r)
    ensures st.isRecording ==> r == st
    ensures !st.isRecording ==>
      && r.seqCount == c && r.selected == 0 && !r.isPlaying && r.dataPtr == 0
      && (forall k :: 0 <= k < c ==> r.seqLength[k] == 0)
      && (forall k :: c <= k < MaxSeq ==> r.seqLength[k] == st.seqLength[k])
      && r.data == st.data
  {
    if st.isRecording then st
    else
      var lengths := seq(MaxSeq, k requires 0 <= k < MaxSeq => if k < c then 0 else st.seqLength[k]);
      SeqUpdate(st.(isPlaying := false, selected := 0, seqCount := c, seqLength := lengths))
  }

  // ---------------------------------------------------------------------------
  // Value conversion

  /**
   * `getValue`: the value to record, in 0..1. A connected CV input in a
   * source mode is clamped and scaled; otherwise the parameter's own scaled
   * value is used.
   */
  function GetValue(inCvMode: int, cvConnected: bool, cv: real, scaled: real): (r: real)
    ensures cvConnected && (inCvMode == InUni || inCvMode == InBi) ==> 0.0 <= r <= 1.0
    ensures !cvConnected || (inCvMode != InUni && inCvMode != InBi) ==> r == scaled
  {
    if inCvMode == InUni && cvConnected then Rescale(Clamp(cv, 0.0, 10.0), 0.0, 10.0, 0.0, 1.0)
    else if inCvMode == InBi && cvConnected then Rescale(Clamp(cv, -5.0, 5.0), -5.0, 5.0, 0.0, 1.0)
    else scaled
  }

  /** `setValue`'s CV output: 0..1 onto 0..10 V or -5..5 V; none in other modes or when unpatched. */
  function OutVoltage(outCvMode: int, outConnected: bool, v: real): (r: Option<real>)
    ensures r.Some? <==> outConnected && (outCvMode == OutUni || outCvMode == OutBi)
    ensures 0.0 <= v <= 1.0 && r.Some? && outCvMode == OutUni ==> 0.0 <= r.value <= 10.0
    ensures 0.0 <= v <= 1.0 && r.Some? && outCvMode == OutBi ==> -5.0 <= r.value <= 5.0
  {
    if outCvMode == OutUni && outConnected then Some(Rescale(v, 0.0, 1.0, 0.0, 10.0))
    else if outCvMode == OutBi && outConnected then Some(Rescale(v, 0.0, 1.0, -5.0, 5.0))
    else None
  }

  /** A voltage recorded from the CV input comes back unchanged on the CV output in the matching mode. */
  lemma ConversionRoundTrip(v: real)
    ensures 0.0 <= v <= 10.0 ==> OutVoltage(OutUni, true, GetValue(InUni, true, v, 0.0)) == Some(v)
    ensures -5.0 <= v <= 5.0 ==> OutVoltage(OutBi, true, GetValue(InBi, true, v, 0.0)) == Some(v)
  {
  }

  // ---------------------------------------------------------------------------
  // Recording

  /** `startRecording`: empty the selected sequence and remember the value recording starts from. */
  function StartRecording(st: State, value: real): (r: State)
    requires Valid(st)
    ensures Valid(r) && r.isRecording && Len(r) == 0 && r.dataPtr == r.seqLow
    ensures !r.recTouched && r.recTouch == value && r.precisionCount == 0
    ensures r.data == st.data && SameConfig(r, st) && r.isPlaying == st.isPlaying
    ensures forall k :: 0 <= k < MaxSeq && k != st.selected ==> r.seqLength[k] == st.seqLength[k]
  {
    st.(isRecording := true, seqLength := st.seqLength[st.selected := 0], dataPtr := st.seqLow,
        precisionCount := 0, recTouch := value, recTouched := false)
  }

  /** `stopRecording`: rewind to the start of the segment, keeping what was recorded. */
  function StopRecording(st: State): (r: State)
    requires Layout(st) && LengthsOk(st) && 0 <= st.precision
    requires st.playDir == Fwd || st.playDir == Rev
    requires 0 <= st.playMode <= 2
    ensures Valid(r) && !r.isRecording && r.dataPtr == r.seqLow && r.precisionCount == 0
    ensures r.data == st.data && r.seqLength == st.seqLength && SameConfig(r, st)
    ensures r.filter == FilterReset && r.isPlaying == st.isPlaying && r.playDir == st.playDir
    ensures r.recTouched == st.recTouched && r.recTouch == st.recTouch
  {
    st.(isRecording := false, dataPtr := st.seqLow, precisionCount := 0, filter := FilterReset)
  }

  /**
   * Move-mode trim as written: from the last recorded value, step back over
   * equal values and keep everything before the run, so the final value is
   * dropped along with its repeats.
   */
  function TrimAsWritten(seg: seq<real>): (n: nat)
    ensures n <= |seg|
    ensures |seg| <= 1 ==> n == |seg|
    ensures |seg| >= 2 ==> n < |seg| && forall k :: n <= k < |seg| ==> seg[k] == seg[|seg| - 1]
    ensures |seg| >= 2 && n > 0 ==> seg[n - 1] != seg[|seg| - 1]
    ensures |seg| >= 2 ==> n + 1 == Trim(seg)
  {
    if |seg| <= 1 then |seg| else TrimBack(seg, |seg| - 1, seg[|seg| - 1])
  }

  /** The first index of the run of `l` that ends at `i`. */
  function TrimBack(seg: seq<real>, i: nat, l: real): (j: nat)
    requires i < |seg|
    ensures j <= i
    ensures forall k :: j <= k < i ==> seg[k] == l
    ensures j > 0 ==> seg[j - 1] != l
  {
    if i > 0 && seg[i - 1] == l then TrimBack(seg, i - 1, l) else i
  }

  /** The trim keeping one copy of the final value: only its trailing repeats are removed. */
  function Trim(seg: seq<real>): (n: nat)
    ensures n <= |seg|
    ensures |seg| >= 1 ==> 1 <= n && seg[n - 1] == seg[|seg| - 1]
    ensures forall k :: n <= k < |seg| ==> seg[k] == seg[|seg| - 1]
    ensures n >= 2 ==> seg[n - 2] != seg[n - 1]
  {
    if |seg| <= 1 then |seg| else TrimBack(seg, |seg| - 1, seg[|seg| - 1]) + 1
  }

  /** Trimming a trimmed recording changes nothing. */
  lemma TrimIdempotent(seg: seq<real>)
    ensures Trim(seg[..Trim(seg)]) == Trim(seg)
  {
    var n := Trim(seg);
    var t := seg[..n];
    if n >= 2 {
      assert t[n - 1] == seg[n - 1] && t[n - 2] == seg[n - 2];
      var j := TrimBack(t, n - 1, t[n - 1]);
      assert j == n - 1;
    }
  }

  /**
   * A recording ending "a, b" (b held once) is trimmed to "a" by the trim as
   * written: the value the parameter was left at is lost. The corrected trim
   * keeps both.
   */
  lemma TrimAsWrittenDropsFinal()
    ensures TrimAsWritten([0.25, 0.75]) == 1
    ensures Trim([0.25, 0.75]) == 2
  {
  }

  /** The recorded part of the selected segment. */
  function Recorded(st: State): (seg: seq<real>)
    requires Layout(st) && LengthsOk(st)
    ensures |seg| == Len(st)
  {
    SegmentInBuffer(st.seqCount, st.selected);
    st.data[st.seqLow .. st.seqLow + Len(st)]
  }

  /** The trim as written, read off the buffer: the cut samples all equal the last one, and the kept last one differs. */
  lemma TrimInBuffer(st: State)
    requires Valid(st)
    ensures var n := TrimAsWritten(Recorded(st));
      && (Len(st) >= 2 ==>
            forall i :: st.seqLow + n <= i < st.seqLow + Len(st) ==> st.data[i] == st.data[st.seqLow + Len(st) - 1])
      && (Len(st) >= 2 && n > 0 ==> st.data[st.seqLow + n - 1] != st.data[st.seqLow + Len(st) - 1])
  {
    var seg := Recorded(st);
    var n := TrimAsWritten(seg);
    var lo := st.seqLow;
    if Len(st) >= 2 {
      forall i | lo + n <= i < lo + Len(st)
        ensures st.data[i] == st.data[lo + Len(st) - 1]
      {
        assert seg[i - lo] == seg[|seg| - 1];
      }
      if n > 0 {
        assert seg[n - 1] != seg[|seg| - 1];
      }
    }
  }

  /**
   * Stop after a move-mode release and trim as written: from two samples
   * up, the whole final run of equal values is cut, its first copy included.
   */
  function StopAndTrim(st: State): (r: State)
    requires Valid(st)
    ensures Valid(r) && !r.isRecording && r.data == st.data && SameConfig(r, st)
    ensures Len(r) == TrimAsWritten(Recorded(st))
    ensures Len(st) <= 1 ==> Len(r) == Len(st)
    ensures Len(st) >= 2 ==> Len(r) < Len(st)
    ensures Len(st) >= 2 ==>
      forall i :: st.seqLow + Len(r) <= i < st.seqLow + Len(st) ==> st.data[i] == st.data[st.seqLow + Len(st) - 1]
    ensures Len(st) >= 2 && Len(r) > 0 ==> st.data[st.seqLow + Len(r) - 1] != st.data[st.seqLow + Len(st) - 1]
    ensures forall k :: 0 <= k < MaxSeq && k != st.selected ==> r.seqLength[k] == st.seqLength[k]
    ensures r.recTouched == st.recTouched && r.recTouch == st.recTouch
  {
    var s1 := StopRecording(st);
    var n := TrimAsWritten(Recorded(st));
    TrimInBuffer(st);
    var r := s1.(seqLength := s1.seqLength[st.selected := n]);
    assert LengthsOk(r) by {
      forall k | 0 <= k < r.seqCount
        ensures 0 <= r.seqLength[k] <= SegmentSize(r.seqCount)
      {
        if k != st.selected {
          assert r.seqLength[k] == st.seqLength[k];
        }
      }
    }
    r
  }

  /** One recorded sample: store the value, advance, and stop when the segment is full. */
  function WriteSample(st: State, value: real): (r: State)
    requires Valid(st) && st.isRecording
    ensures Valid(r) && SameConfig(r, st)
    ensures Len(r) == Len(st) + 1
    ensures r.data == st.data[st.dataPtr := value]
    ensures r.isRecording <==> Len(r) < SegmentSize(st.seqCount)
    ensures forall k :: 0 <= k < MaxSeq && k != st.selected ==> r.seqLength[k] == st.seqLength[k]
    ensures r.recTouched == st.recTouched && r.recTouch == st.recTouch
  {
    PtrInBuffer(st);
    var n := Len(st) + 1;
    var lengths := st.seqLength[st.selected := n];
    var s1 := st.(data := st.data[st.dataPtr := value], seqLength := lengths, dataPtr := st.dataPtr + 1);
    assert Layout(s1) && Len(s1) == n;
    assert LengthsOk(s1) by {
      forall k | 0 <= k < s1.seqCount
        ensures 0 <= s1.seqLength[k] <= SegmentSize(s1.seqCount)
      {
        if k != st.selected {
          assert s1.seqLength[k] == st.seqLength[k];
        }
      }
    }
    if s1.dataPtr == st.seqHigh then StopRecording(s1) else s1
  }

  /**
   * Whether this sample may record: in touch mode only once the mapped
   * parameter has been grabbed, in move mode only once the value has left
   * the one recording started from; in manual mode always.
   */
  function MayRecord(st: State, value: real, touch: bool): (r: bool)
    ensures st.recTouched || st.recMode == RecManual ==> r
    ensures st.recMode == RecTouch && !st.recTouched ==> (r <==> touch)
    ensures st.recMode == RecMove && !st.recTouched ==> (r <==> value != st.recTouch)
  {
    if st.recMode == RecTouch && !st.recTouched then touch
    else if st.recMode == RecMove && !st.recTouched then value != st.recTouch
    else true
  }

  /** At a recording tick, a released control ends touch and move recordings (move trims its tail). */
  function ReleaseStop(st: State, dragging: bool): (r: State)
    requires Valid(st) && st.isRecording
    ensures Valid(r) && SameConfig(r, st) && r.data == st.data
    ensures r.isRecording <==> dragging || (st.recMode != RecTouch && st.recMode != RecMove)
    ensures r.isRecording ==> r == st
    ensures Len(r) <= Len(st)
    ensures forall k :: 0 <= k < MaxSeq && k != st.selected ==> r.seqLength[k] == st.seqLength[k]
    ensures r.recTouched == st.recTouched && r.recTouch == st.recTouch
  {
    if dragging then st
    else if st.recMode == RecTouch then StopRecording(st)
    else if st.recMode == RecMove then StopAndTrim(st)
    else st
  }

  /** Advances the recording or playback divider: one tick in 2^precision does the work. */
  function Tick(st: State): (r: State)
    requires Valid(st)
    ensures Valid(r) && r == st.(precisionCount := r.precisionCount)
    ensures r.precisionCount == if st.precisionCount + 1 == Pow2(st.precision) then 0 else st.precisionCount + 1
  {
    var p := Pow2(st.precision);
    ModStep(st.precisionCount, p);
    st.(precisionCount := (st.precisionCount + 1) % p)
  }

  /** A recording tick: stop on release, otherwise store the value. */
  function RecordAtTick(st: State, value: real, dragging: bool): (r: State)
    requires Valid(st) && st.isRecording && st.precisionCount == 0
    ensures Valid(r) && SameConfig(r, st) && r.recTouched == st.recTouched
    ensures Len(r) <= Len(st) + 1
    ensures r.isRecording ==> Len(r) == Len(st) + 1 && r.data == st.data[st.dataPtr := value]
    ensures !r.isRecording ==> r.precisionCount == 0
    ensures forall k :: 0 <= k < MaxSeq && k != st.selected ==> r.seqLength[k] == st.seqLength[k]
    ensures forall i :: 0 <= i < MaxData && i != st.dataPtr ==> r.data[i] == st.data[i]
    ensures st.recMode == RecManual ==>
      && Len(r) == Len(st) + 1 && r.data == st.data[st.dataPtr := value]
      && (r.isRecording <==> Len(r) < SegmentSize(st.seqCount))
    ensures !dragging && (st.recMode == RecTouch || st.recMode == RecMove) ==> !r.isRecording && r.data == st.data
  {
    var s1 := ReleaseStop(st, dragging);
    if s1.isRecording then WriteSample(s1, value) else s1
  }

  /**
   * The recording branch of `process`. `touch` reports that the host's drag
   * detection saw the mapped parameter grabbed this sample, `dragging` that
   * some control is being dragged, `value` is `getValue()`.
   */
  function RecordPhase(st: State, value: real, touch: bool, dragging: bool): (r: State)
    requires Valid(st) && st.isRecording
    ensures Valid(r) && SameConfig(r, st)
    ensures !MayRecord(st, value, touch) ==> r == st
    ensures Len(r) <= Len(st) + 1
    ensures r.isRecording ==> Len(r) >= Len(st)
    ensures forall k :: 0 <= k < MaxSeq && k != st.selected ==> r.seqLength[k] == st.seqLength[k]
    ensures forall i :: 0 <= i < MaxData && i != st.dataPtr ==> r.data[i] == st.data[i]
    ensures r.recTouched == (st.recTouched || (MayRecord(st, value, touch) && (st.recMode == RecTouch || st.recMode == RecMove)))
  {
    if !MayRecord(st, value, touch) then st
    else RecordStep(st.(recTouched := st.recTouched || st.recMode == RecTouch || st.recMode == RecMove), value, dragging)
  }

  /** A sample the recording gate lets through: at a tick record (or stop), then advance the divider. */
  function RecordStep(st: State, value: real, dragging: bool): (r: State)
    requires Valid(st) && st.isRecording
    ensures Valid(r) && SameConfig(r, st) && r.recTouched == st.recTouched
    ensures Len(r) <= Len(st) + 1
    ensures r.isRecording ==> Len(r) >= Len(st)
    ensures st.precisionCount != 0 ==> r == Tick(st)
    ensures st.precisionCount == 0 ==> r == Tick(RecordAtTick(st, value, dragging))
    ensures forall k :: 0 <= k < MaxSeq && k != st.selected ==> r.seqLength[k] == st.seqLength[k]
    ensures forall i :: 0 <= i < MaxData && i != st.dataPtr ==> r.data[i] == st.data[i]
  {
    Tick(if st.precisionCount == 0 then RecordAtTick(st, value, dragging) else st)
  }

  /**
   * Between recording ticks nothing is stored; at a tick, manual mode stores
   * the value and stops once the segment is full, and touch and move mode stop
   * when the control is released.
   */
  lemma RecordPhaseCases(st: State, value: real, touch: bool, dragging: bool)
    requires Valid(st) && st.isRecording
    ensures var r := RecordPhase(st, value, touch, dragging);
      && (st.precisionCount != 0 ==> r.data == st.data && r.seqLength == st.seqLength && r.isRecording)
      && (st.recMode == RecManual && st.precisionCount == 0 ==>
            && Len(r) == Len(st) + 1 && r.data == st.data[st.dataPtr := value]
            && (r.isRecording <==> Len(r) < SegmentSize(st.seqCount)))
      && ((MayRecord(st, value, touch) && st.precisionCount == 0 && !dragging &&
           (st.recMode == RecTouch || st.recMode == RecMove)) ==>
            !r.isRecording && r.data == st.data)
  {
  }

  /** One manual recording sample at full rate: the value is stored at the pointer, which moves on. */
  lemma ManualStep(st: State, value: real)
    requires Valid(st) && st.isRecording && st.recMode == RecManual && st.precision == 0
    requires Len(st) + 1 < SegmentSize(st.seqCount)
    ensures var r := RecordPhase(st, value, false, true);
      && Valid(r) && r.isRecording && SameConfig(r, st)
      && Len(r) == Len(st) + 1 && r.dataPtr == st.dataPtr + 1
      && r.data == st.data[st.dataPtr := value]
  {
    assert Pow2(0) == 1;
    RecordPhaseCases(st, value, false, true);
  }

  /** Manual recording at full rate, one call of `process` per value, as long as the segment has room. */
  function RecordRun(st: State, values: seq<real>): (r: State)
    requires Valid(st) && st.isRecording && st.recMode == RecManual && st.precision == 0
    requires Len(st) + |values| < SegmentSize(st.seqCount)
    ensures Valid(r) && r.isRecording && SameConfig(r, st)
    ensures Len(r) == Len(st) + |values|
    decreases |values|
  {
    if |values| == 0 then st
    else
      ManualStep(st, values[0]);
      RecordRun(RecordPhase(st, values[0], false, true), values[1..])
  }

  /** A manual run leaves everything before the pointer as it was. */
  lemma {:induction false} RecordRunKeepsPrefix(st: State, values: seq<real>)
    requires Valid(st) && st.isRecording && st.recMode == RecManual && st.precision == 0
    requires Len(st) + |values| < SegmentSize(st.seqCount)
    ensures var r := RecordRun(st, values);
      forall i :: 0 <= i < st.dataPtr ==> r.data[i] == st.data[i]
    decreases |values|
  {
    if |values| > 0 {
      var s1 := RecordPhase(st, values[0], false, true);
      ManualStep(st, values[0]);
      RecordRunKeepsPrefix(s1, values[1..]);
      assert RecordRun(st, values) == RecordRun(s1, values[1..]);
    }
  }

  /** The values of a manual run land one after another from the pointer. */
  lemma {:induction false} RecordRunStores(st: State, values: seq<real>)
    requires Valid(st) && st.isRecording && st.recMode == RecManual && st.precision == 0
    requires Len(st) + |values| < SegmentSize(st.seqCount)
    ensures var r := RecordRun(st, values);
      forall j :: 0 <= j < |values| ==> r.data[st.dataPtr + j] == values[j]
    decreases |values|
  {
    if |values| > 0 {
      var s1 := RecordPhase(st, values[0], false, true);
      ManualStep(st, values[0]);
      RecordRunStores(s1, values[1..]);
      RecordRunKeepsPrefix(s1, values[1..]);
      var r := RecordRun(s1, values[1..]);
      assert RecordRun(st, values) == r;
      var p := st.dataPtr;
      assert r.data[p] == values[0] by {
        assert r.data[p] == s1.data[p];
      }
      forall j | 1 <= j < |values|
        ensures r.data[p + j] == values[j]
      {
        assert r.data[s1.dataPtr + (j - 1)] == values[1..][j - 1];
      }
    }
  }

  // ---------------------------------------------------------------------------
  // Playback

  /** The position after the last recorded value, or one past the start when nothing is recorded. */
  function End(st: State): int
    requires Layout(st)
  {
    st.seqLow + (if Len(st) >= 1 then Len(st) else 1)
  }

  /**
   * The pointer step of playback as written, on the pointer and direction of
   * a recording of `len` values from `lo`. The end test asks for the pointer
   * to equal the end of the recording; with nothing recorded the pointer has
   * already passed it, so it runs on past the segment.
   */
  function StepAsWritten(ptr: int, dir: int, lo: int, len: int, mode: int): (r: (int, int))
    ensures (len >= 1 && lo <= ptr < lo + len && (dir == Fwd || dir == Rev) && 0 <= mode <= 2 ==>
      lo <= r.0 < lo + len && (r.1 == Fwd || r.1 == Rev))
    ensures len == 0 && dir == Fwd && ptr >= lo ==> r == (ptr + 1, Fwd)
  {
    var p := ptr + dir;
    var (q, d) :=
      if p == lo + len && dir == Fwd then
        if mode == PlayLoop then (lo, dir)
        else if mode == PlayOneshot then (p - 1, dir)
        else if mode == PlayPingpong then (p - 1, Rev)
        else (p, dir)
      else (p, dir);
    if q == lo - 1 then (q + 1, Fwd) else (q, d)
  }

  /**
   * The pointer step with the end test `>=`: an empty recording holds at its
   * start. It agrees with the step as written whenever something is recorded.
   */
  function PointerStep(ptr: int, dir: int, lo: int, len: int, mode: int): (r: (int, int))
    requires lo <= ptr < lo + (if len >= 1 then len else 1) && (dir == Fwd || dir == Rev) && 0 <= mode <= 2
    ensures lo <= r.0 < lo + (if len >= 1 then len else 1) && (r.1 == Fwd || r.1 == Rev)
    ensures len >= 1 ==> r == StepAsWritten(ptr, dir, lo, len, mode)
    ensures mode == PlayLoop && dir == Fwd ==>
      r == (if ptr + 1 == lo + (if len >= 1 then len else 1) then lo else ptr + 1, Fwd)
    ensures mode == PlayOneshot && dir == Fwd ==>
      r == (if ptr + 1 == lo + (if len >= 1 then len else 1) then ptr else ptr + 1, Fwd)
  {
    var p := ptr + dir;
    var (q, d) :=
      if p >= lo + len && dir == Fwd then
        if mode == PlayLoop then (lo, dir)
        else if mode == PlayOneshot then (p - 1, dir)
        else (p - 1, Rev)
      else (p, dir);
    if q == lo - 1 then (q + 1, Fwd) else (q, d)
  }

  function AdvanceAsWritten(st: State): (r: State)
    requires Layout(st)
    ensures r == st.(dataPtr := r.dataPtr, playDir := r.playDir)
    ensures Len(st) == 0 && st.playDir == Fwd && st.dataPtr >= st.seqLow ==> r.dataPtr == st.dataPtr + 1
  {
    var (q, d) := StepAsWritten(st.dataPtr, st.playDir, st.seqLow, Len(st), st.playMode);
    st.(dataPtr := q, playDir := d)
  }

  /** The playback pointer step of a valid state. */
  function Advance(st: State): (r: State)
    requires Valid(st) && !st.isRecording
    ensures Valid(r) && r == st.(dataPtr := r.dataPtr, playDir := r.playDir)
    ensures Len(st) >= 1 ==> r == AdvanceAsWritten(st)
    ensures st.playMode == PlayLoop && st.playDir == Fwd ==> r.playDir == Fwd
    ensures st.playMode == PlayLoop && st.playDir == Fwd ==>
      r.dataPtr == if st.dataPtr + 1 == End(st) then st.seqLow else st.dataPtr + 1
    ensures st.playMode == PlayOneshot && st.playDir == Fwd ==>
      r.playDir == Fwd && r.dataPtr == if st.dataPtr + 1 == End(st) then st.dataPtr else st.dataPtr + 1
  {
    var (q, d) := PointerStep(st.dataPtr, st.playDir, st.seqLow, Len(st), st.playMode);
    st.(dataPtr := q, playDir := d)
  }

  /**
   * With nothing recorded, playback as written walks out of the segment: two
   * steps forward from its start leave the pointer two past it.
   */
  lemma AdvanceAsWrittenRunsOff(st: State)
    requires Valid(st) && !st.isRecording && Len(st) == 0
    requires st.dataPtr == st.seqLow && st.playDir == Fwd
    ensures AdvanceAsWritten(AdvanceAsWritten(st)).dataPtr == st.seqLow + 2
    ensures Advance(Advance(st)).dataPtr == st.seqLow
  {
  }

  /** In ping-pong mode the pointer turns at both ends and stays in the recording. */
  lemma PingPongTurns(st: State)
    requires Valid(st) && !st.isRecording && st.playMode == PlayPingpong && Len(st) >= 2
    ensures st.playDir == Fwd && st.dataPtr == End(st) - 1 ==>
      Advance(st).playDir == Rev && Advance(st).dataPtr == st.dataPtr
    ensures st.playDir == Rev && st.dataPtr == st.seqLow ==>
      Advance(st).playDir == Fwd && Advance(st).dataPtr == st.seqLow
    ensures st.playDir == Rev && st.dataPtr > st.seqLow ==>
      Advance(st).playDir == Rev && Advance(st).dataPtr == st.dataPtr - 1
  {
  }

  /** One playback sample: read at the pointer, advance, smooth; the value goes to the parameter. */
  function PlaySample(st: State, k: real): (r: (State, real))
    requires Valid(st) && !st.isRecording && 0.0 <= k <= 1.0
    ensures Valid(r.0) && r.0.filter == r.1
    ensures r.1 == FilterStep(st.filter, st.data[st.dataPtr], k)
    ensures Between(r.1, st.filter, st.data[st.dataPtr])
    ensures r.0 == Advance(st).(filter := r.1)
  {
    PtrInBuffer(st);
    var v := FilterStep(st.filter, st.data[st.dataPtr], k);
    (Advance(st).(filter := v), v)
  }

  /**
   * PHASE input as written: the voltage picks a position across the
   * recording. With nothing recorded the range is `[seqLow, seqLow - 1]` and
   * any positive voltage picks `seqLow - 1`, one before the segment.
   */
  function PhaseIndexAsWritten(v: real, lo: int, len: int): (r: int)
    ensures len >= 1 ==> lo <= r < lo + len
    ensures len == 0 ==> r == if v > 0.0 then lo - 1 else lo
  {
    var x := Rescale(Clamp(v, 0.0, 10.0), 0.0, 10.0, lo as real, (lo + len - 1) as real);
    PhaseInRange(Clamp(v, 0.0, 10.0), lo, len);
    assert len == 0 ==> x == lo as real - Clamp(v, 0.0, 10.0) / 10.0;
    Floor(x)
  }

  lemma PhaseInRange(v: real, lo: int, len: int)
    requires 0.0 <= v <= 10.0
    ensures len >= 1 ==>
      lo as real <= Rescale(v, 0.0, 10.0, lo as real, (lo + len - 1) as real) <= (lo + len - 1) as real
  {
    if len >= 1 {
      MulNonNeg(v / 10.0, (len - 1) as real);
      MulNonNeg(1.0 - v / 10.0, (len - 1) as real);
    }
  }

  /** PHASE input with an empty recording treated as one value long. */
  function PhaseIndex(v: real, lo: int, len: int): (r: int)
    ensures lo <= r < lo + (if len >= 1 then len else 1)
    ensures len >= 1 ==> r == PhaseIndexAsWritten(v, lo, len)
  {
    PhaseIndexAsWritten(v, lo, if len >= 1 then len else 1)
  }

  lemma PhaseAsWrittenLeavesSegment()
    ensures PhaseIndexAsWritten(5.0, 0, 0) == -1
    ensures PhaseIndex(5.0, 0, 0) == 0
  {
    assert Rescale(5.0, 0.0, 10.0, 0.0, -1.0) == -0.5;
  }

  /** PHASE 0 V is the first recorded value and 10 V the last. */
  lemma PhaseEnds(lo: int, len: int)
    requires len >= 1
    ensures PhaseIndex(0.0, lo, len) == lo
    ensures PhaseIndex(10.0, lo, len) == lo + len - 1
  {
    assert Rescale(10.0, 0.0, 10.0, lo as real, (lo + len - 1) as real) == (lo + len - 1) as real;
  }

  // ---------------------------------------------------------------------------
  // process

  /** The inputs of one call of `process`. Trigger inputs arrive as "an edge occurred". */
  datatype Frame = Frame(
    recEdge: bool,
    hasQuantity: bool,
    cvConnected: bool,
    cvVoltage: real,
    scaled: real,
    touch: bool,
    dragging: bool,
    seqPrevEdge: bool,
    seqNextEdge: bool,
    seqConnected: bool,
    seqVoltage: real,
    seqCvEdge: bool,
    resetEdge: bool,
    runEdge: bool,
    runConnected: bool,
    runVoltage: real,
    phaseConnected: bool,
    phaseVoltage: real,
    outConnected: bool,
    k: real)

  predicate FrameOk(f: Frame) {
    0.0 <= f.k <= 1.0
  }

  function Value(st: State, f: Frame): real {
    GetValue(st.inCvMode, f.cvConnected, f.cvVoltage, f.scaled)
  }

  /** The record button (or, in trigger mode, the CV input): stop playback and toggle recording if a parameter is mapped. */
  function RecToggle(st: State, f: Frame): (r: State)
    requires Valid(st)
    ensures Valid(r)
    ensures !f.recEdge ==> r == st
    ensures f.recEdge ==> !r.isPlaying
    ensures f.recEdge && f.hasQuantity ==> r.isRecording == !st.isRecording
    ensures f.recEdge && !f.hasQuantity ==> r == st.(isPlaying := false)
    ensures r.isRecording && !st.isRecording ==> Len(r) == 0 && r.recTouch == Value(st, f)
    ensures r.data == st.data && SameConfig(r, st)
    ensures forall k :: 0 <= k < MaxSeq && k != st.selected ==> r.seqLength[k] == st.seqLength[k]
    ensures r.isRecording && st.isRecording ==> r.seqLength == st.seqLength
  {
    if !f.recEdge then st
    else
      var s0 := st.(isPlaying := false);
      if !f.hasQuantity then s0
      else if !s0.isRecording then StartRecording(s0, Value(st, f))
      else StopRecording(s0)
  }

  /** The SEQ input: absolute selection in the two voltage modes, a step on each trigger in the third. */
  function SeqInput(st: State, f: Frame): (r: State)
    requires Valid(st) && !st.isRecording
    ensures Valid(r) && !r.isRecording && r.data == st.data && r.seqLength == st.seqLength
    ensures r.isPlaying == st.isPlaying && r.seqCount == st.seqCount
    ensures !f.seqConnected ==> r == st
    ensures f.seqConnected && st.seqCvMode == 1 ==> r.selected == ClampInt(SeqIndexC4(f.seqVoltage), 0, st.seqCount - 1)
    ensures f.seqConnected && st.seqCvMode == 0 && 0.0 <= f.seqVoltage <= 10.0 ==>
      r.selected == SeqIndexVolt(f.seqVoltage, st.seqCount)
    ensures f.seqConnected && st.seqCvMode == 0 && SeqIndexVolt(f.seqVoltage, st.seqCount) == st.selected ==> r == st
    ensures f.seqConnected && st.seqCvMode == 0 && SeqIndexVolt(f.seqVoltage, st.seqCount) != st.selected ==>
      r.dataPtr == r.seqLow && r.filter == FilterReset
    ensures f.seqConnected && st.seqCvMode == 1 && SeqIndexC4(f.seqVoltage) == st.selected ==> r == st
    ensures f.seqConnected && st.seqCvMode == 1 && SeqIndexC4(f.seqVoltage) != st.selected ==>
      r.dataPtr == r.seqLow && r.filter == FilterReset
    ensures f.seqConnected && st.seqCvMode == 2 ==> r == if f.seqCvEdge then SeqNext(st) else st
  {
    if !f.seqConnected then st
    else if st.seqCvMode == 0 then SeqSetAsWritten(st, SeqIndexVolt(f.seqVoltage, st.seqCount))
    else if st.seqCvMode == 1 then SeqSetAsWritten(st, SeqIndexC4(f.seqVoltage))
    else if st.seqCvMode == 2 && f.seqCvEdge then SeqNext(st)
    else st
  }

  /** The reset button or input: back to the start of the segment, playing forward. */
  function ResetPhase(st: State, f: Frame): (r: State)
    requires Valid(st) && !st.isRecording
    ensures Valid(r) && !r.isRecording
    ensures f.resetEdge ==> r.dataPtr == r.seqLow && r.playDir == Fwd && r.precisionCount == 0
    ensures !f.resetEdge ==> r == st
    ensures r.data == st.data && r.seqLength == st.seqLength && r.selected == st.selected && r.isPlaying == st.isPlaying
  {
    if f.resetEdge then st.(dataPtr := st.seqLow, playDir := Fwd, precisionCount := 0, filter := FilterReset)
    else st
  }

  /** The run button toggles playback; a patched run input overrides it (high from 1 V). */
  function RunPhase(st: State, f: Frame): (r: State)
    requires Valid(st) && !st.isRecording
    ensures Valid(r) && r == st.(isPlaying := r.isPlaying, precisionCount := r.precisionCount)
    ensures f.runConnected ==> (r.isPlaying <==> f.runVoltage >= 1.0)
    ensures !f.runConnected ==> (r.isPlaying <==> st.isPlaying != f.runEdge)
  {
    var s1 := if f.runEdge then st.(isPlaying := !st.isPlaying, precisionCount := 0) else st;
    if f.runConnected then s1.(isPlaying := f.runVoltage >= 1.0) else s1
  }

  /** The PHASE input: stop playback and jump to the position the voltage picks, sending the stored value. */
  function PhasePhase(st: State, f: Frame): (r: (State, Option<real>))
    requires Valid(st) && !st.isRecording
    ensures Valid(r.0) && !r.0.isRecording
    ensures !f.phaseConnected ==> r == (st, None)
    ensures f.phaseConnected ==> !r.0.isPlaying
    ensures f.phaseConnected && f.hasQuantity ==>
      r.0.dataPtr == PhaseIndex(f.phaseVoltage, st.seqLow, Len(st)) && r.1 == Some(st.data[r.0.dataPtr])
    ensures r.0.data == st.data && r.0.seqLength == st.seqLength && r.0.selected == st.selected
  {
    if !f.phaseConnected then (st, None)
    else if !f.hasQuantity then (st.(isPlaying := false), None)
    else
      var p := PhaseIndex(f.phaseVoltage, st.seqLow, Len(st));
      PtrInBuffer(st.(dataPtr := p, isPlaying := false));
      (st.(dataPtr := p, isPlaying := false), Some(st.data[p]))
  }

  /** Playback: every 2^precision calls, one stored value is played. */
  function PlayPhase(st: State, f: Frame): (r: (State, Option<real>))
    requires Valid(st) && !st.isRecording && FrameOk(f)
    ensures Valid(r.0) && !r.0.isRecording
    ensures !st.isPlaying ==> r == (st, None)
    ensures r.1.Some? <==> st.isPlaying && st.precisionCount == 0 && f.hasQuantity
    ensures st.isPlaying && st.precisionCount != 0 ==> r == (Tick(st), None)
    ensures st.isPlaying && st.precisionCount == 0 && !f.hasQuantity ==> !r.0.isPlaying && r.1 == None
    ensures (st.isPlaying && st.precisionCount == 0 && f.hasQuantity ==>
      r == (Tick(PlaySample(st, f.k).0), Some(PlaySample(st, f.k).1)))
    ensures r.0.data == st.data && r.0.seqLength == st.seqLength && r.0.selected == st.selected
  {
    if !st.isPlaying then (st, None)
    else
      var (s1, out) :=
        if st.precisionCount != 0 then (st, None)
        else if !f.hasQuantity then (st.(isPlaying := false), None)
        else var (s, v) := PlaySample(st, f.k); (s, Some(v));
      (Tick(s1), out)
  }

  /** The navigation and playback branch of `process`, taken while not recording. */
  function PlayBranch(st: State, f: Frame): (r: (State, Option<real>))
    requires Valid(st) && !st.isRecording && FrameOk(f)
    ensures Valid(r.0) && !r.0.isRecording
    ensures r.0.data == st.data && r.0.seqLength == st.seqLength
    ensures r.0.selected == Navigate(st, f).selected
    ensures !f.seqPrevEdge && !f.seqNextEdge && !f.seqConnected ==> r == Playback(st, f)
  {
    Playback(Navigate(st, f), f)
  }

  /** Sequence selection: the previous and next buttons, then the SEQ input. */
  function Navigate(st: State, f: Frame): (r: State)
    requires Valid(st) && !st.isRecording && FrameOk(f)
    ensures Valid(r) && !r.isRecording
    ensures r.data == st.data && r.seqLength == st.seqLength
    ensures r.seqCount == st.seqCount && r.isPlaying == st.isPlaying && 0 <= r.selected < r.seqCount
    ensures !f.seqPrevEdge && !f.seqNextEdge && !f.seqConnected ==> r == st
    ensures f.seqPrevEdge && !f.seqNextEdge && !f.seqConnected ==> r == SeqPrev(st)
    ensures !f.seqPrevEdge && f.seqNextEdge && !f.seqConnected ==> r == SeqNext(st)
    ensures f.seqPrevEdge && f.seqNextEdge && !f.seqConnected ==> r == SeqUpdate(st)
    ensures f.seqConnected && st.seqCvMode == 1 ==> r.selected == ClampInt(SeqIndexC4(f.seqVoltage), 0, st.seqCount - 1)
    ensures f.seqConnected && st.seqCvMode == 0 && 0.0 <= f.seqVoltage <= 10.0 ==>
      r.selected == SeqIndexVolt(f.seqVoltage, st.seqCount)
  {
    var s1 := if f.seqPrevEdge then SeqPrev(st) else st;
    var s2 := if f.seqNextEdge then SeqNext(s1) else s1;
    SeqInput(s2, f)
  }

  /** Transport: RESET, RUN and PHASE inputs, then the playback step and its value. */
  function Playback(st: State, f: Frame): (r: (State, Option<real>))
    requires Valid(st) && !st.isRecording && FrameOk(f)
    ensures Valid(r.0) && !r.0.isRecording
    ensures r.0.data == st.data && r.0.seqLength == st.seqLength && r.0.selected == st.selected
    ensures f.phaseConnected ==> !r.0.isPlaying
    ensures (f.phaseConnected && f.hasQuantity ==>
      r.0.dataPtr == PhaseIndex(f.phaseVoltage, st.seqLow, Len(st)) && r.1 == Some(st.data[r.0.dataPtr]))
    ensures f.phaseConnected && !f.hasQuantity ==> r.1 == None
    ensures !f.phaseConnected ==> r == PlayPhase(RunPhase(ResetPhase(st, f), f), f)
    ensures (!f.phaseConnected && f.resetEdge && f.hasQuantity && RunPhase(ResetPhase(st, f), f).isPlaying ==>
      r.1 == Some(FilterStep(FilterReset, st.data[st.seqLow], f.k)))
  {
    var s4 := ResetPhase(st, f);
    var s5 := RunPhase(s4, f);
    var (s6, out1) := PhasePhase(s5, f);
    var (s7, out2) := PlayPhase(s6, f);
    (s7, if out2.Some? then out2 else out1)
  }

  /**
   * One call of `process`: the record toggle, then either the recording
   * branch or the navigation and playback branch. The result carries the
   * value sent to the mapped parameter this sample, if any, and the CV
   * output voltage derived from it.
   */
  function Process(st: State, f: Frame): (r: (State, Option<real>, Option<real>))
    requires Valid(st) && FrameOk(f)
    ensures Valid(r.0)
    ensures r.2.Some? ==> r.1.Some? && r.2 == OutVoltage(st.outCvMode, f.outConnected, r.1.value)
    ensures st.isRecording && r.0.isRecording ==> Len(r.0) >= Len(st) && r.0.selected == st.selected
    ensures forall k :: 0 <= k < MaxSeq && k != st.selected && st.isRecording ==> r.0.seqLength[k] == st.seqLength[k]
    ensures forall i :: 0 <= i < MaxData && !(st.seqLow <= i < st.seqHigh) ==> r.0.data[i] == st.data[i]
    ensures !st.isRecording && !f.recEdge ==> r.0.data == st.data && r.0.seqLength == st.seqLength
  {
    var s0 := RecToggle(st, f);
    if s0.isRecording then
      PtrInBuffer(s0);
      (RecordPhase(s0, Value(s0, f), f.touch, f.dragging), None, None)
    else
      var (s1, out) := PlayBranch(s0, f);
      (s1, out, if out.Some? then OutVoltage(st.outCvMode, f.outConnected, out.value) else None)
  }

  /** The recorded data of every sequence other than the one being recorded is never touched. */
  lemma RecordingKeepsOtherSequences(st: State, f: Frame, k: int)
    requires Valid(st) && FrameOk(f) && st.isRecording
    requires 0 <= k < st.seqCount && k != st.selected
    ensures var r := Process(st, f).0;
      forall i :: 0 <= i < MaxData && k * SegmentSize(st.seqCount) <= i < (k + 1) * SegmentSize(st.seqCount) ==>
        r.data[i] == st.data[i]
  {
    var r := Process(st, f).0;
    var s := SegmentSize(st.seqCount);
    forall i | 0 <= i < MaxData && k * s <= i < (k + 1) * s
      ensures r.data[i] == st.data[i]
    {
      OtherSegmentOutside(st.seqCount, st.selected, k, i);
    }
  }

  /** A position in segment `k` lies in the buffer and outside segment `sel`. */
  lemma OtherSegmentOutside(count: int, sel: int, k: int, i: int)
    requires 1 <= count <= MaxSeq && 0 <= k < count && 0 <= sel < count && k != sel
    requires k * SegmentSize(count) <= i < (k + 1) * SegmentSize(count)
    ensures 0 <= i < MaxData
    ensures !(sel * SegmentSize(count) <= i < sel * SegmentSize(count) + SegmentSize(count))
  {
    var s := SegmentSize(count);
    assert (sel + 1) * s == sel * s + s;
    if k < sel { SegmentsDisjoint(count, k, sel); } else { SegmentsDisjoint(count, sel, k); }
    SegmentInBuffer(count, k);
  }

  // ---------------------------------------------------------------------------
  // Reset, mapping and storage

  /** `onReset`: stop everything, forget every recording, select the current segment from its start. */
  function OnReset(st: State): (r: State)
    requires Valid(st)
    ensures Valid(r) && !r.isPlaying && !r.isRecording && !r.recTouched
    ensures r.playDir == Fwd && r.precisionCount == 0 && r.dataPtr == r.seqLow
    ensures forall k :: 0 <= k < MaxSeq ==> r.seqLength[k] == 0
    ensures r.selected == st.selected && r.seqCount == st.seqCount && r.data == st.data
  {
    SeqUpdate(st.(precisionCount := 0, isPlaying := false, playDir := Fwd, isRecording := false,
                  recTouched := false, dataPtr := 0, seqLength := seq(MaxSeq, _ => 0)))
  }

  /** The stored form of the sequences: the lengths and one token list per sequence. */
  datatype Stored = Stored(seqLength: seq<int>, seqData: seq<seq<ReMoveRle.Token>>)

  function Segment(st: State, k: int): (seg: seq<real>)
    requires Layout(st) && LengthsOk(st) && 0 <= k < st.seqCount
    ensures |seg| == st.seqLength[k]
  {
    SegmentInBuffer(st.seqCount, k);
    var lo := k * SegmentSize(st.seqCount);
    st.data[lo .. lo + st.seqLength[k]]
  }

  /** `dataToJson` for the sequences, with the encoder as written. */
  function ToJson(st: State): (p: Stored)
    requires Valid(st)
    ensures |p.seqLength| == |p.seqData| == st.seqCount
    ensures forall k :: 0 <= k < st.seqCount ==> p.seqLength[k] == st.seqLength[k]
    ensures forall k :: 0 <= k < st.seqCount ==> p.seqData[k] == ReMoveRle.EncodeSeqAsWritten(Segment(st, k))
  {
    Stored(st.seqLength[..st.seqCount],
           seq(st.seqCount, k requires 0 <= k < st.seqCount => ReMoveRle.EncodeSeqAsWritten(Segment(st, k))))
  }

  /** `dataToJson` as intended: the same record, with the corrected encoder. */
  function ToJsonIntended(st: State): (p: Stored)
    requires Valid(st)
    ensures |p.seqLength| == |p.seqData| == st.seqCount
    ensures forall k :: 0 <= k < st.seqCount ==> p.seqLength[k] == st.seqLength[k]
    ensures forall k :: 0 <= k < st.seqCount ==> p.seqData[k] == ReMoveRle.EncodeSeq(Segment(st, k))
  {
    Stored(st.seqLength[..st.seqCount],
           seq(st.seqCount, k requires 0 <= k < st.seqCount => ReMoveRle.EncodeSeq(Segment(st, k))))
  }

  /** Writes `vals` into the buffer from `lo`; values past the end of the buffer are dropped. */
  function WriteAt(data: seq<real>, lo: int, vals: seq<real>): (r: seq<real>)
    requires 0 <= lo
    ensures |r| == |data|
    ensures forall i :: 0 <= i < |data| && lo <= i < lo + |vals| ==> r[i] == vals[i - lo]
    ensures forall i :: 0 <= i < |data| && !(lo <= i < lo + |vals|) ==> r[i] == data[i]
  {
    seq(|data|, i requires 0 <= i < |data| => if lo <= i < lo + |vals| then vals[i - lo] else data[i])
  }

  /** The lengths loaded: entries for sequences past `seqCount` are skipped. */
  function LoadLengths(prev: seq<int>, stored: seq<int>, count: int): (r: seq<int>)
    requires |prev| == MaxSeq
    ensures |r| == MaxSeq
    ensures forall k :: 0 <= k < MaxSeq ==> r[k] == if k < count && k < |stored| then stored[k] else prev[k]
  {
    seq(MaxSeq, k requires 0 <= k < MaxSeq => if k < count && k < |stored| then stored[k] else prev[k])
  }

  /** Decodes sequences `k..` of the stored data into the buffer. */
  function LoadData(data: seq<real>, count: int, lengths: seq<int>, stored: seq<seq<ReMoveRle.Token>>, k: nat): (r: seq<real>)
    requires 1 <= count <= MaxSeq && |lengths| == MaxSeq
    ensures |r| == |data|
    ensures forall i :: 0 <= i < |data| && i < k * SegmentSize(count) ==> r[i] == data[i]
    ensures k >= |stored| || k >= count ==> r == data
    decreases |stored| - k
  {
    if k >= |stored| || k >= count then data
    else
      SegmentInBuffer(count, k);
      var vals := ReMoveRle.DecodeSeq(stored[k], lengths[k]);
      assert (k + 1) * SegmentSize(count) == k * SegmentSize(count) + SegmentSize(count);
      LoadData(WriteAt(data, k * SegmentSize(count), vals), count, lengths, stored, k + 1)
  }

  /** `dataFromJson` for the sequences (the count and selection already restored), then `seqUpdate`. */
  function FromJson(st: State, p: Stored): (r: State)
    requires Valid(st)
    ensures Layout(r) && r.selected == st.selected && r.seqCount == st.seqCount && r.dataPtr == r.seqLow
    ensures forall k :: 0 <= k < MaxSeq ==>
      r.seqLength[k] == if k < st.seqCount && k < |p.seqLength| then p.seqLength[k] else st.seqLength[k]
  {
    var lengths := LoadLengths(st.seqLength, p.seqLength, st.seqCount);
    var data := LoadData(st.data, st.seqCount, lengths, p.seqData, 0);
    SeqUpdate(st.(seqLength := lengths, data := data))
  }

  /** `stored` holds the corrected encoding of the first `count` segments of `ref`. */
  predicate EncodesSegments(ref: seq<real>, count: int, lengths: seq<int>, stored: seq<seq<ReMoveRle.Token>>)
    requires 1 <= count <= MaxSeq
  {
    && |ref| == MaxData && |lengths| == MaxSeq && |stored| == count
    && forall j :: 0 <= j < count ==>
         && 0 <= lengths[j] <= SegmentSize(count)
         && 0 <= j * SegmentSize(count)
         && j * SegmentSize(count) + lengths[j] <= MaxData
         && stored[j] == ReMoveRle.EncodeSeq(ref[j * SegmentSize(count) .. j * SegmentSize(count) + lengths[j]])
  }

  /** Loading sequences `k..` writes nothing below segment `k`: position `i` keeps its value. */
  lemma {:induction false} LoadDataBelow(ref: seq<real>, data: seq<real>, count: int, lengths: seq<int>,
                                         stored: seq<seq<ReMoveRle.Token>>, k: nat, i: int)
    requires 1 <= count <= MaxSeq && EncodesSegments(ref, count, lengths, stored)
    requires |data| == MaxData && k <= count && 0 <= i < k * SegmentSize(count)
    ensures i < MaxData && LoadData(data, count, lengths, stored, k)[i] == data[i]
    decreases count - k
  {
    var sz := SegmentSize(count);
    if k < count {
      SegmentInBuffer(count, k);
      var seg := ref[k * sz .. k * sz + lengths[k]];
      ReMoveRle.RoundTrip(seg);
      var d1 := WriteAt(data, k * sz, ReMoveRle.DecodeSeq(stored[k], lengths[k]));
      assert (k + 1) * sz == k * sz + sz;
      LoadDataBelow(ref, d1, count, lengths, stored, k + 1, i);
    } else {
      MulLe(k, count, sz);
    }
  }

  /** Loading sequence `k` writes back exactly its recorded values, at its segment. */
  lemma LoadDataStep(ref: seq<real>, data: seq<real>, count: int, lengths: seq<int>,
                     stored: seq<seq<ReMoveRle.Token>>, k: nat)
    requires 1 <= count <= MaxSeq && EncodesSegments(ref, count, lengths, stored)
    requires |data| == MaxData && k < count
    ensures var lo := k * SegmentSize(count);
      && 0 <= lo && lo + lengths[k] <= MaxData
      && LoadData(data, count, lengths, stored, k) ==
         LoadData(WriteAt(data, lo, ref[lo .. lo + lengths[k]]), count, lengths, stored, k + 1)
  {
    SegmentInBuffer(count, k);
    var lo := k * SegmentSize(count);
    ReMoveRle.RoundTrip(ref[lo .. lo + lengths[k]]);
  }

  lemma SliceEq(a: seq<real>, b: seq<real>, lo: int, hi: int)
    requires 0 <= lo <= hi <= |a| && hi <= |b|
    requires forall p :: lo <= p < hi ==> a[p] == b[p]
    ensures a[lo .. hi] == b[lo .. hi]
  {
  }

  /** After sequence `k` is written, loading the later ones leaves it intact. */
  lemma LoadDataKeeps(ref: seq<real>, d1: seq<real>, count: int, lengths: seq<int>,
                      stored: seq<seq<ReMoveRle.Token>>, k: nat)
    requires 1 <= count <= MaxSeq && EncodesSegments(ref, count, lengths, stored)
    requires |d1| == MaxData && k < count
    requires forall p :: k * SegmentSize(count) <= p < k * SegmentSize(count) + lengths[k] ==> d1[p] == ref[p]
    ensures var lo := k * SegmentSize(count);
      LoadData(d1, count, lengths, stored, k + 1)[lo .. lo + lengths[k]] == ref[lo .. lo + lengths[k]]
  {
    var sz := SegmentSize(count);
    var lo := k * sz;
    assert 0 <= lo && lo + lengths[k] <= MaxData && lengths[k] <= sz;
    assert (k + 1) * sz == lo + sz;
    var d := LoadData(d1, count, lengths, stored, k + 1);
    forall p | lo <= p < lo + lengths[k]
      ensures d[p] == ref[p]
    {
      LoadDataBelow(ref, d1, count, lengths, stored, k + 1, p);
    }
    SliceEq(d, ref, lo, lo + lengths[k]);
  }

  /** Loading sequences `k..` restores sequence `j` (one of them) from its encoding. */
  lemma {:induction false} LoadDataRestores(ref: seq<real>, data: seq<real>, count: int, lengths: seq<int>,
                                            stored: seq<seq<ReMoveRle.Token>>, k: nat, j: int)
    requires 1 <= count <= MaxSeq && EncodesSegments(ref, count, lengths, stored)
    requires |data| == MaxData && k <= j < count
    ensures var lo := j * SegmentSize(count);
      LoadData(data, count, lengths, stored, k)[lo .. lo + lengths[j]] == ref[lo .. lo + lengths[j]]
    decreases count - k
  {
    LoadDataStep(ref, data, count, lengths, stored, k);
    var lo := k * SegmentSize(count);
    var d1 := WriteAt(data, lo, ref[lo .. lo + lengths[k]]);
    if j > k {
      LoadDataRestores(ref, d1, count, lengths, stored, k + 1, j);
    } else {
      forall p | lo <= p < lo + lengths[k]
        ensures d1[p] == ref[p]
      {
        assert d1[p] == ref[lo .. lo + lengths[k]][p - lo];
      }
      LoadDataKeeps(ref, d1, count, lengths, stored, k);
    }
  }

  /** What `ToJsonIntended` stores for sequence `j` is the encoding of its recorded part, which lies in the buffer. */
  lemma ToJsonEncodesOne(st: State, j: int)
    requires Valid(st) && 0 <= j < st.seqCount
    ensures var sz := SegmentSize(st.seqCount);
      && 0 <= j * sz && j * sz + st.seqLength[j] <= MaxData
      && ToJsonIntended(st).seqData[j] == ReMoveRle.EncodeSeq(st.data[j * sz .. j * sz + st.seqLength[j]])
  {
    SegmentInBuffer(st.seqCount, j);
  }

  lemma ToJsonEncodes(st: State)
    requires Valid(st)
    ensures EncodesSegments(st.data, st.seqCount, st.seqLength, ToJsonIntended(st).seqData)
  {
    forall j | 0 <= j < st.seqCount {
      ToJsonEncodesOne(st, j);
    }
  }

  /** Saving as intended and loading restores the recorded part of every sequence. */
  lemma JsonRoundTrip(st: State)
    requires Valid(st)
    ensures forall j :: 0 <= j < st.seqCount ==> Segment(FromJson(st, ToJsonIntended(st)), j) == Segment(st, j)
  {
    var r := FromJson(st, ToJsonIntended(st));
    SameSlicesSameSegments(st, r);
    JsonRestoresData(st);
  }

  /** Two states with the same layout whose lengths match and whose buffers agree on every recorded part hold the same sequences. */
  lemma SameSlicesSameSegments(st: State, r: State)
    requires Layout(st) && LengthsOk(st) && Layout(r) && r.seqCount == st.seqCount
    ensures (&& r.seqLength == st.seqLength
             && forall j :: 0 <= j < st.seqCount ==>
                  var lo := j * SegmentSize(st.seqCount);
                  && 0 <= lo && lo + st.seqLength[j] <= MaxData
                  && r.data[lo .. lo + st.seqLength[j]] == st.data[lo .. lo + st.seqLength[j]])
            ==> forall j :: 0 <= j < st.seqCount ==> Segment(r, j) == Segment(st, j)
  {
    if r.seqLength == st.seqLength {
      forall j | 0 <= j < st.seqCount
        ensures Segment(r, j) == r.data[j * SegmentSize(st.seqCount) .. j * SegmentSize(st.seqCount) + st.seqLength[j]]
      {
      }
    }
  }

  /** Loading what `ToJsonIntended` stored gives back the lengths and the recorded part of every sequence. */
  lemma JsonRestoresData(st: State)
    requires Valid(st)
    ensures var r := FromJson(st, ToJsonIntended(st));
      && r.seqLength == st.seqLength
      && forall j :: 0 <= j < st.seqCount ==>
           var lo := j * SegmentSize(st.seqCount);
           && 0 <= lo && lo + st.seqLength[j] <= MaxData
           && r.data[lo .. lo + st.seqLength[j]] == st.data[lo .. lo + st.seqLength[j]]
  {
    var p := ToJsonIntended(st);
    JsonLoadsLengths(st);
    DecodesInPlace(st.data, st.seqCount, st.seqLength, p.seqData);
  }

  /** Decoding all of `stored` over `ref` itself leaves every encoded sequence as it was. */
  lemma DecodesInPlace(ref: seq<real>, count: int, lengths: seq<int>, stored: seq<seq<ReMoveRle.Token>>)
    requires 1 <= count <= MaxSeq && EncodesSegments(ref, count, lengths, stored)
    ensures forall j :: 0 <= j < count ==>
      var lo := j * SegmentSize(count);
      && 0 <= lo && lo + lengths[j] <= MaxData
      && LoadData(ref, count, lengths, stored, 0)[lo .. lo + lengths[j]] == ref[lo .. lo + lengths[j]]
  {
    forall j | 0 <= j < count
      ensures var lo := j * SegmentSize(count);
        && 0 <= lo && lo + lengths[j] <= MaxData
        && LoadData(ref, count, lengths, stored, 0)[lo .. lo + lengths[j]] == ref[lo .. lo + lengths[j]]
    {
      LoadDataRestores(ref, ref, count, lengths, stored, 0, j);
    }
  }

  /**
   * What `ToJsonIntended` stores encodes every sequence; loading it keeps the
   * lengths and decodes the data over the old buffer.
   */
  lemma JsonLoadsLengths(st: State)
    requires Valid(st)
    ensures var p := ToJsonIntended(st);
      && EncodesSegments(st.data, st.seqCount, st.seqLength, p.seqData)
      && FromJson(st, p).seqLength == st.seqLength
      && FromJson(st, p).data == LoadData(st.data, st.seqCount, st.seqLength, p.seqData, 0)
  {
    ToJsonEncodes(st);
    var p := ToJsonIntended(st);
    assert LoadLengths(st.seqLength, p.seqLength, st.seqCount) == st.seqLength;
  }

  /**
   * Saving as written and loading also restores every sequence, provided no
   * recording holds two equal neighbouring samples or starts at 100.
   */
  lemma JsonRoundTripWithoutRepeats(st: State)
    requires Valid(st)
    requires forall k :: 0 <= k < st.seqCount ==> ReMoveRle.NoRepeats(Segment(st, k))
    requires forall k :: 0 <= k < st.seqCount && st.seqLength[k] > 0 ==> Segment(st, k)[0] != ReMoveRle.Fresh1
    ensures forall j :: 0 <= j < st.seqCount ==> Segment(FromJson(st, ToJson(st)), j) == Segment(st, j)
  {
    forall k | 0 <= k < st.seqCount
      ensures ToJson(st).seqData[k] == ToJsonIntended(st).seqData[k]
    {
      ReMoveRle.AsWrittenRoundTripWithoutRepeats(Segment(st, k));
    }
    assert ToJson(st) == ToJsonIntended(st);
    JsonRoundTrip(st);
  }
}

=== FILE: remove_rle.dfy ===
/**
 * The run-length coding ReMove uses to store a recorded sequence. Values are
 * written one by one; once the same value has been written twice in a row
 * the next token is a count of further repetitions, followed by the value
 * that ended the run. Both sides track the last two values; the history
 * starts as (100, -100), two values that never compare equal.
 *
 * Tokens are JSON numbers: a count is an integer, a value a real. Reading a
 * count from a real token yields 0, and a value from an integer token 0.0,
 * as the JSON library does.
 */
module ReMoveRle {

  datatype Token = Count(n: int) | Value(x: real)

  /** The history both sides start from and return to after a run. */
  const Fresh1: real := 100.0
  const Fresh2: real := -100.0

  function IntOf(t: Token): int {
    if t.Count? then t.n else 0
  }

  function RealOf(t: Token): real {
    if t.Value? then t.x else 0.0
  }

  function Repeat(x: real, n: nat): (r: seq<real>)
    ensures |r| == n && forall k :: 0 <= k < n ==> r[k] == x
  {
    seq(n, _ => x)
  }

  /** Number of consecutive entries equal to `x` starting at `j`. */
  function RunLength(s: seq<real>, j: nat, x: real): (c: nat)
    requires j <= |s|
    ensures j + c <= |s|
    ensures forall k :: j <= k < j + c ==> s[k] == x
    ensures j + c < |s| ==> s[j + c] != x
    decreases |s| - j
  {
    if j < |s| && s[j] == x then 1 + RunLength(s, j + 1, x) else 0
  }

  /**
   * The encoder of `dataToJson`, as written, from position `j` with history
   * (`l1`, `l2`). After a run it emits the count and the value that ended
   * the run, then forgets its history, so the value that ended the run is not
   * remembered.
   */
  function EncodeAsWritten(s: seq<real>, j: nat, l1: real, l2: real): (t: seq<Token>)
    requires j <= |s|
    ensures j < |s| <==> |t| > 0
    ensures j < |s| && l1 != l2 ==> t[0] == Value(s[j])
    decreases |s| - j
  {
    if j == |s| then []
    else if l1 == l2 then
      var c := RunLength(s, j, l1);
      if j + c < |s| then [Count(c), Value(s[j + c])] + EncodeAsWritten(s, j + c + 1, Fresh1, Fresh2)
      else [Count(c)]
    else [Value(s[j])] + EncodeAsWritten(s, j + 1, s[j], l1)
  }

  /**
   * The encoder with the history kept in step with the decoder: the value
   * that ended a run becomes the newest entry of a fresh history, exactly as
   * the decoder records it.
   */
  function Encode(s: seq<real>, j: nat, l1: real, l2: real): (t: seq<Token>)
    requires j <= |s|
    ensures j < |s| <==> |t| > 0
    ensures j < |s| && l1 != l2 ==> t[0] == Value(s[j])
    decreases |s| - j
  {
    if j == |s| then []
    else if l1 == l2 then
      var c := RunLength(s, j, l1);
      if j + c < |s| then [Count(c), Value(s[j + c])] + Encode(s, j + c + 1, s[j + c], Fresh1)
      else [Count(c)]
    else [Value(s[j])] + Encode(s, j + 1, s[j], l1)
  }

  /**
   * The decoder of `dataFromJson`: `out` holds the values written so far and
   * `len` the stored length of the sequence. Once more than `len` values
   * have been written, the remaining tokens are skipped. A negative count
   * writes nothing.
   */
  function Decode(t: seq<Token>, l1: real, l2: real, out: seq<real>, len: int): (r: seq<real>)
    ensures |out| <= |r|
    ensures r[..|out|] == out
    ensures |out| > len ==> r == out
    decreases |t|
  {
    if |t| == 0 then out
    else if |out| > len then Decode(t[1..], l1, l2, out, len)
    else if l1 == l2 then
      var v := IntOf(t[0]);
      Decode(t[1..], Fresh1, Fresh2, out + Repeat(l1, if v > 0 then v else 0), len)
    else
      var x := RealOf(t[0]);
      Decode(t[1..], x, l1, out + [x], len)
  }

  /** Every value token either encoder emits is a sample of the input from `j` on. */
  lemma {:induction false} ValuesFromInput(s: seq<real>, j: nat, l1: real, l2: real)
    requires j <= |s|
    ensures ValuesIn(Encode(s, j, l1, l2), s[j..])
    ensures ValuesIn(EncodeAsWritten(s, j, l1, l2), s[j..])
    decreases |s| - j
  {
    if j < |s| {
      if l1 == l2 {
        var c := RunLength(s, j, l1);
        if j + c < |s| {
          ValuesFromInput(s, j + c + 1, s[j + c], Fresh1);
          ValuesFromInput(s, j + c + 1, Fresh1, Fresh2);
          assert s[j + c] == s[j..][c];
          SuffixIn(s, j, j + c + 1);
          ValuesCons([Count(c), Value(s[j + c])], Encode(s, j + c + 1, s[j + c], Fresh1), s, j, j + c + 1);
          ValuesCons([Count(c), Value(s[j + c])], EncodeAsWritten(s, j + c + 1, Fresh1, Fresh2), s, j, j + c + 1);
        }
      } else {
        ValuesFromInput(s, j + 1, s[j], l1);
        assert s[j] == s[j..][0];
        SuffixIn(s, j, j + 1);
        ValuesCons([Value(s[j])], Encode(s, j + 1, s[j], l1), s, j, j + 1);
        ValuesCons([Value(s[j])], EncodeAsWritten(s, j + 1, s[j], l1), s, j, j + 1);
      }
    }
  }

  /** Every value token of `t` is an element of `xs`. */
  predicate ValuesIn(t: seq<Token>, xs: seq<real>) {
    forall i :: 0 <= i < |t| && t[i].Value? ==> t[i].x in xs
  }

  lemma ValuesCons(a: seq<Token>, b: seq<Token>, s: seq<real>, j: nat, k: nat)
    requires j <= k <= |s|
    requires ValuesIn(a, s[j..]) && ValuesIn(b, s[k..])
    requires forall x :: x in s[k..] ==> x in s[j..]
    ensures ValuesIn(a + b, s[j..])
  {
    forall i | 0 <= i < |a + b| && (a + b)[i].Value?
      ensures (a + b)[i].x in s[j..]
    {
      if i >= |a| {
        assert (a + b)[i] == b[i - |a|];
      }
    }
  }

  lemma SuffixIn(s: seq<real>, j: nat, k: nat)
    requires j <= k <= |s|
    ensures forall x :: x in s[k..] ==> x in s[j..]
  {
    forall x | x in s[k..]
      ensures x in s[j..]
    {
      var i :| 0 <= i < |s[k..]| && s[k..][i] == x;
      assert s[j..][i + k - j] == x;
    }
  }

  /** A whole sequence, as stored. */
  function EncodeSeq(s: seq<real>): (t: seq<Token>)
    ensures |t| > 0 <==> |s| > 0
    ensures |s| > 0 ==> t[0] == Value(s[0])
    ensures forall i :: 0 <= i < |t| && t[i].Value? ==> t[i].x in s
  {
    ValuesFromInput(s, 0, Fresh1, Fresh2);
    assert s[0..] == s;
    Encode(s, 0, Fresh1, Fresh2)
  }

  /** A whole sequence, as `dataFromJson` loads it for a stored length of `len`. */
  function DecodeSeq(t: seq<Token>, len: int): (r: seq<real>)
    ensures len < 0 ==> r == []
    ensures |t| > 0 && len >= 0 && t[0].Value? ==> |r| > 0 && r[0] == t[0].x
  {
    Decode(t, Fresh1, Fresh2, [], len)
  }

  /** A whole sequence, as `dataToJson` stores it. */
  function EncodeSeqAsWritten(s: seq<real>): (t: seq<Token>)
    ensures |t| > 0 <==> |s| > 0
    ensures |s| > 0 ==> t[0] == Value(s[0])
    ensures forall i :: 0 <= i < |t| && t[i].Value? ==> t[i].x in s
  {
    ValuesFromInput(s, 0, Fresh1, Fresh2);
    assert s[0..] == s;
    EncodeAsWritten(s, 0, Fresh1, Fresh2)
  }

  /** No two neighbouring samples are equal, so the history never holds a repeated value. */
  predicate NoRepeats(s: seq<real>) {
    forall i :: 0 < i < |s| ==> s[i - 1] != s[i]
  }

  /**
   * While the history holds two different values and the next sample differs
   * from the newest, both encoders emit the same tokens: the run branch,
   * where they differ, is never taken.
   */
  lemma {:induction false} AgreeFrom(s: seq<real>, j: nat, l1: real, l2: real)
    requires j <= |s| && NoRepeats(s) && l1 != l2 && (j < |s| ==> s[j] != l1)
    ensures EncodeAsWritten(s, j, l1, l2) == Encode(s, j, l1, l2)
    decreases |s| - j
  {
    if j < |s| {
      AgreeFrom(s, j + 1, s[j], l1);
    }
  }

  /**
   * Without neighbouring repeats (and a first sample other than 100), the
   * encoder as written stores what the corrected one does, so its output
   * loads back unchanged.
   */
  lemma AsWrittenRoundTripWithoutRepeats(s: seq<real>)
    requires NoRepeats(s) && (|s| > 0 ==> s[0] != Fresh1)
    ensures EncodeSeqAsWritten(s) == EncodeSeq(s)
    ensures DecodeSeq(EncodeSeqAsWritten(s), |s|) == s
  {
    AgreeFrom(s, 0, Fresh1, Fresh2);
    RoundTrip(s);
  }

  lemma DecodeCount(c: int, rest: seq<Token>, l: real, out: seq<real>, len: int)
    requires |out| <= len
    ensures Decode([Count(c)] + rest, l, l, out, len) ==
      Decode(rest, Fresh1, Fresh2, out + Repeat(l, if c > 0 then c else 0), len)
  {
    assert ([Count(c)] + rest)[1..] == rest;
  }

  lemma DecodeValue(x: real, rest: seq<Token>, l1: real, l2: real, out: seq<real>, len: int)
    requires |out| <= len && l1 != l2
    ensures Decode([Value(x)] + rest, l1, l2, out, len) == Decode(rest, x, l1, out + [x], len)
  {
    assert ([Value(x)] + rest)[1..] == rest;
  }

  /**
   * Decoding the corrected encoder's output from the same history writes
   * exactly the encoded values after what was already written.
   */
  lemma {:induction false} RoundTripFrom(s: seq<real>, j: nat, l1: real, l2: real, len: int)
    requires j <= |s| && |s| <= len
    ensures Decode(Encode(s, j, l1, l2), l1, l2, s[..j], len) == s
    decreases |s| - j, 1
  {
    if j == |s| {
      assert s[..j] == s;
    } else if l1 == l2 {
      RoundTripRun(s, j, l1, len);
    } else {
      var rest := Encode(s, j + 1, s[j], l1);
      assert Encode(s, j, l1, l2) == [Value(s[j])] + rest;
      DecodeValue(s[j], rest, l1, l2, s[..j], len);
      assert s[..j] + [s[j]] == s[..j + 1];
      RoundTripFrom(s, j + 1, s[j], l1, len);
    }
  }

  /** The run the encoder counts is exactly what the decoder repeats. */
  lemma RunPrefix(s: seq<real>, j: nat, l: real)
    requires j <= |s|
    ensures s[..j] + Repeat(l, RunLength(s, j, l)) == s[..j + RunLength(s, j, l)]
  {
    var c := RunLength(s, j, l);
    assert forall k :: 0 <= k < j + c ==> (s[..j] + Repeat(l, c))[k] == s[k];
  }

  lemma EncodeRun(s: seq<real>, j: nat, l: real)
    requires j < |s|
    ensures var c := RunLength(s, j, l);
      Encode(s, j, l, l) ==
        if j + c < |s| then [Count(c)] + ([Value(s[j + c])] + Encode(s, j + c + 1, s[j + c], Fresh1))
        else [Count(c)] + []
  {
  }

  /** The run case of `RoundTripFrom`: the history holds a repeated value `l`. */
  lemma {:induction false} RoundTripRun(s: seq<real>, j: nat, l: real, len: int)
    requires j < |s| && |s| <= len
    ensures Decode(Encode(s, j, l, l), l, l, s[..j], len) == s
    decreases |s| - j, 0
  {
    var c := RunLength(s, j, l);
    var out := s[..j];
    if j + c < |s| {
      var x := s[j + c];
      var rest := Encode(s, j + c + 1, x, Fresh1);
      calc {
        Decode(Encode(s, j, l, l), l, l, out, len);
        { EncodeRun(s, j, l); }
        Decode([Count(c)] + ([Value(x)] + rest), l, l, out, len);
        { DecodeCount(c, [Value(x)] + rest, l, out, len); }
        Decode([Value(x)] + rest, Fresh1, Fresh2, out + Repeat(l, c), len);
        { RunPrefix(s, j, l); }
        Decode([Value(x)] + rest, Fresh1, Fresh2, s[..j + c], len);
        { DecodeValue(x, rest, Fresh1, Fresh2, s[..j + c], len); }
        Decode(rest, x, Fresh1, s[..j + c] + [x], len);
        { assert s[..j + c] + [x] == s[..j + c + 1]; }
        Decode(rest, x, Fresh1, s[..j + c + 1], len);
        { RoundTripFrom(s, j + c + 1, x, Fresh1, len); }
        s;
      }
    } else {
      calc {
        Decode(Encode(s, j, l, l), l, l, out, len);
        { EncodeRun(s, j, l); }
        Decode([Count(c)] + [], l, l, out, len);
        { DecodeCount(c, [], l, out, len); }
        Decode([], Fresh1, Fresh2, out + Repeat(l, c), len);
        { RunPrefix(s, j, l); }
        s[..j + c];
        { assert s[..j + c] == s; }
        s;
      }
    }
  }

  /** The corrected encoding round-trips: a stored sequence loads back unchanged. */
  lemma RoundTrip(s: seq<real>)
    ensures DecodeSeq(EncodeSeq(s), |s|) == s
  {
    assert s[..0] == [];
    RoundTripFrom(s, 0, Fresh1, Fresh2, |s|);
  }

  /** The encoder as written on [a, a, b, b, c]: after the run of a's it emits a zero count and then b, b, c. */
  lemma AsWrittenEncoding()
    ensures EncodeAsWritten([0.5, 0.5, 0.25, 0.25, 0.75], 0, Fresh1, Fresh2) ==
      [Value(0.5), Value(0.5), Count(0), Value(0.25), Value(0.25), Value(0.75)]
  {
    var s := [0.5, 0.5, 0.25, 0.25, 0.75];
    assert RunLength(s, 2, 0.5) == 0;
    assert EncodeAsWritten(s, 5, 0.25, 0.25) == [];
    assert EncodeAsWritten(s, 4, 0.25, 0.25) == [Count(0), Value(0.75)] + EncodeAsWritten(s, 5, Fresh1, Fresh2) by {
      assert RunLength(s, 4, 0.25) == 0;
    }
  }

  /**
   * The encoder as written does not round-trip: in [a, a, b, b, c] the value
   * b ending the run of a's is not remembered by the encoder but is by the
   * decoder, which then reads c as a repetition count (0) and loses it.
   */
  lemma AsWrittenLosesValue()
    ensures DecodeSeq(EncodeAsWritten([0.5, 0.5, 0.25, 0.25, 0.75], 0, Fresh1, Fresh2), 5) ==
      [0.5, 0.5, 0.25, 0.25]
  {
    AsWrittenEncoding();
    var t := [Value(0.5), Value(0.5), Count(0), Value(0.25), Value(0.25), Value(0.75)];
    assert t[1..] == [Value(0.5), Count(0), Value(0.25), Value(0.25), Value(0.75)];
    assert t[1..][1..] == [Count(0), Value(0.25), Value(0.25), Value(0.75)];
    assert t[1..][1..][1..] == [Value(0.25), Value(0.25), Value(0.75)];
    assert t[1..][1..][1..][1..] == [Value(0.25), Value(0.75)];
    assert t[1..][1..][1..][1..][1..] == [Value(0.75)];
    assert t[1..][1..][1..][1..][1..][1..] == [];
    assert Repeat(0.5, 0) == [];
    assert Repeat(0.25, 0) == [];
  }
}

=== FILE: rotor_a.dfy ===
/**
 * Rotor Mode A: spreads a carrier voltage over 2..16 polyphonic output
 * channels. The modulation voltage (0..10 V) picks a position between two
 * neighbouring channels; the carrier is split between them linearly. An
 * optional polyphonic base input scales each channel it covers by base/10.
 */
module RotorA {
  import opened Rack
  import opened Dsp

  /** Entries in the per-sample channel buffer. */
  const BufferSize: nat := 16

  /**
   * What the channel divider last computed: the output channel count and
   * the number of base-input channels the mask lets through.
   */
  datatype State = State(channels: int, split: real, maskChannels: int)

  predicate Valid(st: State) {
    && 2 <= st.channels <= 16
    && st.split == Split(st.channels)
    && 0 <= st.maskChannels <= 16
  }

  /** The channel knob (2..16, continuous) rounded up. */
  function Channels(param: real): (r: int)
    requires 2.0 <= param <= 16.0
    ensures 2 <= r <= 16
    ensures (r - 1) as real < param <= r as real
  {
    Ceil(param)
  }

  /** The modulation span of one channel step. */
  function Split(channels: int): (r: real)
    requires channels >= 2
    ensures r > 0.0
  {
    10.0 / (channels - 1) as real
  }

  /** The carrier: 10 V when unpatched, otherwise clamped to 0..10 V. */
  function Carrier(connected: bool, v: real): (r: real)
    ensures 0.0 <= r <= 10.0
    ensures !connected ==> r == 10.0
    ensures connected && 0.0 <= v <= 10.0 ==> r == v
  {
    if connected then Clamp(v, 0.0, 10.0) else 10.0
  }

  /** `mod_p`: the modulation as a fractional channel position. */
  function Position(channels: int, mod: real): (r: real)
    requires 2 <= channels <= 16
    ensures 0.0 <= r <= (channels - 1) as real
  {
    var m := Clamp(mod, 0.0, 10.0);
    PositionInRange(m, channels);
    m / Split(channels)
  }

  /** 0..10 V maps linearly onto positions 0..channels-1. */
  lemma PositionInRange(m: real, channels: int)
    requires 0.0 <= m <= 10.0 && 2 <= channels <= 16
    ensures m / Split(channels) == m * (channels - 1) as real / 10.0
    ensures 0.0 <= m / Split(channels) <= (channels - 1) as real
  {
    assert m / Split(channels) == m * (channels - 1) as real / 10.0;
    assert 0.0 <= m * (channels - 1) as real <= 10.0 * (channels - 1) as real by {
      MulNonNeg(m, (channels - 1) as real);
      MulNonNeg(10.0 - m, (channels - 1) as real);
    }
  }

  /** `mod_c`: the lower of the two channels the carrier is split between. */
  function Lower(channels: int, mod: real): (r: int)
    requires 2 <= channels <= 16
    ensures 0 <= r <= channels - 1
    ensures r == channels - 1 ==> Position(channels, mod) == r as real
  {
    Floor(Position(channels, mod))
  }

  /**
   * The index of the second write as written. At 10 V with 16 channels it is
   * 16, one past the 16-entry buffer.
   */
  function UpperAsWritten(channels: int, mod: real): (r: int)
    requires 2 <= channels <= 16
    ensures 1 <= r <= channels
    ensures channels < 16 ==> r < BufferSize
  {
    Lower(channels, mod) + 1
  }

  lemma UpperOverruns()
    ensures UpperAsWritten(16, 10.0) == BufferSize
    ensures Fraction(16, 10.0) == 0.0
  {
    assert Position(16, 10.0) == 15.0;
  }

  /** `mod_p2`: the share of the upper channel. */
  function Fraction(channels: int, mod: real): (r: real)
    requires 2 <= channels <= 16
    ensures 0.0 <= r < 1.0
    ensures Lower(channels, mod) == channels - 1 ==> r == 0.0
  {
    Position(channels, mod) - Lower(channels, mod) as real
  }

  /** Carrier share of channel `c`: `1 - frac` at the lower channel, `frac` at the upper, 0 elsewhere. */
  function Weight(lower: int, a: real, b: real, c: int): real {
    if c == lower then a else if c == lower + 1 then b else 0.0
  }

  /**
   * The channel buffer with the write past its end left out. That write
   * only ever stores 0 (the upper share is 0 when the lower channel is the
   * last), so no output changes.
   */
  function Shares(channels: int, mod: real, car: real): (v: seq<real>)
    requires 2 <= channels <= 16
    ensures |v| == BufferSize
    ensures forall c :: 0 <= c < BufferSize ==>
      v[c] == Weight(Lower(channels, mod), (1.0 - Fraction(channels, mod)) * car, Fraction(channels, mod) * car, c)
  {
    var lo := Lower(channels, mod);
    var p2 := Fraction(channels, mod);
    seq(BufferSize, c => Weight(lo, (1.0 - p2) * car, p2 * car, c))
  }

  function Sum(s: seq<real>): real {
    if |s| == 0 then 0.0 else Sum(s[..|s| - 1]) + s[|s| - 1]
  }

  lemma {:induction false} SumPrefix(v: seq<real>, lower: int, a: real, b: real, n: nat)
    requires n <= |v| && 0 <= lower
    requires forall c :: 0 <= c < |v| ==> v[c] == Weight(lower, a, b, c)
    ensures Sum(v[..n]) == (if lower < n then a else 0.0) + (if lower + 1 < n then b else 0.0)
  {
    if n > 0 {
      assert v[..n][..n - 1] == v[..n - 1];
      SumPrefix(v, lower, a, b, n - 1);
    }
  }

  /**
   * The shares are within 0..car, only the two neighbouring channels carry
   * anything, and together they add up to the carrier.
   */
  lemma SharesSplitCarrier(channels: int, mod: real, car: real)
    requires 2 <= channels <= 16 && 0.0 <= car
    ensures var v := Shares(channels, mod, car);
      && Sum(v) == car
      && (forall c :: 0 <= c < BufferSize ==> 0.0 <= v[c] <= car)
      && (forall c :: 0 <= c < BufferSize && c != Lower(channels, mod) && c != Lower(channels, mod) + 1 ==> v[c] == 0.0)
  {
    var v := Shares(channels, mod, car);
    var lo := Lower(channels, mod);
    var p2 := Fraction(channels, mod);
    SumPrefix(v, lo, (1.0 - p2) * car, p2 * car, BufferSize);
    assert v[..BufferSize] == v;
    assert (1.0 - p2) * car + p2 * car == car;
    MulNonNeg(p2, car);
    MulNonNeg(1.0 - p2, car);
    assert 0.0 <= p2 * car <= car;
    assert 0.0 <= (1.0 - p2) * car <= car;
    forall c | 0 <= c < BufferSize
      ensures 0.0 <= v[c] <= car
    {
      assert v[c] == Weight(lo, (1.0 - p2) * car, p2 * car, c);
    }
  }

  /** The base input's scale for channel `c`: base/10 for channels it covers, 1 otherwise. */
  function BaseScale(maskChannels: int, base: seq<real>, c: int): (r: real)
    requires |base| == BufferSize && 0 <= c < BufferSize
    ensures c >= maskChannels ==> r == 1.0
    ensures c < maskChannels && 0.0 <= base[c] <= 10.0 ==> 0.0 <= r <= 1.0
  {
    if c < maskChannels then Rescale(base[c], 0.0, 10.0, 0.0, 1.0) else 1.0
  }

  /** The inputs of one sample. */
  datatype Frame = Frame(
    divTick: bool,
    channelsParam: real,
    baseChannels: int,
    base: seq<real>,
    carConnected: bool,
    carVoltage: real,
    modVoltage: real,
    outConnected: bool)

  predicate FrameOk(f: Frame) {
    2.0 <= f.channelsParam <= 16.0 && 0 <= f.baseChannels <= 16 && |f.base| == BufferSize
  }

  /** Every 256 samples the channel count, split and base mask are recomputed. */
  function Refresh(st: State, f: Frame): (r: State)
    requires Valid(st) && FrameOk(f)
    ensures Valid(r)
    ensures f.divTick ==> r.channels == Channels(f.channelsParam) && r.maskChannels == f.baseChannels
    ensures !f.divTick ==> r == st
  {
    if f.divTick then
      var ch := Channels(f.channelsParam);
      State(ch, Split(ch), f.baseChannels)
    else st
  }

  /**
   * One sample: the new state and, when the output is patched, the
   * `channels` output voltages.
   */
  function Process(st: State, f: Frame): (r: (State, Option<seq<real>>))
    requires Valid(st) && FrameOk(f)
    ensures Valid(r.0) && r.0 == Refresh(st, f)
    ensures r.1.Some? <==> f.outConnected
    ensures r.1.Some? ==> |r.1.value| == r.0.channels
    ensures r.1.Some? ==> forall c :: 0 <= c < r.0.channels ==>
      r.1.value[c] == Shares(r.0.channels, f.modVoltage, Carrier(f.carConnected, f.carVoltage))[c]
                      * BaseScale(r.0.maskChannels, f.base, c)
  {
    var s1 := Refresh(st, f);
    var v := Shares(s1.channels, f.modVoltage, Carrier(f.carConnected, f.carVoltage));
    if f.outConnected then (s1, Some(Scaled(v, s1.channels, s1.maskChannels, f.base)))
    else (s1, None)
  }

  /** The first `channels` shares, each scaled by its channel's base input. */
  function Scaled(v: seq<real>, channels: int, maskChannels: int, base: seq<real>): (o: seq<real>)
    requires |v| == BufferSize && 0 <= channels <= BufferSize && |base| == BufferSize
    ensures |o| == channels
    ensures forall c :: 0 <= c < channels ==> o[c] == v[c] * BaseScale(maskChannels, base, c)
  {
    seq(channels, c requires 0 <= c < channels => v[c] * BaseScale(maskChannels, base, c))
  }

  /** The shares of the first `channels` buffer entries add up to the carrier. */
  lemma SharesPrefixSum(channels: int, mod: real, car: real)
    requires 2 <= channels <= 16 && 0.0 <= car
    ensures Sum(Shares(channels, mod, car)[..channels]) == car
  {
    var v := Shares(channels, mod, car);
    var lo := Lower(channels, mod);
    var p2 := Fraction(channels, mod);
    SumPrefix(v, lo, (1.0 - p2) * car, p2 * car, channels);
    if lo + 1 >= channels {
      assert p2 == 0.0;
    }
  }

  /**
   * Without a base input the output channels add up to the carrier, and
   * each lies within 0..carrier.
   */
  lemma OutputsSplitCarrier(st: State, f: Frame)
    requires Valid(st) && FrameOk(f) && f.outConnected && Refresh(st, f).maskChannels == 0
    ensures var out := Process(st, f).1.value;
      var car := Carrier(f.carConnected, f.carVoltage);
      && (forall c :: 0 <= c < |out| ==> 0.0 <= out[c] <= car)
      && Sum(out) == car
  {
    var s1 := Refresh(st, f);
    var ch := s1.channels;
    var car := Carrier(f.carConnected, f.carVoltage);
    var v := Shares(ch, f.modVoltage, car);
    var out := Process(st, f).1.value;
    assert out == v[..ch] by {
      forall c | 0 <= c < ch ensures out[c] == v[c] {
        assert BaseScale(s1.maskChannels, f.base, c) == 1.0;
      }
    }
    SharesSplitCarrier(ch, f.modVoltage, car);
    SharesPrefixSum(ch, f.modVoltage, car);
  }
}

=== FILE: spin.dfy ===
/**
 * Spin: turns mouse-wheel scrolling into pulses on two outputs and the
 * middle mouse button into a click output that toggles, follows the button
 * (gate) or fires a pulse (trigger). The host's scroll and button events
 * arrive as calls of `Scroll`, `ClickEnable` and `ClickDisable`.
 */
module Spin {
  import opened Rack
  import opened Dsp

  const Toggle: int := 0
  const Trigger: int := 1
  const Gate: int := 2

  datatype State = State(
    panelTheme: int,
    clickMode: int,
    clickHigh: bool,
    delta: real,
    decPulse: Pulse,
    incPulse: Pulse,
    clickPulse: Pulse)

  /** `onReset`: toggle mode, click output low. */
  function OnReset(st: State): (r: State)
    ensures r.clickMode == Toggle && !r.clickHigh
    ensures r == st.(clickMode := Toggle, clickHigh := false)
    ensures forall dt :: Process(r, dt).1.click == Some(0.0)
  {
    st.(clickMode := Toggle, clickHigh := false)
  }

  /**
   * A scroll over the rack stores the wheel delta, unless the module is set
   * to react only while hovering a parameter and none is hovered.
   */
  function Scroll(st: State, onlyOverParam: bool, overParam: bool, dy: real): (r: State)
    ensures onlyOverParam && !overParam ==> r == st
    ensures !onlyOverParam || overParam ==> r == st.(delta := dy)
  {
    if onlyOverParam && !overParam then st else st.(delta := dy)
  }

  /** Middle button pressed (without modifiers). */
  function ClickEnable(st: State): (r: State)
    ensures st.clickMode == Trigger ==> r.clickHigh == st.clickHigh && r.clickPulse.remaining >= PulseWidth
    ensures st.clickMode == Gate ==> r.clickHigh
    ensures st.clickMode == Toggle ==> r.clickHigh == !st.clickHigh
    ensures r == st.(clickHigh := r.clickHigh, clickPulse := r.clickPulse)
    ensures st.clickMode != Trigger ==> r.clickPulse == st.clickPulse
    ensures st.clickMode != Toggle && st.clickMode != Gate ==> r.clickHigh == st.clickHigh
  {
    if st.clickMode == Trigger then st.(clickPulse := PulseTrigger(st.clickPulse))
    else if st.clickMode == Gate then st.(clickHigh := true)
    else if st.clickMode == Toggle then st.(clickHigh := !st.clickHigh)
    else st
  }

  /** Middle button released: only gate mode reacts, by going low. */
  function ClickDisable(st: State): (r: State)
    ensures st.clickMode == Gate ==> r == st.(clickHigh := false)
    ensures st.clickMode != Gate ==> r == st
  {
    if st.clickMode == Gate then st.(clickHigh := false) else st
  }

  /** The voltages of one sample. The click output is left as it was (`None`) for an unknown mode. */
  datatype Outputs = Outputs(inc: real, dec: real, click: Option<real>)

  function Volts(high: bool): real {
    if high then 10.0 else 0.0
  }

  /**
   * One sample: a stored downward scroll fires the increment pulse, an
   * upward one the decrement pulse, and the delta is consumed. The INC
   * output carries the decrement pulse and the DEC output the increment pulse.
   */
  function Process(st: State, dt: real): (r: (State, Outputs))
    ensures r.0.delta == 0.0
    ensures r.0.clickMode == st.clickMode && r.0.clickHigh == st.clickHigh
    ensures st.delta < 0.0 ==> r.1.dec == 10.0
    ensures st.delta > 0.0 ==> r.1.inc == 10.0
    ensures r.1.inc == 10.0 <==> Trig(st.delta > 0.0, st.decPulse).remaining > 0.0
    ensures r.1.dec == 10.0 <==> Trig(st.delta < 0.0, st.incPulse).remaining > 0.0
    ensures r.1.inc == 0.0 || r.1.inc == 10.0
    ensures r.1.dec == 0.0 || r.1.dec == 10.0
    ensures st.clickMode == Toggle || st.clickMode == Gate ==> r.1.click == Some(Volts(st.clickHigh))
    ensures st.clickMode == Trigger ==> r.1.click == Some(Volts(st.clickPulse.remaining > 0.0))
    ensures st.clickMode != Toggle && st.clickMode != Gate && st.clickMode != Trigger ==> r.1.click == None
  {
    var inc := Trig(st.delta < 0.0, st.incPulse);
    var dec := Trig(st.delta > 0.0, st.decPulse);
    var (dec1, decHigh) := PulseStep(dec, dt);
    var (inc1, incHigh) := PulseStep(inc, dt);
    var (click1, clickOut) :=
      if st.clickMode == Trigger then
        var (p, high) := PulseStep(st.clickPulse, dt); (p, Some(Volts(high)))
      else if st.clickMode == Gate || st.clickMode == Toggle then (st.clickPulse, Some(Volts(st.clickHigh)))
      else (st.clickPulse, None);
    (st.(delta := 0.0, incPulse := inc1, decPulse := dec1, clickPulse := click1),
     Outputs(Volts(decHigh), Volts(incHigh), clickOut))
  }

  function Trig(fire: bool, p: Pulse): (r: Pulse)
    ensures fire ==> r.remaining >= PulseWidth
    ensures !fire ==> r == p
  {
    if fire then PulseTrigger(p) else p
  }

  /** In toggle mode two presses restore the click output; releases change nothing. */
  lemma TogglePressTwice(st: State)
    requires st.clickMode == Toggle
    ensures ClickEnable(ClickEnable(st)) == st
    ensures ClickDisable(st) == st
  {
  }

  /** In gate mode the click output follows the button: high after a press, low after the release. */
  lemma GateFollowsButton(st: State, dt: real)
    requires st.clickMode == Gate
    ensures Process(ClickEnable(st), dt).1.click == Some(10.0)
    ensures Process(ClickDisable(ClickEnable(st)), dt).1.click == Some(0.0)
  {
  }

  /** In trigger mode a press fires a pulse the next sample reports, whatever the button does after. */
  lemma TriggerFires(st: State, dt: real)
    requires st.clickMode == Trigger
    ensures Process(ClickEnable(st), dt).1.click == Some(10.0)
    ensures ClickDisable(ClickEnable(st)) == ClickEnable(st)
  {
  }

  /** A scroll step down shows on the DEC output; one up on the INC output. */
  lemma ScrollShowsOnOutputs(st: State, dy: real, dt: real)
    requires dy != 0.0
    ensures var r := Process(Scroll(st, false, false, dy), dt).1;
      (dy < 0.0 ==> r.dec == 10.0) && (dy > 0.0 ==> r.inc == 10.0)
  {
  }

  /** The stored fields; a missing key reads as 0 / false. */
  datatype Persisted = Persisted(panelTheme: Option<int>, clickMode: Option<int>, clickHigh: Option<bool>)

  function ToJson(st: State): (p: Persisted)
    ensures p.panelTheme.Some? && p.clickMode.Some? && p.clickHigh.Some?
    ensures FromJson(st, p) == st
  {
    Persisted(Some(st.panelTheme), Some(st.clickMode), Some(st.clickHigh))
  }

  function FromJson(st: State, p: Persisted): (r: State)
    ensures r.panelTheme == (if p.panelTheme.Some? then p.panelTheme.value else 0)
    ensures r.clickMode == (if p.clickMode.Some? then p.clickMode.value else 0)
    ensures r.clickHigh == (p.clickHigh.Some? && p.clickHigh.value)
    ensures r.delta == st.delta && r.incPulse == st.incPulse && r.decPulse == st.decPulse
  {
    st.(panelTheme := if p.panelTheme.Some? then p.panelTheme.value else 0,
        clickMode := if p.clickMode.Some? then p.clickMode.value else 0,
        clickHigh := p.clickHigh.Some? && p.clickHigh.value)
  }

  lemma JsonRoundTrip(st: State, other: State)
    ensures var r := FromJson(other, ToJson(st));
      r.panelTheme == st.panelTheme && r.clickMode == st.clickMode && r.clickHigh == st.clickHigh
  {
  }
}

=== FILE: strip.dfy ===
/**
 * Strip: acts on the chain of modules touching it on the right, on the
 * left, or both. It bypasses or re-enables the whole chain, randomizes its
 * parameters except for an exclusion list, and, when a stored strip is
 * loaded back, rewrites the module ids inside the parameter mappings of the
 * modules that map parameters.
 */
module Strip {
  import opened Rack
  import LongPress

  /** Which neighbours form the strip. */
  const LeftRight: int := 0
  const RightOnly: int := 1
  const LeftOnly: int := 2

  /** How the ON button and input act. */
  const OnDefault: int := 0
  const OnToggle: int := 1
  const OnHighLow: int := 2

  /** A parameter of another module: (module id, parameter id). */
  type Param = (int, int)

  datatype State = State(
    mode: int,
    onMode: int,
    lastState: bool,
    excludeButton: LongPress.Button,
    firstRun: bool,
    excludeLearn: bool,
    excluded: set<Param>,
    invoke: bool,
    pending: Param)

  /**
   * What the host shows Strip: the expander ids met walking right and
   * walking left (a negative id is a free side and ends the walk), and the
   * parameter ids of each module's panel.
   */
  datatype Host = Host(right: seq<int>, left: seq<int>, params: map<int, set<int>>)

  /** The ids a walk visits: everything before the first negative id. */
  function Walk(ids: seq<int>): (r: seq<int>)
    ensures |r| <= |ids| && r == ids[..|r|]
    ensures forall k :: 0 <= k < |r| ==> r[k] >= 0
    ensures |r| < |ids| ==> ids[|r|] < 0
    decreases |ids|
  {
    if |ids| == 0 || ids[0] < 0 then []
    else [ids[0]] + Walk(ids[1..])
  }

  predicate RightSelected(mode: int) {
    mode == LeftRight || mode == RightOnly
  }

  predicate LeftSelected(mode: int) {
    mode == LeftRight || mode == LeftOnly
  }

  /** The module ids of the strip for `mode`; a mode outside 0..2 selects no side. */
  function Chain(mode: int, h: Host): (c: set<int>)
    ensures forall id :: id in c <==>
      (RightSelected(mode) && id in Walk(h.right)) || (LeftSelected(mode) && id in Walk(h.left))
    ensures forall id :: id in c ==> id >= 0
  {
    (if RightSelected(mode) then set id | id in Walk(h.right) else {}) +
    (if LeftSelected(mode) then set id | id in Walk(h.left) else {})
  }

  /** The parameters of a module's panel; a module the host does not show has none. */
  function ParamsOf(h: Host, id: int): set<int> {
    if id in h.params then h.params[id] else {}
  }

  // ---------------------------------------------------------------- bypass

  /**
   * `groupDisable`: nothing happens when the requested state is the last
   * one; otherwise every module of the strip is bypassed (`val`) or
   * re-enabled (`!val`), and the request is remembered.
   */
  function GroupDisable(st: State, h: Host, bypass: map<int, bool>, val: bool): (r: (State, map<int, bool>))
    ensures r.0.lastState == val
    ensures r.0 == st.(lastState := val)
    ensures st.lastState == val ==> r.1 == bypass
    ensures st.lastState != val ==> forall id :: id in Chain(st.mode, h) ==> id in r.1 && r.1[id] == val
    ensures forall id :: id in bypass && id !in Chain(st.mode, h) ==> id in r.1 && r.1[id] == bypass[id]
    ensures r.1.Keys <= bypass.Keys + Chain(st.mode, h)
  {
    if st.lastState == val then (st, bypass)
    else
      var chain := Chain(st.mode, h);
      (st.(lastState := val), map id | id in bypass.Keys + chain :: if id in chain then val else bypass[id])
  }

  /** Asking for the same state twice acts once. */
  lemma GroupDisableIdempotent(st: State, h: Host, bypass: map<int, bool>, val: bool)
    ensures var r := GroupDisable(st, h, bypass, val);
      GroupDisable(r.0, h, r.1, val) == r
  {
  }

  /**
   * In TOGGLE mode an ON edge asks for the opposite of the last state, so
   * two edges restore it; the strip's modules end as they were whenever the
   * chain was wholly in the last state before.
   */
  lemma ToggleTwiceRestores(st: State, h: Host, bypass: map<int, bool>)
    requires forall id :: id in Chain(st.mode, h) ==> id in bypass && bypass[id] == st.lastState
    ensures var r1 := GroupDisable(st, h, bypass, !st.lastState);
      var r2 := GroupDisable(r1.0, h, r1.1, !r1.0.lastState);
      r2.0 == st && r2.1 == bypass
  {
    var r1 := GroupDisable(st, h, bypass, !st.lastState);
    var r2 := GroupDisable(r1.0, h, r1.1, !r1.0.lastState);
    assert r2.1.Keys == bypass.Keys;
  }

  // ---------------------------------------------------------------- randomize

  /** `groupRandomize`: every parameter of the strip's modules that is not excluded. */
  function Randomize(st: State, h: Host): (r: set<Param>)
    ensures forall e :: e in r <==> e.0 in Chain(st.mode, h) && e.1 in ParamsOf(h, e.0) && e !in st.excluded
  {
    var chain := Chain(st.mode, h);
    var r := set m, p | m in chain && p in ParamsOf(h, m) && (m, p) !in st.excluded :: (m, p);
    assert forall e: Param :: e.0 in chain && e.1 in ParamsOf(h, e.0) && e !in st.excluded ==> e in r by {
      forall e: Param | e.0 in chain && e.1 in ParamsOf(h, e.0) && e !in st.excluded
        ensures e in r
      {
        var m, q := e.0, e.1;
        assert m in chain && q in ParamsOf(h, m) && (m, q) !in st.excluded;
        assert (m, q) in r;
      }
    }
    r
  }

  // ---------------------------------------------------------------- exclusions

  /** `groupExcludeCleanup`: drops the exclusions of modules no longer in the strip. */
  function Cleanup(st: State, h: Host): (r: State)
    ensures forall e :: e in r.excluded <==> e in st.excluded && e.0 in Chain(st.mode, h)
    ensures r == st.(excluded := r.excluded)
  {
    if |st.excluded| == 0 then st
    else st.(excluded := set e | e in st.excluded && e.0 in Chain(st.mode, h))
  }

  lemma CleanupIdempotent(st: State, h: Host)
    ensures Cleanup(Cleanup(st, h), h) == Cleanup(st, h)
  {
    var c := Cleanup(st, h);
    assert Cleanup(c, h).excluded == c.excluded;
  }

  /** The app side of `groupExcludeParam`: hands the touched parameter to the engine. */
  function RequestExclude(st: State, moduleId: int, paramId: int): (r: State)
    ensures r.invoke && r.pending == (moduleId, paramId)
    ensures r.excluded == st.excluded && r.mode == st.mode
  {
    st.(pending := (moduleId, paramId), invoke := true)
  }

  /**
   * The engine side of `groupExcludeParam`: learning ends, the request is
   * consumed, and the pending parameter is excluded if its module is found
   * walking right (when the mode selects the right side), else walking left
   * (when it selects the left side), and the module has that parameter.
   * The search stops at the first module with the id.
   */
  function ExcludeParam(st: State, h: Host): (r: State)
    ensures !r.excludeLearn && !r.invoke
    ensures r.excluded == if st.pending.0 in Chain(st.mode, h) && st.pending.1 in ParamsOf(h, st.pending.0)
                          then st.excluded + {st.pending} else st.excluded
    ensures r == st.(excludeLearn := false, invoke := false, excluded := r.excluded)
  {
    var base := st.(excludeLearn := false, invoke := false);
    var e := st.pending;
    if RightSelected(st.mode) && e.0 in Walk(h.right) then
      if e.1 in ParamsOf(h, e.0) then base.(excluded := st.excluded + {e}) else base
    else if LeftSelected(st.mode) && e.0 in Walk(h.left) then
      if e.1 in ParamsOf(h, e.0) then base.(excluded := st.excluded + {e}) else base
    else base
  }

  /** An exclusion just learned survives the next cleanup. */
  lemma ExcludedSurvivesCleanup(st: State, h: Host)
    requires st.pending.0 in Chain(st.mode, h) && st.pending.1 in ParamsOf(h, st.pending.0)
    ensures st.pending in Cleanup(ExcludeParam(st, h), h).excluded
    ensures st.pending !in Randomize(ExcludeParam(st, h), h)
  {
  }

  // ---------------------------------------------------------------- process

  /**
   * The inputs of one sample: edges of the MODE, OFF (button plus input),
   * ON and RAND (button plus input) triggers, the level of ON button plus
   * input, the exclude button's value and the sample time.
   */
  datatype Frame = Frame(
    modeEdge: bool,
    offEdge: bool,
    onEdge: bool,
    onLevel: real,
    randEdge: bool,
    excludeValue: real,
    dt: real)

  /** A MODE edge: the next of the three modes; the strip counts as enabled again. */
  function NextMode(st: State): (r: State)
    ensures 0 <= st.mode < 2 ==> r.mode == st.mode + 1
    ensures st.mode == 2 ==> r.mode == 0
    ensures r.lastState
    ensures r == st.(mode := r.mode, lastState := true)
  {
    st.(mode := CRem(st.mode + 1, 3), lastState := true)
  }

  /** Three MODE edges bring a valid mode back. */
  lemma ModeCycles(st: State)
    requires 0 <= st.mode <= 2
    ensures NextMode(NextMode(NextMode(st))).mode == st.mode
  {
  }

  /** The ON section leaves the strip alone: no edge outside HIGH/LOW, or an unknown on-mode. */
  predicate OnQuiet(onMode: int, f: Frame) {
    (onMode != OnHighLow && !f.onEdge) || (onMode != OnDefault && onMode != OnToggle && onMode != OnHighLow)
  }

  /**
   * The ON section for the current on-mode; an unknown on-mode does nothing.
   * Whenever the requested state differs from the last one, every module of
   * the strip takes it; otherwise the bypass states stay as they were.
   */
  function OnSection(st: State, f: Frame, h: Host, bypass: map<int, bool>): (r: (State, map<int, bool>))
    ensures st.onMode == OnHighLow ==> r.0.lastState == (f.onLevel < 1.0)
    ensures st.onMode == OnToggle && f.onEdge ==> r.0.lastState == !st.lastState
    ensures st.onMode == OnDefault && f.onEdge ==> !r.0.lastState
    ensures OnQuiet(st.onMode, f) ==> r == (st, bypass)
    ensures r.0 == st.(lastState := r.0.lastState)
    ensures r.0.lastState == st.lastState ==> r.1 == bypass
    ensures r.0.lastState != st.lastState ==>
      forall id :: id in Chain(st.mode, h) ==> id in r.1 && r.1[id] == r.0.lastState
    ensures forall id :: id in bypass && id !in Chain(st.mode, h) ==> id in r.1 && r.1[id] == bypass[id]
  {
    if st.onMode == OnDefault then
      if f.onEdge then GroupDisable(st, h, bypass, false) else (st, bypass)
    else if st.onMode == OnToggle then
      if f.onEdge then GroupDisable(st, h, bypass, !st.lastState) else (st, bypass)
    else if st.onMode == OnHighLow then
      GroupDisable(st, h, bypass, f.onLevel < 1.0)
    else (st, bypass)
  }

  /** The exclude button: a short press cleans up and toggles learning, a long press clears the list. */
  function ExcludeSection(st: State, f: Frame, h: Host): (r: State)
    requires f.dt > 0.0
    ensures r.mode == st.mode && r.lastState == st.lastState && r.onMode == st.onMode
    ensures r.excluded <= st.excluded
    ensures var ev := LongPress.Step(st.excludeButton, f.excludeValue, f.dt).1;
      && (ev == LongPress.ShortPress ==>
            r.excludeLearn == !st.excludeLearn && forall e :: e in r.excluded <==> e in st.excluded && e.0 in Chain(st.mode, h))
      && (ev == LongPress.LongPress ==> r.excluded == {} && r.excludeLearn == st.excludeLearn)
      && (ev == LongPress.NoPress ==> r.excluded == st.excluded && r.excludeLearn == st.excludeLearn)
    ensures r.invoke == st.invoke && r.pending == st.pending && r.firstRun == st.firstRun
  {
    var (button, ev) := LongPress.Step(st.excludeButton, f.excludeValue, f.dt);
    var s := st.(excludeButton := button);
    if ev == LongPress.ShortPress then
      var c := Cleanup(s, h);
      c.(excludeLearn := !c.excludeLearn)
    else if ev == LongPress.LongPress then s.(excluded := {})
    else s
  }

  /**
   * The first steps of a sample: first-run cleanup, MODE, OFF and the ON
   * section. A MODE edge marks the strip enabled, so an OFF edge in the
   * same sample bypasses only when it is the only change.
   */
  function Switches(st: State, f: Frame, h: Host, bypass: map<int, bool>): (r: (State, map<int, bool>))
    ensures !r.0.firstRun && r.0.onMode == st.onMode
    ensures r.0.invoke == st.invoke && r.0.pending == st.pending
    ensures f.modeEdge ==> r.0.mode == NextMode(st).mode
    ensures !f.modeEdge ==> r.0.mode == st.mode
    ensures st.onMode == OnHighLow ==> r.0.lastState == (f.onLevel < 1.0)
    ensures st.firstRun ==> forall e :: e in r.0.excluded <==> e in st.excluded && e.0 in Chain(st.mode, h)
    ensures !st.firstRun ==> r.0.excluded == st.excluded
    ensures forall id :: id in bypass && id !in Chain(r.0.mode, h) ==> id in r.1 && r.1[id] == bypass[id]
    ensures OnQuiet(st.onMode, f) ==> r.0.lastState == (f.modeEdge || f.offEdge || st.lastState)
    ensures OnQuiet(st.onMode, f) && (!f.offEdge || f.modeEdge || st.lastState) ==> r.1 == bypass
    ensures (OnQuiet(st.onMode, f) && f.offEdge && !f.modeEdge && !st.lastState ==>
      forall id :: id in Chain(st.mode, h) ==> id in r.1 && r.1[id])
    ensures (!f.offEdge && !f.modeEdge && r.0.lastState != st.lastState ==>
      forall id :: id in Chain(st.mode, h) ==> id in r.1 && r.1[id] == r.0.lastState)
  {
    var s0 := if st.firstRun then Cleanup(st, h).(firstRun := false) else st;
    var s1 := if f.modeEdge then NextMode(s0) else s0;
    var off := if f.offEdge then GroupDisable(s1, h, bypass, true) else (s1, bypass);
    assert s0.mode == st.mode && s0.lastState == st.lastState;
    OnSection(off.0, f, h, off.1)
  }

  /**
   * The last steps of a sample: the exclude button, then a pending
   * exclusion, which ends learning and excludes the parameter when its
   * module is in the strip and has it.
   */
  function Exclusions(st: State, f: Frame, h: Host): (r: State)
    requires f.dt > 0.0
    ensures !r.invoke && r.firstRun == st.firstRun
    ensures r.mode == st.mode && r.lastState == st.lastState && r.onMode == st.onMode
    ensures !st.invoke ==> r == ExcludeSection(st, f, h)
    ensures st.invoke ==> !r.excludeLearn
    ensures (st.invoke && st.pending.0 in Chain(st.mode, h) && st.pending.1 in ParamsOf(h, st.pending.0) ==>
      r.excluded == ExcludeSection(st, f, h).excluded + {st.pending})
    ensures (st.invoke && !(st.pending.0 in Chain(st.mode, h) && st.pending.1 in ParamsOf(h, st.pending.0)) ==>
      r.excluded == ExcludeSection(st, f, h).excluded)
  {
    var s := ExcludeSection(st, f, h);
    if s.invoke then ExcludeParam(s, h) else s
  }

  /** One sample, in the order `process` takes its steps. */
  datatype Result = Result(st: State, bypass: map<int, bool>, randomized: set<Param>)

  function Process(st: State, f: Frame, h: Host, bypass: map<int, bool>): (r: Result)
    requires f.dt > 0.0
    ensures !r.st.firstRun && !r.st.invoke
    ensures f.modeEdge && 0 <= st.mode < 2 ==> r.st.mode == st.mode + 1
    ensures f.modeEdge && st.mode == 2 ==> r.st.mode == 0
    ensures !f.modeEdge ==> r.st.mode == st.mode
    ensures r.st.onMode == st.onMode
    ensures st.onMode == OnHighLow ==> r.st.lastState == (f.onLevel < 1.0)
    ensures !f.randEdge ==> r.randomized == {}
    ensures forall e :: e in r.randomized ==> e.0 in Chain(r.st.mode, h) && e.1 in ParamsOf(h, e.0)
    ensures !st.firstRun ==> forall e :: e in r.randomized ==> e !in st.excluded
    ensures forall id :: id in bypass && id !in Chain(r.st.mode, h) ==> id in r.bypass && r.bypass[id] == bypass[id]
    ensures f.randEdge ==> r.randomized == Randomize(Switches(st, f, h, bypass).0, h)
    ensures OnQuiet(st.onMode, f) && !f.offEdge ==> r.bypass == bypass
    ensures (OnQuiet(st.onMode, f) && f.offEdge && !f.modeEdge && !st.lastState ==>
      r.st.lastState && forall id :: id in Chain(st.mode, h) ==> id in r.bypass && r.bypass[id])
    ensures (!f.offEdge && !f.modeEdge && r.st.lastState != st.lastState ==>
      forall id :: id in Chain(st.mode, h) ==> id in r.bypass && r.bypass[id] == r.st.lastState)
  {
    var on := Switches(st, f, h, bypass);
    var randomized := if f.randEdge then Randomize(on.0, h) else {};
    Result(Exclusions(on.0, f, h), on.1, randomized)
  }

  /**
   * An OFF edge on a strip last asked to run, with a quiet ON section and
   * no MODE edge, bypasses exactly the modules of the strip: the bypass map
   * afterwards is the old one with every strip module set and every other
   * entry kept.
   */
  lemma OffEdgeBypassesChain(st: State, f: Frame, h: Host, bypass: map<int, bool>)
    requires f.dt > 0.0 && f.offEdge && !f.modeEdge && !st.lastState && OnQuiet(st.onMode, f)
    ensures var r := Process(st, f, h, bypass);
      && r.st.lastState
      && r.bypass.Keys == bypass.Keys + Chain(st.mode, h)
      && forall id :: id in r.bypass ==> r.bypass[id] == (id in Chain(st.mode, h) || bypass[id])
  {
  }

  /**
   * A RAND edge without a MODE edge, once the first-run cleanup is done,
   * randomises exactly the strip's parameters that are not excluded.
   */
  lemma RandEdgeRandomizesStrip(st: State, f: Frame, h: Host, bypass: map<int, bool>)
    requires f.dt > 0.0 && f.randEdge && !f.modeEdge && !st.firstRun
    ensures var r := Process(st, f, h, bypass);
      forall e :: e in r.randomized <==> e.0 in Chain(st.mode, h) && e.1 in ParamsOf(h, e.0) && e !in st.excluded
  {
  }

  // ---------------------------------------------------------------- storage

  /** An entry of the stored exclusion list; either id may be missing. */
  datatype Entry = Entry(moduleId: Option<int>, paramId: Option<int>)

  /**
   * The stored form. The exclusion array is taken as the set of its entries:
   * the loader inserts into a set, so neither order nor repetition matters.
   */
  datatype Stored = Stored(mode: Option<int>, onMode: Option<int>, excluded: Option<set<Entry>>)

  /** `dataToJson`: cleans the list up first, then stores mode, on-mode and the list. */
  function ToJson(st: State, h: Host): (r: (State, Stored))
    ensures r.0 == Cleanup(st, h)
    ensures r.1.mode == Some(st.mode) && r.1.onMode == Some(st.onMode) && r.1.excluded.Some?
    ensures forall e :: e in r.1.excluded.value ==> e.moduleId.Some? && e.paramId.Some?
  {
    var c := Cleanup(st, h);
    (c, Stored(Some(st.mode), Some(st.onMode),
               Some(set e | e in c.excluded :: Entry(Some(e.0), Some(e.1)))))
  }

  /** `dataFromJson`: a missing id reads as 0; entries without both ids are skipped. */
  function FromJson(st: State, p: Stored): (r: State)
    ensures r.mode == (if p.mode.Some? then p.mode.value else 0)
    ensures r.onMode == (if p.onMode.Some? then p.onMode.value else 0)
    ensures p.excluded.None? ==> r.excluded == {}
    ensures p.excluded.Some? ==> forall m, q :: (m, q) in r.excluded <==> Entry(Some(m), Some(q)) in p.excluded.value
  {
    var entries := if p.excluded.Some? then p.excluded.value else {};
    st.(mode := if p.mode.Some? then p.mode.value else 0,
        onMode := if p.onMode.Some? then p.onMode.value else 0,
        excluded := set e | e in entries && e.moduleId.Some? && e.paramId.Some? :: (e.moduleId.value, e.paramId.value))
  }

  /** Saving then loading restores the modes and the cleaned-up exclusion list. */
  lemma JsonRoundTrip(st: State, h: Host, other: State)
    ensures var (c, p) := ToJson(st, h);
      var r := FromJson(other, p);
      r.mode == st.mode && r.onMode == st.onMode && r.excluded == c.excluded
  {
    var (c, p) := ToJson(st, h);
    var r := FromJson(other, p);
    assert forall e :: e in r.excluded ==> e in c.excluded by {
      forall e | e in r.excluded
        ensures e in c.excluded
      {
        assert Entry(Some(e.0), Some(e.1)) in p.excluded.value;
      }
    }
    assert forall e :: e in c.excluded ==> e in r.excluded by {
      forall e | e in c.excluded
        ensures e in r.excluded
      {
        assert Entry(Some(e.0), Some(e.1)) in p.excluded.value;
      }
    }
  }

  // ---------------------------------------------------------------- mapping fix

  /** A stored parameter mapping; its module id may be missing. */
  datatype MapEntry = MapEntry(moduleId: Option<int>, paramId: Option<int>)

  /** The modules whose stored data holds parameter mappings by module id. */
  predicate MapsParams(plugin: string, model: string) {
    || (plugin == "Stoermelder-P1" && (model == "CVMap" || model == "CVMapMicro" || model == "CVPam" || model == "ReMoveLite"))
    || (plugin == "Core" && model == "MIDI-Map")
  }

  /**
   * The id of the module loaded for an old id: the old-to-new table holds
   * `None` for a module that could not be created, and a missing entry
   * counts the same.
   */
  function NewId(modules: map<int, Option<int>>, oldId: int): int {
    if oldId in modules && modules[oldId].Some? then modules[oldId].value else -1
  }

  /** One mapping: a non-negative module id is replaced by the new one, or -1. */
  function FixEntry(e: MapEntry, modules: map<int, Option<int>>): (r: MapEntry)
    ensures r.paramId == e.paramId
    ensures e.moduleId.None? || e.moduleId.value < 0 ==> r == e
    ensures e.moduleId.Some? && e.moduleId.value >= 0 ==> r.moduleId == Some(NewId(modules, e.moduleId.value))
  {
    if e.moduleId.Some? && e.moduleId.value >= 0 then e.(moduleId := Some(NewId(modules, e.moduleId.value))) else e
  }

  /**
   * `groupFromJson_presets_fixMapping`: for the mapping modules, every
   * stored mapping is moved to the loaded module ids; other modules' data
   * is left alone.
   */
  function FixMapping(plugin: string, model: string, maps: Option<seq<MapEntry>>,
                      modules: map<int, Option<int>>): (r: Option<seq<MapEntry>>)
    ensures !MapsParams(plugin, model) || maps.None? ==> r == maps
    ensures maps.Some? ==> r.Some? && |r.value| == |maps.value|
    ensures MapsParams(plugin, model) && maps.Some? ==>
      forall k :: 0 <= k < |maps.value| ==> r.value[k] == FixEntry(maps.value[k], modules)
  {
    if !MapsParams(plugin, model) || maps.None? then maps
    else Some(seq(|maps.value|, k requires 0 <= k < |maps.value| => FixEntry(maps.value[k], modules)))
  }

  /**
   * Fixing a mapping and then fixing it again with the table from the new
   * ids back to the old ones restores every mapping whose module was loaded,
   * as long as no two old modules got the same new id.
   */
  lemma FixMappingInverse(plugin: string, model: string, maps: seq<MapEntry>,
                          modules: map<int, Option<int>>, back: map<int, Option<int>>)
    requires MapsParams(plugin, model)
    requires forall k :: 0 <= k < |maps| && maps[k].moduleId.Some? && maps[k].moduleId.value >= 0 ==>
      NewId(modules, maps[k].moduleId.value) >= 0
    requires forall o :: o in modules && modules[o].Some? && modules[o].value >= 0 ==>
      NewId(back, modules[o].value) == o
    ensures FixMapping(plugin, model, FixMapping(plugin, model, Some(maps), modules), back) == Some(maps)
  {
    var once := FixMapping(plugin, model, Some(maps), modules).value;
    var twice := FixMapping(plugin, model, Some(once), back).value;
    forall k | 0 <= k < |maps|
      ensures twice[k] == maps[k]
    {
      var e := maps[k];
      if e.moduleId.Some? && e.moduleId.value >= 0 {
        assert once[k].moduleId == Some(NewId(modules, e.moduleId.value));
      }
    }
    assert twice == maps;
  }
}
